=== FILE: README.md ===
# Repair requests of a household-appliance service: a Dafny model

This project models the core of a service that records repair requests for household
appliances. It has two stores.

- **The repair-management store** is `Work_DB.py` with its SQLite database `repair_management.db`.
  - It has seven tables: user types, users, equipment types and models, request statuses, repair requests and comments.
  - Their UNIQUE, NOT NULL, CHECK and FOREIGN KEY constraints are modelled.
  - Seeding puts in the user types and the statuses.
  - The operations are: create a request, assign a master, change a status, add a comment, the filtered listing, and the CSV export header.
  - `import_from_excel` loads users, requests and comments from three sheets in one transaction.
- **The service-centre application** is `App_files/App.py` with its database `service_requests.db`.
  - `check_and_update_tables` repairs an old `comments` table.
  - `load_all_data` runs the three legacy spreadsheet loaders.
  - The JSON handlers covered are: create a request, assign a master, add a comment, the role-scoped list and search, the statistics counts and the template comments.
  - The page's permission flags are covered too.

Each store is an immutable value. An operation returns its reply together with the store after it.

- An operation that raises inside a transaction leaves the store exactly as it was (rollback).
- A legacy loader skips the row that raised and keeps the rows before it.

Some things become parameters instead of being modelled:

- the current time;
- password hashing;
- whether a spreadsheet file exists (`Option<Sheet>`).

Spreadsheet cells are what pandas hands the code: NaN, an integer, text or a timestamp. Python's `str`, `int`, `bool` and `pd.notna` are defined on them once, in `Cells`. A timestamp cell bound to a statement as it is raises, because sqlite3 looks its parameter adapters up by exact type and has none for `pd.Timestamp`; the loaders that format a timestamp with `strftime` or `str()` first do not raise.

Modules:

- `Wrappers`: Option and Result.
- `Cells`: spreadsheet cells.
- `Tables`: AUTOINCREMENT tables, rowid order.
- `SqlValues`: SQLite values, affinity, comparison, `||`, COALESCE.
- `Strings`: order, `sorted(set())`, LIKE, decimal text.
- `Dates`: `strptime`, day numbers.
- `Roles`: the role and status vocabularies, permission flags.
- `RepairStore`: `Work_DB.py`'s schema and operations.
- `ExcelImport`: `import_from_excel`.
- `Migration`: `check_and_update_tables`.
- `ServiceStore`: `App.py`'s store and loaders.
- `ServiceApi`: `App.py`'s JSON handlers.

Where the documentation of the system and its code disagree, the model follows the code:

- **An unresolved client aborts the whole import.** The documentation says a requests row whose client does not resolve is skipped. In the code the NULL `client_id` breaks a NOT NULL constraint. That raises, and the whole import rolls back (`ExcelImport.ImportRequestRow` and `ExcelImport.ImportWith` state this).
- **The comments phase sets no flag.** The documentation mentions a `has_comment` flag set by the import. The repair-management schema has no such column, so the comments phase sets nothing.

## Model

| member | source | states |
|---|---|---|
| `Cells.Field` | App_files/App.py:306-324 | `row[col]` raises a KeyError exactly when the sheet has no such column; otherwise it is the row's cell, NaN when the row holds none |
| `Tables.Append` | Work_DB.py:191 | an AUTOINCREMENT insert gets the sequence value plus one as its rowid, which is positive, not in use and above every rowid ever handed out, and becomes the new sequence value; only that row is added |
| `Tables.AppendedRows` | Work_DB.py:191 | inserting values one by one from sequence value `last` keeps the rows at or below it and puts the i-th value at rowid `last + 1 + i`, and adds no other row |
| `Tables.Greatest` | App_files/App.py:2452-2454 | `MAX(...)` of a non-empty set is a member of it and no member exceeds it |
| `Tables.FirstWhere` | App_files/App.py:2693-2696 | `fetchone()` without a unique key: the matching row with the least rowid, and None exactly when no row matches |
| `SqlValues.OfCell` | Work_DB.py:557-573 | a NaN cell is bound as NULL and only a NaN cell is; an integer is bound as that integer and text as the cell's `str()`; a timestamp, which sqlite3 has no adapter for, raises exactly then |
| `SqlValues.IntegerAffinity` | App_files/App.py:65-68 | an INTEGER column stores text that spells an integer as that integer, and keeps NULL, integers and text that is not an optional sign followed by decimal digits |
| `SqlValues.TextAffinity` | App_files/App.py:69-71 | a TEXT column keeps NULL and text, and stores an integer as decimal text that reads back as the integer |
| `SqlValues.AtLeastMirrorsAtMost` | Work_DB.py:915-921 | `a >= b` is `b <= a`; on non-NULL values exactly one of `<` and `>=` holds; both bounds holding forces equality |
| `SqlValues.BelowTransitive` | Work_DB.py:915-921 | SQLite's cross-type order used by the date range filters is transitive |
| `Roles.RoleName` | Work_DB.py:53-62 | `User.role` names ids 1 to 4 by the seeded types in seeding order, anything else as Неизвестно |
| `Roles.TypeIdRoundTrip` | Work_DB.py:418-423 | the import's type-name mapping is the inverse of `User.role` on the four seeded ids |
| `Roles.TypeIdOfLabelMeaning` | Work_DB.py:418-423 | every type name maps into 1..4; an id below 4 names that type back; a name of none of the first three types maps to 4 |
| `Roles.StatusIdOfLabelMeaning` | Work_DB.py:488-494 | each seeded status name maps to its seeding position plus one; any other name maps to 1, and a result other than 1 names its status back |
| `Roles.AppRoleOfCell` | App_files/App.py:297-308 | the legacy loader's role is one of the four application roles, and a missing type cell is a client |
| `Roles.AppRoleMatchesTypeId` | App_files/App.py:297-302 | the legacy loader and the repair import classify every user-type name the same way |
| `Roles.PermissionFlags` | App_files/App.py:953-958 | the staff roles hold assigning, statistics and editing all together; a master edits own requests and views masters but does not create; a session without a role only creates |
| `Strings.SortUnique` | Work_DB.py:1223-1227 | `sorted(set(xs))` is strictly ascending and holds exactly the elements of `xs` |
| `Strings.SortedUnique` | Work_DB.py:1223-1227 | two strictly sorted sequences with the same elements are equal, so the sorted distinct listing is unique |
| `Strings.PyIntPlain` | App_files/App.py:306 | on text without white space or underscores, Python's `int()` reads exactly what the strict sign-and-digits reading does |
| `Strings.PyIntPadded` | App_files/App.py:306 | `int()` ignores white space around the number |
| `Strings.PyIntDecimal` | App_files/App.py:306 | `int()` reads back every integer written in decimal |
| `Dates.ParseYmd` | App_files/App.py:445-446 | what `strptime(..., '%Y-%m-%d')` accepts is a valid calendar date |
| `Dates.ParseFormatted` | App_files/App.py:445-446 | every valid date written as `YYYY-MM-DD` parses back to itself (round trip of strftime and strptime) |
| `Dates.OrdinalNextDay` | App_files/App.py:447 | the day numbers used for the difference of two dates are consecutive on consecutive calendar days |
| `Dates.DaysBeforeYearMatchesCounting` | App_files/App.py:447 | the closed leap-year formula for day numbers equals adding up the year lengths one by one |
| `Dates.DaysInProcess` | App_files/App.py:442-449 | no value exactly when there is no non-empty completion date; 0 when either ten-character prefix fails to parse |
| `Dates.DaysInProcessOfCanonical` | App_files/App.py:442-449 | for canonically written dates, whatever follows the date, the result is the number of days from start to completion |
| `Dates.DaysInProcessNextDay` | App_files/App.py:447 | a request completed the calendar day after it started has been in process one day |
| `Migration.MissingColumns` | App_files/App.py:50-57 | the list is empty exactly when every required column is present |
| `Migration.Target` | App_files/App.py:90-102 | a recognised old column goes into a column of the new table: its own name, or an author column equal to its lower-cased name |
| `Migration.CopiedColumns` | App_files/App.py:90-102 | the first loop pairs each selected old column with its target, in order |
| `Migration.CopiedTargetsDistinct` | App_files/App.py:90-102 | old names that differ beyond letter case never collide on one insert column |
| `Migration.InsertedColumnsNew` | App_files/App.py:87-108 | only columns of `comments_new` are inserted into |
| `Migration.ColumnListsSelected` | App_files/App.py:87-108 | an old column is selected if and only if it is recognised, and then it goes into its own target |
| `Migration.ColumnListsNulls` | App_files/App.py:104-108 | a NULL is selected only for an author column that no old column supplies |
| `Migration.ColumnListsShape` | App_files/App.py:87-108 | the insert list is duplicate-free, holds all three author columns and only new columns, and matches the select list position by position |
| `Migration.Project` | App_files/App.py:111-117 | the bound row has exactly the insert columns, each with the value selected for it |
| `Migration.StoreRow` | App_files/App.py:62-77 | the stored row holds each bound value after its column's affinity (INTEGER for the id columns, TEXT for the author and message columns), a fresh AUTOINCREMENT id and `created_at` its default when unbound; it fails exactly on a NULL `request_id` or `message`, an `id` that is not an integer, or an `id` already used |
| `Migration.CopyRows` | App_files/App.py:115-117 | `executemany` stores every bound row in order, or fails as a whole |
| `Migration.CopyTable` | App_files/App.py:110-117 | every old row becomes one new row stored from its bound values, with only new columns |
| `Migration.CheckAndUpdateTables` | App_files/App.py:40-165 | the table is reported current exactly when no required column is missing; the repair completes exactly when a column is missing, the table exists and every row copies, and otherwise reports the missing table or the copy's own fault; `comments` is left alone unless the repair completed; a completed repair holds exactly the copied rows; `masters` and `status_history` exist afterwards |
| `Migration.ProjectedFromColumn` | App_files/App.py:90-102 | a recognised old column's value lands in its target column |
| `Migration.ProjectedNull` | App_files/App.py:104-108 | an author column no old column supplies is NULL |
| `Migration.ProjectedAsIs` | App_files/App.py:90-93 | a column copied under its own name keeps its value, NULL when the old table lacks it |
| `Migration.MigrationIdempotent` | App_files/App.py:40-165 | running the repair again changes nothing, and after a repair the second run finds nothing missing |
| `Migration.MigratedRowKeepsValues` | App_files/App.py:110-121 | a migrated row holds its old `request_id`, `comment_id` and `master_id` after INTEGER affinity, its `message` after TEXT affinity, and its integer `id`; `request_id` and `message` are not NULL |
| `Migration.CopiedValue` | App_files/App.py:110-121 | a column copied under its own name, other than the key and the timestamp, holds its old value after its new column's affinity |
| `Migration.MigratedRowAuthor` | App_files/App.py:94-102 | an author column spelled in another letter case arrives under its lower-case name, after that column's affinity |
| `Migration.MigratedRowAuthorMissing` | App_files/App.py:104-108 | an author column the old table lacked under every spelling is NULL in every copied row |
| `RepairStore.InsertOrIgnore` | Work_DB.py:279-307 | after `INSERT OR IGNORE` the key is present; a clash leaves the table and its sequence unchanged; otherwise the row goes in at `last + 1`; UNIQUE is preserved |
| `RepairStore.InsertAllOrIgnore` | Work_DB.py:279-307 | `executemany` of `INSERT OR IGNORE`: every key present afterwards, old rows untouched, new rows drawn from the values, UNIQUE preserved |
| `RepairStore.InsertAllPresent` | Work_DB.py:279-307 | inserting values whose keys are all taken changes nothing |
| `RepairStore.InsertAllFresh` | Work_DB.py:279-307 | fresh, distinct keys land at consecutive rowids after `last`, in order |
| `RepairStore.PopulateInitial` | Work_DB.py:279-307 | seeding makes every seeded user type and status present, keeps existing rows, changes no other table and preserves the constraints |
| `RepairStore.PopulateInitialIdempotent` | Work_DB.py:279-307 | seeding twice is seeding once |
| `RepairStore.SeededTypeIds` | Work_DB.py:282-293 | seeded into an empty table, each user type gets the id that `User.role` names it by |
| `RepairStore.SeededStatusIds` | Work_DB.py:295-307 | seeded into an empty table, each status gets the id the import's status mapping gives its name |
| `RepairStore.TypeIdFor` | Work_DB.py:683-697 | get-or-create: an existing type name is reused without change; otherwise exactly one type row is added; the id names the type |
| `RepairStore.ModelIdFor` | Work_DB.py:699-714 | get-or-create by (name, type): it fails exactly when a new model would reference a missing type, and then nothing changes |
| `RepairStore.DateValue` | Work_DB.py:193-198 | a DATE column (NUMERIC affinity) stores text that spells an integer as that integer, and keeps NULL, integers and other text |
| `RepairStore.InsertRequest` | Work_DB.py:190-211 | the dates are stored after their column's affinity, and the insert succeeds exactly when that stored row passes NOT NULL, both CHECKs and every foreign key; the new id is the next AUTOINCREMENT rowid and the constraints are preserved |
| `RepairStore.InsertComment` | Work_DB.py:216-224 | a comment is stored exactly when its author and request exist |
| `RepairStore.RequestNumberRoundTrip` | Work_DB.py:192 | the generated number starts with `REQ-`, its digits read back as the request id, and it is ten characters below a million |
| `RepairStore.RequestNumberInjective` | Work_DB.py:192 | different requests get different numbers |
| `RepairStore.NewStatusId` | Work_DB.py:716-720 | the id of the Новая заявка status, present exactly when that status exists |
| `RepairStore.CreateRequest` | Work_DB.py:675-754 | succeeds exactly when the new-request status exists, the priority is in 1..5 and the client exists; the new request carries the given fields, dated today as the DATE column stores it; only the equipment and request tables can change, and failure changes nothing; constraints preserved |
| `RepairStore.CreateRequestAsWritten` | Work_DB.py:731-737 | as written, the UPDATE of the generated column always fails, so nothing is ever created |
| `RepairStore.CreateRequestAsWrittenNeverCreates` | Work_DB.py:731-737 | for every input the corrected version accepts, the as-written version still fails |
| `RepairStore.StatusIdNamed` | Work_DB.py:781-785 | the status lookup finds a row exactly when a status of that name exists, and the row it finds has that name |
| `RepairStore.AssignMaster` | Work_DB.py:756-815 | succeeds exactly when the request, a Мастер or Менеджер master, the in-progress status and the author exist; a missing request and a non-master are refused first; on success only the master and status change, and one comment records it |
| `RepairStore.UpdateRequestStatus` | Work_DB.py:817-858 | an unknown status is refused with nothing written; on success only the status changes, with completion set to today, as the DATE column stores it, for Готова к выдаче, and the completion CHECK is tested on that value |
| `RepairStore.OnlyReadyCanFailCheck` | Work_DB.py:837-843 | in a consistent database, setting any existing status other than Готова к выдаче always succeeds |
| `RepairStore.AddComment` | Work_DB.py:860-885 | a comment is added exactly when the author and request exist; otherwise nothing changes |
| `RepairStore.ListRequests` | Work_DB.py:891-934 | the listing is drawn from the view's rows |
| `RepairStore.ListRequestsIntersection` | Work_DB.py:902-925 | the filters are conjunctive: the listing is the intersection of the one-condition listings |
| `RepairStore.ListAllOfConsistent` | Work_DB.py:313-343 | without filters, in a consistent database every request is listed |
| `RepairStore.ListRequestsAsWritten` | Work_DB.py:907-913 | as written, a client or master filter makes the query fail and the listing empty; otherwise it is the corrected listing |
| `RepairStore.ClientFilterLosesRows` | Work_DB.py:907-913 | a request the corrected client filter lists is missing from the as-written listing |
| `RepairStore.CsvHeader` | Work_DB.py:1223-1227 | the header is sorted, has no repeats and holds exactly the keys of the rows; none without rows |
| `RepairStore.CsvHeaderUnique` | Work_DB.py:1223-1227 | any sorted, duplicate-free listing of the rows' keys is the header |
| `ExcelImport.UpsertUser` | Work_DB.py:429-466 | the user with that login, at the least rowid holding it, is overwritten in place and keeps its rowid, and only when the login is taken; otherwise the user goes in under a rowid not in use; only the users table changes, no user loses its login, and with an existing type the constraints are preserved |
| `ExcelImport.ImportUserRow` | Work_DB.py:425-468 | a users row succeeds exactly when its six columns exist, its type exists and its `userID` reads as an integer; then the user the row describes is written over the user holding its login, or as a new user, the `int(userID)` is returned with that rowid, and the constraints are preserved |
| `ExcelImport.SheetLoginsLast` | Work_DB.py:468 | each id of the users sheet is kept with the login of the last row carrying it, and only the sheet's ids are kept, as the overwriting mapping does |
| `ExcelImport.SheetPersonsLast` | Work_DB.py:425-466 | a row whose login no later row repeats is the final write for that login |
| `ExcelImport.UsersFromSucceeds` | Work_DB.py:425-477 | the users loop succeeds only if every row from the current one on is accepted |
| `ExcelImport.UsersFromAccepts` | Work_DB.py:425-477 | the users loop succeeds when every row from the current one on is accepted |
| `ExcelImport.UsersFromMaps` | Work_DB.py:425-468 | after the loop each sheet id maps to a user holding the login of the last row carrying that id |
| `ExcelImport.UsersFromLast` | Work_DB.py:425-466 | after the loop every row whose login no later row repeats is a user exactly as that row describes it |
| `ExcelImport.ImportUsers` | Work_DB.py:414-477 | the phase succeeds exactly when every row is accepted, and then changes only the users table, removes and renames no user, makes every sheet login present, maps exactly the sheet ids, each to a user with the login of the last row carrying it, and keeps every row no later row overrides as a user; with all logins present no user is added; constraints preserved |
| `ExcelImport.UsersImportedRows` | Work_DB.py:425-468 | after the users phase, the user each id maps to has the login of the last row with that id, and every row whose login no later row repeats is stored exactly as written |
| `ExcelImport.TypeIdMemo` | Work_DB.py:501-520 | a remembered type name is answered from the memo without touching the store; otherwise get-or-create, then remembered |
| `ExcelImport.ModelIdMemo` | Work_DB.py:525-547 | a remembered model key is answered from the memo; otherwise get-or-create under the type, then remembered |
| `ExcelImport.MemoSoundGrows` | Work_DB.py:501-547 | a memo whose entries name matching rows stays sound while rows are only added |
| `ExcelImport.MemoStepSound` | Work_DB.py:501-547 | one lookup keeps the memo sound, and the model id it gives names that model under that type |
| `ExcelImport.ResolveEquipment` | Work_DB.py:499-547 | with the type and model columns present it always resolves; with an injective memo key the model id names this row's model under this row's type |
| `ExcelImport.MasterOf` | Work_DB.py:554 | a NaN master is none; otherwise `int()` must read it, and it resolves exactly when the mapping knows it |
| `ExcelImport.ReadRequest` | Work_DB.py:550-573 | the row reads exactly when its columns exist, the client resolves, `masterID` is NaN or an integer and neither date is a timestamp; then the dates are the cells as bound, and the request, once its dates take their column's affinity, carries the row's text, status by label, client and master through the mapping, priority 3 and the given type and model |
| `ExcelImport.StoreRequest` | Work_DB.py:550-576 | the insert succeeds exactly when the row reads, its dates pass NOT NULL and the CHECK, its status, equipment and users exist, and `int(requestID)` reads; then exactly one request, transcribing the row, is added under the next AUTOINCREMENT rowid, nothing else changes, and the constraints are preserved |
| `ExcelImport.ImportRequestRow` | Work_DB.py:500-576 | a requests row succeeds only when it is accepted and its client and master exist, and does whenever they do and the memo's rows exist; then its request is added under the next rowid, transcribing the row, equipment rows are only added, the constraints are preserved, and with an injective memo key the request is filed under the row's own type and model |
| `ExcelImport.LastWith` | Work_DB.py:576 | the last of the first n rows whose id column reads as x, and none exactly when no row does; this is the row an overwriting mapping keeps |
| `ExcelImport.ExtIdsLast` | Work_DB.py:576 | an id is among the sheet's ids exactly when some row carries it |
| `ExcelImport.ImportRequests` | Work_DB.py:483-585 | the phase succeeds only when every row is accepted, and does when also every mapped user exists; then the j-th row's request, transcribing it, is under the j-th rowid after the old sequence value, no other request is added, only equipment and requests change, each sheet id maps to the request of the last row carrying it; with an injective memo key every request is filed under its row's own type and model and models agree with types; constraints preserved |
| `ExcelImport.ImportCommentRow` | Work_DB.py:596-605 | a comments row succeeds exactly when both ids read and, if both resolve, the message column exists and the author and request exist; a resolving row adds exactly its comment under the next rowid, any other row writes nothing |
| `ExcelImport.ImportComments` | Work_DB.py:590-614 | the phase succeeds exactly when every row succeeds; then the comments of the resolving rows are added in sheet order under consecutive new rowids, the count is their number, and no other table changes; constraints preserved |
| `ExcelImport.ImportRequestsAndComments` | Work_DB.py:479-614 | the requests and comments phases together: success only on accepted request rows and comment rows whose ids read, and always on those when the mapped users exist and the message column is there; then both phases' results hold of the final database |
| `ExcelImport.ImportWith` | Work_DB.py:390-636 | any failure rolls the whole import back; success only on sheets whose every users row, requests row and comments id pair reads, and always on those when the comments sheet has `message`; on success each phase's result holds of the final database, the counts are the numbers of distinct user and request ids and the comments added; constraints preserved |
| `ExcelImport.ImportFromExcelAsWritten` | Work_DB.py:390-636 | the import with the joined-string model key: the same success conditions, phase results and rollback as `ExcelImport.ImportWith`, and the constraints, but no guarantee that models agree with types |
| `ExcelImport.ImportFromExcel` | Work_DB.py:390-636 | the import with the pair key: the same success conditions, phase results and rollback, every request filed under its row's own type and model, and every model agreeing with its request's type |
| `ExcelImport.JoinedKeyCollides` | Work_DB.py:525 | two different (type, model) pairs share one joined key, so that key is not injective |
| `ExcelImport.JoinedKeyMisfilesModel` | Work_DB.py:524-547 | with the joined key, a row of type A and model B_C gets the model remembered for type A_B and model C |
| `ExcelImport.PairKeyFilesModel` | Work_DB.py:524-547 | with the pair key, the same row is filed under its own model and type |
| `ServiceStore.ReplaceAccount` | App_files/App.py:314-324 | `INSERT OR REPLACE` by id: the row is stored under the id, a row clashing on the login is removed, other rows stay, login uniqueness holds |
| `ServiceStore.ReplaceAccountIdempotent` | App_files/App.py:314-324 | replacing the same row twice is replacing it once |
| `ServiceStore.ReplaceMaster` | App_files/App.py:327-337 | the masters row is stored under a new id; the one row with that login is it; other logins' rows stay |
| `ServiceStore.InsertAccountOrIgnore` | App_files/App.py:563-591 | a taken login leaves the table unchanged; otherwise exactly one row is added; login uniqueness holds |
| `ServiceStore.InsertMasterOrIgnore` | App_files/App.py:563-591 | a taken master login leaves the table unchanged; otherwise exactly one row is added |
| `ServiceStore.AddDefaultUser` | App_files/App.py:575-591 | the user's login is present afterwards, and for a master also the masters row; nothing changes when both were present |
| `ServiceStore.AddDefaultUsers` | App_files/App.py:575-591 | every default login is present afterwards and existing rows are untouched |
| `ServiceStore.CreateDefaultUsers` | App_files/App.py:563-591 | the seven built-in logins are present, and masters rows for the masters; existing users are kept |
| `ServiceStore.CreateDefaultUsersIdempotent` | App_files/App.py:563-591 | running `create_default_users` again adds nothing |
| `ServiceStore.ReadUserRow` | App_files/App.py:304-324 | raises exactly on a missing column, a `userID` that `int()` rejects, or a timestamp `login` or `fio` bound as it is; otherwise each field is the cell's text or its numbered default |
| `ServiceStore.ApplyUserRow` | App_files/App.py:313-337 | the account is upserted by id; the masters table changes exactly for a master, which gets the row built from its account, and masters rows with other logins stay |
| `ServiceStore.LoadUserRows` | App_files/App.py:304-342 | the other tables are unchanged and login uniqueness is preserved, whichever rows raise |
| `ServiceStore.LoadUserRowsKeeps` | App_files/App.py:304-342 | an account whose id and login no later row that reads shares is left as it is |
| `ServiceStore.LoadUserRowsSurvivors` | App_files/App.py:304-342 | every row that reads and is not overridden by a later row with its id or login ends up stored under its id, and a master also has its masters row |
| `ServiceStore.LoadUsers` | App_files/App.py:284-348 | without a users sheet the default users are created; with one, uniqueness is preserved and every row no later row overrides holds its account, and for a master its masters row |
| `ServiceStore.ReadCombinedRow` | App_files/App.py:368-409 | raises exactly on a missing column, an integer column `int()` rejects, or a timestamp in a column bound as it is; otherwise each of the twenty fields is the cell's value or its default, `request_id` defaulting to the row position plus one, and the master type follows the master id |
| `ServiceStore.CombinedInts` | App_files/App.py:368-395 | the four integer columns raise exactly when a non-NaN cell is not read by `int()`; NaN gives None, the row number or 0 |
| `ServiceStore.ReadInputRow` | App_files/App.py:410-479 | raises exactly on a missing column, a client or master id `int()` rejects, a request id that is NaN or not an integer, or a timestamp in a text column bound as it is; otherwise start and completion as read, timestamps formatted first, days in process from the two dates, and client and master details from the store or the defaults |
| `ServiceStore.LoadRequestRows` | App_files/App.py:364-482 | a request id is present afterwards exactly when it was before or some row from this position on reads as it; then it holds what the last such row describes, and otherwise its old value |
| `ServiceStore.LoadRequests` | App_files/App.py:350-487 | without a sheet nothing happens; with one, each request id holds what the last row reading as it describes, other requests and tables are unchanged |
| `ServiceStore.LoadRequestsIdempotent` | App_files/App.py:380-409 | loading the same requests sheet twice is loading it once, since every row is an upsert by request id |
| `ServiceStore.AuthorOf` | App_files/App.py:520-529 | a known master gives its user, its name and that user's type, `master` for an unknown user; an unknown or missing master leaves all three NULL |
| `ServiceStore.ReadCommentRow` | App_files/App.py:515-543 | a comments row raises exactly on a missing column, an id `int()` rejects, a NaN request id (NOT NULL) or a timestamp message; otherwise the comment carries the row's ids, message and author |
| `ServiceStore.MarkCommented` | App_files/App.py:546-551 | only the request with that id gets its flag set, and the set of requests is unchanged |
| `ServiceStore.ApplyCommentRow` | App_files/App.py:515-551 | a row succeeds exactly when it reads; then exactly its comment is appended, and only the request it names, when truthy, is flagged |
| `ServiceStore.LoadCommentRows` | App_files/App.py:515-556 | the existing comments stay as a prefix, no flag is cleared, no request is added |
| `ServiceStore.LoadCommentRowsAppends` | App_files/App.py:515-556 | the comments of the rows that read are appended in sheet order, and a request is flagged afterwards exactly when it was or one of those comments names it |
| `ServiceStore.LoadCommentRowsNotes` | App_files/App.py:515-556 | the comments rows from a position on append, in sheet order, the comment of every row that does not raise |
| `ServiceStore.LoadCommentRowsFlags` | App_files/App.py:546-551 | a request is flagged after the comments rows exactly when it was before or a comment they append names it with a truthy id |
| `ServiceStore.LoadComments` | App_files/App.py:489-561 | without a sheet nothing happens; with one, the comments of the rows that read are appended in order and exactly the requests they name are newly flagged |
| `ServiceStore.LoadCommentsKeepsFlags` | App_files/App.py:546-551 | if every stored comment's request is flagged, that stays so after loading comments |
| `ServiceStore.LoadCommentsTwice` | App_files/App.py:532-551 | loading a comments sheet twice inserts its comments twice, as comments have no key to replace on, and flags nothing more |
| `ServiceStore.LoadAllData` | App_files/App.py:273-282 | the history is untouched and existing comments stay as a prefix |
| `ServiceApi.NextRequestId` | App_files/App.py:2452-2454 | the next id is not in use: one above the greatest id, or 1 for an empty table |
| `ServiceApi.ReadCreateFields` | App_files/App.py:2464-2469 | the five values are read in order, and the read fails exactly when a key is missing |
| `ServiceApi.NewRequest` | App_files/App.py:2456-2472 | the row is built exactly when all five keys hold non-null values and a given status is not null; it carries all five values, the status or Новая заявка, the caller's login, the client type and the current time |
| `ServiceApi.CreateRequest` | App_files/App.py:2442-2479 | an anonymous caller is refused; otherwise the request goes in under the next id, and a missing or null field writes nothing |
| `ServiceApi.CreateRequestNumbersConsecutively` | App_files/App.py:2452-2454 | two creations in a row get consecutive request ids |
| `ServiceApi.AssignMaster` | App_files/App.py:2482-2522 | succeeds exactly for a staff caller naming an existing master; the request, if it exists, gets the master and the in-repair status, and a history row is added either way |
| `ServiceApi.AssignedRequestListed` | App_files/App.py:2504-2509 | after an assignment the request is in a master's listing exactly when that master's login names the assigned masters row |
| `ServiceApi.AssignMasterTwice` | App_files/App.py:2504-2515 | a second identical assignment leaves the requests as the first did and logs the same change once more |
| `ServiceApi.CallerMaster` | App_files/App.py:2690-2696 | only a master caller with a user id has a master id; it is none exactly when no masters row has that user, and otherwise the least such row |
| `ServiceApi.AppendParts` | App_files/App.py:2712-2717 | new parts are appended after a comma, or become the parts when there were none |
| `ServiceApi.AddComment` | App_files/App.py:2675-2725 | succeeds exactly for a signed-in caller whose body holds a request id and a message; the comment is appended and only the named request is flagged |
| `ServiceApi.MasterByLogin` | App_files/App.py:2755-2759 | the masters row whose login is the caller's, and none exactly when no row has it |
| `ServiceApi.ListRequests` | App_files/App.py:2377-2417 | a client sees exactly the requests filed under their login; a master without a masters row sees none, and with one exactly the requests assigned to it; everyone else sees all of them |
| `ServiceApi.ClientListingIsSelection` | App_files/App.py:2387-2392 | a client's listing is the selection of the requests whose client login is theirs |
| `ServiceApi.MasterListingIsSelection` | App_files/App.py:2393-2405 | a master's listing is the selection of the requests assigned to the masters row with their login |
| `ServiceApi.SearchRequests` | App_files/App.py:2728-2789 | a request is found exactly when the list shows it and one of the six columns contains the query |
| `ServiceApi.SearchEmptyIsList` | App_files/App.py:2739 | an empty query finds exactly what the list shows |
| `ServiceApi.Classify` | App_files/App.py:2564-2576 | every problem gets one of the five categories; Другое exactly when no phrase occurs; the first pair of phrases decides first |
| `ServiceApi.CategoryIds` | App_files/App.py:2564-2576 | a category's requests are exactly those classified under it |
| `ServiceApi.GetStats` | App_files/App.py:2525-2599 | the total is the number of requests; completed counts the requests in Готова к выдаче or Завершена and in-process those in В процессе ремонта; one count per category in category order |
| `ServiceApi.CategoriesCover` | App_files/App.py:2564-2576 | every request lies in one of the five categories |
| `ServiceApi.CategoriesDisjoint` | App_files/App.py:2564-2576 | different categories share no request |
| `ServiceApi.ProblemCountsPartition` | App_files/App.py:2578-2587 | the category counts add up to the total, so the percentages are shares of one whole |
| `ServiceApi.CompletedAndInRepairBounded` | App_files/App.py:2531-2538 | completed and in-repair requests are disjoint, and together never exceed the total |
| `ServiceApi.TemplateComments` | App_files/App.py:2329-2361 | the distinct sheet messages in sorted order, or the six built-in phrases when there are none |

## Left out

- ORDER BY clauses: listings are sets of ids, and the order of the rows is not modelled.
- The average of `days_in_process`, the percentages and `round()` in `get_stats`: floating point is not modelled. The status and type distributions (`GROUP BY`) are not modelled either; only the counts and the problem categories are.
- LIKE wildcards inside the query text (`%`, `_`) are not modelled: the query is matched as a plain substring. Case folding is ASCII only, as SQLite does it.
- `Cells.IntOf`: `int()` on non-ASCII digits is not modelled (white space and underscores are); neither is pandas turning an integer column with NaN into floats: a cell is NaN, an integer, text or a timestamp.
- REAL affinity and real numbers in cells are not modelled. NUMERIC affinity is modelled only for integer text, which it stores as INTEGER does: for `comments_new.created_at` and for `repair_requests.start_date` and `completion_date` (`RepairStore.DateValue`). INTEGER and TEXT affinity are modelled.
- `SqlValues.IntegerAffinity`: SQLite also converts integer text with surrounding white space (`" 12 "`) and real literals with an integral value (`"5.0"`, `"1e3"`); the model keeps such text as text, in every column it applies INTEGER or NUMERIC affinity to.
- `SqlValues.OfCell`: integers are unbounded, so the OverflowError sqlite3 raises when it binds an integer outside the signed 64-bit range is not modelled; the same holds for every id that `int()` reads and is then bound.
- `ServiceStore.ReadCombinedRow`: `App.py`'s `start_date` and `completion_date` are declared TIMESTAMP, which gives them NUMERIC affinity, but the loaded requests keep their dates as text; a date cell that spells an integer is not converted. The same holds for `ServiceStore.ReadInputRow`.
- `init_db`, `create_tables_from_scratch`, and the `CREATE TABLE` statements as actions: the schemas are modelled as the constraints of the store.
- Opening files, `os.path.exists`, and reading sheets: a sheet is a value, and a missing file is `None`.
- Password hashing (`generate_password_hash`, SHA-256): it is a parameter `hash`.
- `authenticate`, `last_login`, sessions and login handling: the session is an input to the handlers.
- Read-only getters that only fetch a row or a list (`get_request`, the masters and comments getters): no property beyond the lookup.
- `datetime.now()`, `date('now')` and `CURRENT_TIMESTAMP`: they are parameters (`now`, `today`). The `created_at` and `updated_at` columns are left out.
- The view's `days_in_process` (`julianday`), which is a floating-point difference.
- Flask routing, HTML pages, redirects and HTTP status codes beyond the refusal codes.
- Backup, JSON export, the CSV rows themselves (only the header is modelled) and the command-line entry points.
- Concurrency between connections: each operation runs alone.
- `ServiceStore.LoadUsers`: on the sheet path it states the accounts and masters rows of the rows no later row overrides by id or by login. When a later row shares only one of the two, the final table (which of the clashing rows REPLACE deleted) is not characterised.
- `ServiceStore.LoadUserRows`: its own contract states the frame and uniqueness facts; which rows survive is stated by `ServiceStore.LoadUserRowsSurvivors`. Rows that a later row overrides by id or login are not characterised further.
- `ServiceStore.LoadAllData`: states only what survives all three loaders; the per-loader members state the rest.
- `RepairStore.ListRequests`: its ensures states only that the listing is drawn from the view. Which rows it holds is stated by `RepairStore.ListRequestsIntersection` and `RepairStore.ListAllOfConsistent`.
- `ExcelImport.ImportWith`: when the comments sheet has no `message` column, an import of otherwise readable sheets fails exactly when some comments row resolves; the contract states success on readable sheets only when `message` is there, and leaves that case to `ExcelImport.ImportComments`, whose contract decides it row by row. The same holds for `ExcelImport.ImportFromExcel` and `ExcelImport.ImportFromExcelAsWritten`.
- `ServiceApi.Json`: a JSON value is null, an integer or text. Floats, booleans, lists and nested objects in request bodies are not modelled.

## Findings

| source | as written | input that shows it | evidently intended | confidence | as-written member | corrected member |
|---|---|---|---|---|---|---|
| Work_DB.py:524-547 | the model memo is keyed by `f"{type}_{model}"` | type `A`, model `B_C` after type `A_B`, model `C`: both give the key `A_B_C`, so the second row gets the first row's model, which belongs to another type | one memo entry per (type, model) pair | not executed | `ExcelImport.ImportFromExcelAsWritten` (with `ExcelImport.JoinedKeyCollides`, `ExcelImport.JoinedKeyMisfilesModel`) | `ExcelImport.ImportFromExcel` (with `ExcelImport.PairKeyFilesModel`) |
| Work_DB.py:731-737 | `create_request` UPDATEs `request_number`, a `GENERATED ALWAYS` column (line 192) | any valid request: SQLite refuses to update a generated column, the exception rolls the insert back, and no request is ever created | leave the generated number alone; it is already `REQ-` followed by the zero-padded id | not executed | `RepairStore.CreateRequestAsWritten` (with `RepairStore.CreateRequestAsWrittenNeverCreates`) | `RepairStore.CreateRequest` (with `RepairStore.RequestNumberRoundTrip`) |
| Work_DB.py:907-913 | `get_all_requests` filters on `client_id` and `master_id` against `vw_requests_full`, which has neither column (lines 313-343) | filter `{'client_id': 1}`: "no such column", caught, and an empty list is returned | filter the requests by their client and master | not executed | `RepairStore.ListRequestsAsWritten` (with `RepairStore.ClientFilterLosesRows`) | `RepairStore.ListRequests` (with `RepairStore.ListRequestsIntersection`) |

=== FILE: cells.dfy ===
/**
 * Spreadsheet rows as the import code sees them through pandas: a sheet has
 * a fixed set of columns, and each cell is NaN, an integer, text, or a
 * timestamp (whose `str()` is already the canonical `YYYY-MM-DD HH:MM:SS`).
 * Python's `str()`, `int()`, `bool()` and `pd.notna()` on a cell are defined
 * here once and used by every loader.
 */
module Cells {
  import opened Wrappers
  import opened Strings

  datatype Cell =
    | Null                      // NaN: an empty cell
    | Int(i: int)
    | Text(s: string)
    | Stamp(canonical: string)  // a pd.Timestamp, already rendered canonically

  /** One spreadsheet row: column name to cell; a column the row lacks reads as NaN. */
  type Row = map<string, Cell>

  datatype Sheet = Sheet(columns: set<string>, rows: seq<Row>)

  /** The cell a row holds for `col`, NaN when it holds none. */
  function CellAt(row: Row, col: string): Cell {
    if col in row then row[col] else Null
  }

  /** `row[col]`: a KeyError when the sheet has no such column. */
  function Field(sheet: Sheet, row: Row, col: string): (r: Result<Cell, Fault>)
    ensures r.Err? <==> col !in sheet.columns
    ensures r.Ok? ==> r.value == CellAt(row, col)
  {
    if col !in sheet.columns then Err(KeyMissing(col))
    else if col in row then Ok(row[col])
    else Ok(Null)
  }

  /** `pd.notna(c)`. */
  predicate NotNa(c: Cell) {
    !c.Null?
  }

  /** Python's `str(c)`: NaN prints as `nan`. */
  function Str(c: Cell): string {
    match c
    case Null => "nan"
    case Int(i) => Decimal(i)
    case Text(s) => s
    case Stamp(canonical) => canonical
  }

  /**
   * Python's `int(c)`: NaN and timestamps raise; text must spell an integer,
   * possibly with whitespace around it and underscores between its digits.
   */
  function IntOf(c: Cell): Result<int, Fault> {
    match c
    case Int(i) => Ok(i)
    case Text(s) =>
      (match PyInt(s)
       case Some(n) => Ok(n)
       case None => Err(NotAnInteger))
    case _ => Err(NotAnInteger)
  }

  /** Python's `bool(c)`: NaN is truthy. */
  predicate Truthy(c: Cell) {
    match c
    case Null => true
    case Int(i) => i != 0
    case Text(s) => s != ""
    case Stamp(_) => true
  }

  /** An integer written to a text cell reads back as the same integer. */
  lemma IntOfStr(c: Cell)
    requires c.Int?
    ensures IntOf(Text(Str(c))) == Ok(c.i)
  {
    PyIntDecimal(c.i);
  }
}

=== FILE: dates.dfy ===
/**
 * Calendar dates as the legacy request loader handles them: the first ten
 * characters of a date string are read with `strptime(..., '%Y-%m-%d')`,
 * and `days_in_process` is the difference of the two proleptic Gregorian
 * day numbers (Python's `date.toordinal`).
 */
module Dates {
  import opened Wrappers
  import opened Strings

  datatype Date = Date(year: int, month: int, day: int)

  predicate IsLeap(y: int) {
    y % 4 == 0 && (y % 100 != 0 || y % 400 == 0)
  }

  function DaysInMonth(y: int, m: int): int
    requires 1 <= m <= 12
  {
    if m == 2 then (if IsLeap(y) then 29 else 28)
    else if m == 4 || m == 6 || m == 9 || m == 11 then 30
    else 31
  }

  function YearLength(y: int): int {
    if IsLeap(y) then 366 else 365
  }

  /** A date Python's `datetime.date` accepts (years 1 to 9999). */
  predicate ValidDate(d: Date) {
    1 <= d.year <= 9999 && 1 <= d.month <= 12 && 1 <= d.day <= DaysInMonth(d.year, d.month)
  }

  // ---------------------------------------------------------------------------
  // Day numbers
  // ---------------------------------------------------------------------------

  /** Days in the years before `y`, by the leap-year counting formula. */
  function DaysBeforeYear(y: int): int
    requires y >= 1
  {
    var n := y - 1;
    n * 365 + n / 4 - n / 100 + n / 400
  }

  function DaysBeforeMonth(y: int, m: int): int
    requires 1 <= m <= 12
  {
    var table := [0, 31, 59, 90, 120, 151, 181, 212, 243, 273, 304, 334];
    table[m - 1] + (if m > 2 && IsLeap(y) then 1 else 0)
  }

  /** `date(y, m, d).toordinal()`: 1 January of year 1 is day 1. */
  function Ordinal(d: Date): int
    requires d.year >= 1 && 1 <= d.month <= 12
  {
    DaysBeforeYear(d.year) + DaysBeforeMonth(d.year, d.month) + d.day
  }

  /** Reference definition: the lengths of the preceding years, added one by one. */
  function DaysBeforeYearByCounting(y: int): int
    requires y >= 1
    decreases y
  {
    if y == 1 then 0 else DaysBeforeYearByCounting(y - 1) + YearLength(y - 1)
  }

  /** The calendar day after `d`. */
  function NextDay(d: Date): (r: Date)
    requires ValidDate(d)
  {
    if d.day < DaysInMonth(d.year, d.month) then Date(d.year, d.month, d.day + 1)
    else if d.month < 12 then Date(d.year, d.month + 1, 1)
    else Date(d.year + 1, 1, 1)
  }

  /** The formula advances by one year length per year. */
  lemma DaysBeforeYearStep(y: int)
    requires y >= 1
    ensures DaysBeforeYear(y + 1) == DaysBeforeYear(y) + YearLength(y)
  {
    var n := y - 1;
    assert (n + 1) / 4 == n / 4 + (if y % 4 == 0 then 1 else 0);
    assert (n + 1) / 100 == n / 100 + (if y % 100 == 0 then 1 else 0);
    assert (n + 1) / 400 == n / 400 + (if y % 400 == 0 then 1 else 0);
  }

  /** The closed formula agrees with counting year by year. */
  lemma {:induction false} DaysBeforeYearMatchesCounting(y: int)
    requires y >= 1
    ensures DaysBeforeYear(y) == DaysBeforeYearByCounting(y)
    decreases y
  {
    if y > 1 {
      DaysBeforeYearMatchesCounting(y - 1);
      DaysBeforeYearStep(y - 1);
    }
  }

  /** Consecutive calendar days have consecutive day numbers. */
  lemma OrdinalNextDay(d: Date)
    requires ValidDate(d)
    ensures Ordinal(NextDay(d)) == Ordinal(d) + 1
  {
    if d.day == DaysInMonth(d.year, d.month) && d.month == 12 {
      DaysBeforeYearStep(d.year);
    }
  }

  // ---------------------------------------------------------------------------
  // strptime(s, '%Y-%m-%d')
  // ---------------------------------------------------------------------------

  function DigitVal(c: char): int
    requires IsDigit(c)
  {
    c as int - '0' as int
  }

  predicate IsNonZeroDigit(c: char) {
    '1' <= c <= '9'
  }

  /** The `%m-` part: the first of `1[0-2]`, `0[1-9]`, `[1-9]` followed by a dash. */
  function MonthToken(t: string): Option<(int, string)>
  {
    if |t| >= 3 && t[0] == '1' && '0' <= t[1] <= '2' && t[2] == '-' then Some((10 + DigitVal(t[1]), t[3..]))
    else if |t| >= 3 && t[0] == '0' && IsNonZeroDigit(t[1]) && t[2] == '-' then Some((DigitVal(t[1]), t[3..]))
    else if |t| >= 2 && IsNonZeroDigit(t[0]) && t[1] == '-' then Some((DigitVal(t[0]), t[2..]))
    else None
  }

  /**
   * The `%d` part: the first of `3[01]`, `[12]\d`, `0[1-9]`, `[1-9]`,
   * ` [1-9]` that matches; strptime then rejects any unconsumed character.
   */
  function DayToken(t: string): Option<int>
  {
    if |t| >= 2 && t[0] == '3' && (t[1] == '0' || t[1] == '1') then
      (if |t| == 2 then Some(30 + DigitVal(t[1])) else None)
    else if |t| >= 2 && (t[0] == '1' || t[0] == '2') && IsDigit(t[1]) then
      (if |t| == 2 then Some(10 * DigitVal(t[0]) + DigitVal(t[1])) else None)
    else if |t| >= 2 && t[0] == '0' && IsNonZeroDigit(t[1]) then
      (if |t| == 2 then Some(DigitVal(t[1])) else None)
    else if |t| >= 1 && IsNonZeroDigit(t[0]) then
      (if |t| == 1 then Some(DigitVal(t[0])) else None)
    else if |t| >= 2 && t[0] == ' ' && IsNonZeroDigit(t[1]) then
      (if |t| == 2 then Some(DigitVal(t[1])) else None)
    else None
  }

  /** `datetime.strptime(s, '%Y-%m-%d')`, or None where it raises ValueError. */
  function ParseYmd(s: string): (r: Option<Date>)
    ensures r.Some? ==> ValidDate(r.value)
  {
    if |s| < 5 || !AllDigits(s[..4]) || s[4] != '-' then None
    else
      match MonthToken(s[5..])
      case None => None
      case Some((month, rest)) =>
        match DayToken(rest)
        case None => None
        case Some(day) =>
          var d := Date(DigitsValue(s[..4]), month, day);
          if ValidDate(d) then Some(d) else None
  }

  /** `date.strftime('%Y-%m-%d')`: four, two and two digits. */
  function FormatYmd(d: Date): string
    requires ValidDate(d)
  {
    ZeroPadded(d.year, 4) + "-" + ZeroPadded(d.month, 2) + "-" + ZeroPadded(d.day, 2)
  }

  /** Python's `s[:10]`. */
  function Prefix10(s: string): string {
    if |s| <= 10 then s else s[..10]
  }

  lemma TwoDigits(n: int)
    requires 0 <= n < 100
    ensures ZeroPadded(n, 2) == [DigitChar(n / 10), DigitChar(n % 10)]
  {
    if n >= 10 {
      assert Digits(n) == Digits(n / 10) + [DigitChar(n % 10)];
    }
  }

  lemma FourDigits(y: int)
    requires 1 <= y <= 9999
    ensures |ZeroPadded(y, 4)| == 4 && AllDigits(ZeroPadded(y, 4))
    ensures DigitsValue(ZeroPadded(y, 4)) == y
  {
    assert Pow10(4) == 10000;
    DigitsBelow(y, 4);
    ZeroPaddedWidth(y, 4);
    ZeroPaddedRoundTrip(y, 4);
  }

  /** A zero-padded month and a dash read back as that month, leaving the rest. */
  lemma MonthTokenOfPadded(m: int, rest: string)
    requires 1 <= m <= 12
    ensures MonthToken(ZeroPadded(m, 2) + "-" + rest) == Some((m, rest))
  {
    TwoDigits(m);
    var t := ZeroPadded(m, 2) + "-" + rest;
    assert t[0] == DigitChar(m / 10) && t[1] == DigitChar(m % 10) && t[2] == '-' && t[3..] == rest;
  }

  /** A zero-padded day of the month reads back as that day. */
  lemma DayTokenOfPadded(day: int)
    requires 1 <= day <= 31
    ensures DayToken(ZeroPadded(day, 2)) == Some(day)
  {
    TwoDigits(day);
  }

  /** Every valid date, written canonically, reads back as itself. */
  lemma ParseFormatted(d: Date)
    requires ValidDate(d)
    ensures |FormatYmd(d)| == 10
    ensures ParseYmd(FormatYmd(d)) == Some(d)
  {
    var s := FormatYmd(d);
    FourDigits(d.year);
    TwoDigits(d.month);
    TwoDigits(d.day);
    var day := ZeroPadded(d.day, 2);
    assert s[..4] == ZeroPadded(d.year, 4) && s[4] == '-';
    assert s[5..] == ZeroPadded(d.month, 2) + "-" + day;
    MonthTokenOfPadded(d.month, day);
    DayTokenOfPadded(d.day);
  }

  // ---------------------------------------------------------------------------
  // days_in_process
  // ---------------------------------------------------------------------------

  /**
   * The legacy loader's `days_in_process`: None without a (non-empty)
   * completion date; otherwise the day difference of the two ten-character
   * date prefixes, or 0 when either does not parse.
   */
  function DaysInProcess(start: string, completion: Option<string>): (r: Option<int>)
    ensures r.None? <==> completion.None? || completion.value == ""
    ensures r.Some? && (ParseYmd(Prefix10(start)).None? || ParseYmd(Prefix10(completion.value)).None?) ==> r == Some(0)
  {
    match completion
    case None => None
    case Some(c) =>
      if c == "" then None
      else
        match (ParseYmd(Prefix10(start)), ParseYmd(Prefix10(c)))
        case (Some(a), Some(b)) => Some(Ordinal(b) - Ordinal(a))
        case _ => Some(0)
  }

  /**
   * For canonically written dates (a `YYYY-MM-DD` prefix, any time part
   * after it) `days_in_process` is the number of days from start to end.
   */
  lemma DaysInProcessOfCanonical(a: Date, b: Date, timeA: string, timeB: string)
    requires ValidDate(a) && ValidDate(b)
    ensures DaysInProcess(FormatYmd(a) + timeA, Some(FormatYmd(b) + timeB)) == Some(Ordinal(b) - Ordinal(a))
  {
    ParseFormatted(a);
    ParseFormatted(b);
    assert Prefix10(FormatYmd(a) + timeA) == FormatYmd(a);
    assert Prefix10(FormatYmd(b) + timeB) == FormatYmd(b);
  }

  /** A request completed the day after it started has been in process one day. */
  lemma DaysInProcessNextDay(a: Date, timeA: string, timeB: string)
    requires ValidDate(a) && ValidDate(NextDay(a))
    ensures DaysInProcess(FormatYmd(a) + timeA, Some(FormatYmd(NextDay(a)) + timeB)) == Some(1)
  {
    DaysInProcessOfCanonical(a, NextDay(a), timeA, timeB);
    OrdinalNextDay(a);
  }
}

=== FILE: migration.dfy ===
/**
 * `check_and_update_tables` of the service-centre application: the repair
 * of a `comments` table that lacks some of the seven columns the
 * application needs. The old columns are mapped onto the columns of a new
 * table, the rows copied, and the new table swapped in; when copying
 * raises, the new table is dropped and the old one stays.
 *
 * The column mapping is a pure function of the old column names; the copy
 * is the `INSERT` of every selected row into `comments_new`, with that
 * table's NOT NULL columns, its AUTOINCREMENT `id` and the default of
 * `created_at`.
 */
module Migration {
  import opened Wrappers
  import opened Strings
  import opened SqlValues

  /** The columns the application reads; any one missing triggers the repair. */
  const RequiredColumns: seq<string> := ["id", "request_id", "user_id", "user_fio", "user_type", "message", "created_at"]

  /** Old columns copied under their own (exact) name. */
  const CopiedAsIs: seq<string> := ["id", "comment_id", "request_id", "master_id", "message", "created_at"]

  /** Author columns recognised in any ASCII letter case, and NULL-filled when absent. */
  const AuthorColumns: seq<string> := ["user_id", "user_fio", "user_type"]

  /** The columns of `comments_new`, in declaration order. */
  const NewColumns: seq<string> := ["id", "comment_id", "request_id", "master_id", "user_id", "user_fio", "user_type", "message", "created_at"]

  type CommentRow = map<string, SqlValue>

  datatype CommentsTable = CommentsTable(columns: seq<string>, rows: seq<CommentRow>)

  /**
   * The tables `check_and_update_tables` looks at: `comments` (absent when
   * there is no such table), and whether `masters` and `status_history` exist.
   */
  datatype ServiceSchema = ServiceSchema(comments: Option<CommentsTable>, hasMasters: bool, hasStatusHistory: bool)

  datatype MigrationOutcome = AlreadyCurrent | Migrated | CopyFailed(fault: Fault)

  /** A select-list entry: an old column, or the literal NULL. */
  datatype SelectItem = Col(name: string) | NullLit

  /** A column a row lacks reads as NULL. */
  function Get(r: CommentRow, c: string): SqlValue {
    if c in r then r[c] else SqlNull
  }

  /** SQLite refuses two column names that differ only in ASCII letter case. */
  predicate CaseDistinct(names: seq<string>) {
    forall i, j :: 0 <= i < j < |names| ==> AsciiLower(names[i]) != AsciiLower(names[j])
  }

  predicate Distinct(names: seq<string>) {
    forall i, j :: 0 <= i < j < |names| ==> names[i] != names[j]
  }

  /** What PRAGMA table_info and a SELECT can show of a table: unique names, rows within them. */
  predicate WellFormed(t: CommentsTable) {
    CaseDistinct(t.columns) && forall k :: 0 <= k < |t.rows| ==> t.rows[k].Keys <= set c | c in t.columns
  }

  // ---------------------------------------------------------------------------
  // Missing columns
  // ---------------------------------------------------------------------------

  /** The entries of `wanted` not among `present`, in the order of `wanted`. */
  function Absent(wanted: seq<string>, present: seq<string>): (r: seq<string>)
    ensures forall c :: c in r <==> c in wanted && c !in present
    ensures |r| <= |wanted|
  {
    if wanted == [] then []
    else (if wanted[0] in present then [] else [wanted[0]]) + Absent(wanted[1..], present)
  }

  /** `missing_columns`: the required columns the table lacks (a missing table lacks all). */
  function MissingColumns(names: seq<string>): (r: seq<string>)
    ensures r == [] <==> forall c :: c in RequiredColumns ==> c in names
  {
    var r := Absent(RequiredColumns, names);
    assert r != [] ==> r[0] in r;
    r
  }

  // ---------------------------------------------------------------------------
  // Column lists
  // ---------------------------------------------------------------------------

  /** The `comments_new` column an old column is copied into, if any. */
  function Target(col: string): (t: Option<string>)
    ensures t.Some? ==> t.value in NewColumns
    ensures t.Some? && t.value in AuthorColumns ==> AsciiLower(col) == t.value
    ensures t.Some? && t.value !in AuthorColumns ==> col == t.value
  {
    if col in CopiedAsIs then Some(col)
    else if AsciiLower(col) == "user_id" || col == "User_id" then Some("user_id")
    else if AsciiLower(col) == "user_fio" || col == "user_fio" then Some("user_fio")
    else if AsciiLower(col) == "user_type" || col == "user_type" then Some("user_type")
    else None
  }

  /** No column copied as-is is an author column. */
  lemma AsIsNotAuthor(a: string)
    requires a in CopiedAsIs
    ensures a !in AuthorColumns
  {
  }

  /** No author column is the key or the timestamp. */
  lemma AuthorNotDefaulted(a: string)
    requires a in AuthorColumns
    ensures a != "id" && a != "created_at"
  {
  }

  /** The first loop: every recognised old column, in order, with its target. */
  function CopiedColumns(cols: seq<string>): (r: (seq<SelectItem>, seq<string>))
    ensures |r.0| == |r.1|
    ensures forall i :: 0 <= i < |r.0| ==> r.0[i].Col? && r.0[i].name in cols && Target(r.0[i].name) == Some(r.1[i])
  {
    if cols == [] then ([], [])
    else
      var rest := CopiedColumns(cols[1..]);
      match Target(cols[0])
      case Some(t) =>
        var r := ([Col(cols[0])] + rest.0, [t] + rest.1);
        assert forall i :: 1 <= i < |r.0| ==> r.0[i] == rest.0[i - 1] && r.1[i] == rest.1[i - 1];
        r
      case None => rest
  }

  /** Every recognised old column is selected. */
  lemma {:induction false} CopiedColumnsCover(cols: seq<string>, c: string)
    requires c in cols && Target(c).Some?
    ensures Col(c) in CopiedColumns(cols).0
  {
    if c != cols[0] {
      CopiedColumnsCover(cols[1..], c);
    }
  }

  /** The second loop: each of `pending` not yet inserted is added as a NULL column. */
  function FillWithNull(sel: seq<SelectItem>, ins: seq<string>, pending: seq<string>): (r: (seq<SelectItem>, seq<string>))
    requires |sel| == |ins|
    ensures |r.0| == |r.1| >= |sel|
    ensures forall k :: 0 <= k < |sel| ==> r.0[k] == sel[k] && r.1[k] == ins[k]
    ensures forall i :: |sel| <= i < |r.0| ==> r.0[i] == NullLit && r.1[i] in pending && r.1[i] !in ins
    ensures forall c :: c in pending ==> c in r.1
    ensures Distinct(pending) && Distinct(ins) ==> Distinct(r.1)
    decreases |pending|
  {
    if pending == [] then (sel, ins)
    else if pending[0] in ins then FillWithNull(sel, ins, pending[1..])
    else
      var r := FillWithNull(sel + [NullLit], ins + [pending[0]], pending[1..]);
      assert r.1[|ins|] == pending[0];
      r
  }

  /** `select_columns` and `insert_columns` for an old table with the given columns. */
  function ColumnLists(cols: seq<string>): (r: (seq<SelectItem>, seq<string>))
    ensures |r.0| == |r.1|
    ensures CaseDistinct(cols) ==> Distinct(r.1)
  {
    var copied := CopiedColumns(cols);
    if CaseDistinct(cols) then CopiedTargetsDistinct(cols); FillWithNull(copied.0, copied.1, AuthorColumns)
    else FillWithNull(copied.0, copied.1, AuthorColumns)
  }

  /** Two old columns never share a target when their names differ in more than letter case. */
  lemma TargetsDiffer(a: string, b: string)
    requires AsciiLower(a) != AsciiLower(b)
    requires Target(a).Some? && Target(b).Some?
    ensures Target(a) != Target(b)
  {
  }

  lemma CaseDistinctTail(cols: seq<string>)
    requires CaseDistinct(cols) && |cols| > 0
    ensures CaseDistinct(cols[1..])
    ensures forall c :: c in cols[1..] ==> AsciiLower(c) != AsciiLower(cols[0])
  {
    var tail := cols[1..];
    forall i, j | 0 <= i < j < |tail|
      ensures AsciiLower(tail[i]) != AsciiLower(tail[j])
    {
      assert tail[i] == cols[i + 1] && tail[j] == cols[j + 1];
    }
    forall c | c in tail
      ensures AsciiLower(c) != AsciiLower(cols[0])
    {
      var j :| 0 <= j < |tail| && tail[j] == c;
      assert cols[j + 1] == c;
    }
  }

  lemma DistinctCons(x: string, s: seq<string>)
    requires Distinct(s) && forall k :: 0 <= k < |s| ==> s[k] != x
    ensures Distinct([x] + s)
  {
    var xs := [x] + s;
    forall i, j | 0 <= i < j < |xs|
      ensures xs[i] != xs[j]
    {
      assert xs[j] == s[j - 1];
      if i > 0 {
        assert xs[i] == s[i - 1];
      }
    }
  }

  /** The copied targets are pairwise distinct when the old names are. */
  lemma {:induction false} CopiedTargetsDistinct(cols: seq<string>)
    requires CaseDistinct(cols)
    ensures Distinct(CopiedColumns(cols).1)
  {
    if cols != [] {
      CaseDistinctTail(cols);
      CopiedTargetsDistinct(cols[1..]);
      var rest := CopiedColumns(cols[1..]);
      var t := Target(cols[0]);
      if t.Some? {
        forall k | 0 <= k < |rest.1|
          ensures rest.1[k] != t.value
        {
          TargetsDiffer(cols[0], rest.0[k].name);
        }
        DistinctCons(t.value, rest.1);
      }
    }
  }

  /** What one position of the column lists holds. */
  lemma ListsEntry(cols: seq<string>, k: int)
    requires 0 <= k < |ColumnLists(cols).0|
    ensures |ColumnLists(cols).0| == |ColumnLists(cols).1|
    ensures ColumnLists(cols).0[k].Col? ==>
              ColumnLists(cols).0[k].name in cols && Target(ColumnLists(cols).0[k].name) == Some(ColumnLists(cols).1[k])
    ensures ColumnLists(cols).0[k].NullLit? ==>
              ColumnLists(cols).1[k] in AuthorColumns && forall c :: c in cols ==> Target(c) != Some(ColumnLists(cols).1[k])
  {
    var copied := CopiedColumns(cols);
    var r := ColumnLists(cols);
    if k < |copied.0| {
      assert r.0[k] == copied.0[k] && r.1[k] == copied.1[k];
    } else {
      assert r.0[k] == NullLit && r.1[k] in AuthorColumns && r.1[k] !in copied.1;
      forall c | c in cols
        ensures Target(c) != Some(r.1[k])
      {
        if Target(c).Some? {
          CopiedColumnsCover(cols, c);
          var j :| 0 <= j < |copied.0| && copied.0[j] == Col(c);
          assert copied.1[j] == Target(c).value;
        }
      }
    }
  }

  /** Only columns of `comments_new` are inserted into. */
  lemma InsertedColumnsNew(cols: seq<string>)
    ensures forall c :: c in ColumnLists(cols).1 ==> c in NewColumns
  {
    var lists := ColumnLists(cols);
    forall k | 0 <= k < |lists.1|
      ensures lists.1[k] in NewColumns
    {
      ListsEntry(cols, k);
    }
  }

  /** The selected old columns: each goes into its own target, and exactly the recognised ones are selected. */
  lemma ColumnListsSelected(cols: seq<string>)
    ensures |ColumnLists(cols).0| == |ColumnLists(cols).1|
    ensures forall c :: c in cols ==> (Col(c) in ColumnLists(cols).0 <==> Target(c).Some?)
    ensures forall i :: 0 <= i < |ColumnLists(cols).0| && ColumnLists(cols).0[i].Col? ==>
              Target(ColumnLists(cols).0[i].name) == Some(ColumnLists(cols).1[i]) && ColumnLists(cols).0[i].name in cols
  {
    var copied := CopiedColumns(cols);
    var r := ColumnLists(cols);
    forall i | 0 <= i < |r.0| && r.0[i].Col?
      ensures Target(r.0[i].name) == Some(r.1[i]) && r.0[i].name in cols
    {
      ListsEntry(cols, i);
    }
    forall c | c in cols
      ensures Col(c) in r.0 <==> Target(c).Some?
    {
      if Target(c).Some? {
        CopiedColumnsCover(cols, c);
        var k :| 0 <= k < |copied.0| && copied.0[k] == Col(c);
        assert r.0[k] == Col(c);
      }
    }
  }

  /** A NULL is selected only for an author column that no old column supplies. */
  lemma ColumnListsNulls(cols: seq<string>)
    ensures forall i :: 0 <= i < |ColumnLists(cols).0| && ColumnLists(cols).0[i].NullLit? ==>
              ColumnLists(cols).1[i] in AuthorColumns &&
              forall c :: c in cols ==> Target(c) != Some(ColumnLists(cols).1[i])
  {
    var r := ColumnLists(cols);
    forall i | 0 <= i < |r.0| && r.0[i].NullLit?
      ensures r.1[i] in AuthorColumns && forall c :: c in cols ==> Target(c) != Some(r.1[i])
    {
      ListsEntry(cols, i);
    }
  }

  /**
   * The column lists, as the copy builds them: equally long, inserting only
   * into columns of `comments_new`, each at most once, always including the
   * three author columns; every recognised old column is selected into its
   * target and every other old column is dropped; a NULL is selected only
   * for an author column no old column supplies.
   */
  lemma ColumnListsShape(cols: seq<string>)
    requires CaseDistinct(cols)
    ensures |ColumnLists(cols).0| == |ColumnLists(cols).1|
    ensures forall c :: c in ColumnLists(cols).1 ==> c in NewColumns
    ensures Distinct(ColumnLists(cols).1)
    ensures forall c :: c in AuthorColumns ==> c in ColumnLists(cols).1
    ensures forall c :: c in cols ==> (Col(c) in ColumnLists(cols).0 <==> Target(c).Some?)
    ensures forall i :: 0 <= i < |ColumnLists(cols).0| && ColumnLists(cols).0[i].Col? ==>
              Target(ColumnLists(cols).0[i].name) == Some(ColumnLists(cols).1[i])
    ensures forall i :: 0 <= i < |ColumnLists(cols).0| && ColumnLists(cols).0[i].NullLit? ==>
              ColumnLists(cols).1[i] in AuthorColumns &&
              forall c :: c in cols ==> Target(c) != Some(ColumnLists(cols).1[i])
  {
    CopiedTargetsDistinct(cols);
    ColumnListsSelected(cols);
    ColumnListsNulls(cols);
    var copied := CopiedColumns(cols);
    var r := ColumnLists(cols);
    forall c | c in r.1
      ensures c in NewColumns
    {
      var k :| 0 <= k < |r.1| && r.1[k] == c;
      if k < |copied.1| {
        assert c == copied.1[k];
      }
    }
  }

  // ---------------------------------------------------------------------------
  // Copying the rows
  // ---------------------------------------------------------------------------

  function SelectValue(item: SelectItem, r: CommentRow): SqlValue {
    match item
    case Col(c) => Get(r, c)
    case NullLit => SqlNull
  }

  /** The values one selected row binds to the insert columns. */
  function Project(r: CommentRow, sel: seq<SelectItem>, ins: seq<string>): (n: CommentRow)
    requires |sel| == |ins| && Distinct(ins)
    ensures n.Keys == set c | c in ins
    ensures forall i :: 0 <= i < |ins| ==> n[ins[i]] == SelectValue(sel[i], r)
  {
    map i | 0 <= i < |ins| :: ins[i] := SelectValue(sel[i], r)
  }

  /**
   * The affinity of each `comments_new` column applied to a bound value:
   * the INTEGER columns convert integer text, the TEXT columns render
   * integers, and `created_at` (NUMERIC, from its TIMESTAMP type) converts
   * integer text as INTEGER does. The key has a rule of its own.
   */
  function ColumnAffinity(c: string, v: SqlValue): (r: SqlValue)
    ensures r.SqlNull? <==> v.SqlNull?
  {
    if c == "comment_id" || c == "request_id" || c == "master_id" || c == "user_id" || c == "created_at" then IntegerAffinity(v)
    else if c == "user_fio" || c == "user_type" || c == "message" then TextAffinity(v)
    else v
  }

  /** A bound row with each value converted by its column's affinity. */
  function Typed(n: CommentRow): (r: CommentRow)
    ensures r.Keys == n.Keys
    ensures forall c :: Get(r, c).SqlNull? <==> Get(n, c).SqlNull?
  {
    map c | c in n :: ColumnAffinity(c, n[c])
  }

  /** Each value of the typed row is its column's affinity applied to the bound value. */
  lemma TypedGet(n: CommentRow, c: string)
    ensures Get(Typed(n), c) == ColumnAffinity(c, Get(n, c))
  {
  }

  /**
   * `stored` is the row `comments_new` keeps for the bound row `n`: every
   * value but `id` and `created_at` as bound, after its column's affinity;
   * `request_id` and `message` present; an inserted integer `id` kept; and
   * `created_at` defaulted to `now` when not inserted.
   */
  ghost predicate StoredFrom(stored: CommentRow, n: CommentRow, ins: seq<string>, now: string) {
    && stored.Keys <= n.Keys + {"id", "created_at"}
    && (forall c :: c != "id" && c != "created_at" ==> Get(stored, c) == Get(Typed(n), c))
    && Get(stored, "request_id") != SqlNull
    && Get(stored, "message") != SqlNull
    && Get(stored, "id").SqlInt?
    && (IntegerAffinity(Get(n, "id")).SqlInt? ==> Get(stored, "id") == IntegerAffinity(Get(n, "id")))
    && Get(stored, "created_at") == (if "created_at" in ins then ColumnAffinity("created_at", Get(n, "created_at")) else SqlText(now))
  }

  /**
   * One row as `comments_new` stores it: `created_at` takes its default when
   * not inserted, NOT NULL is enforced on `request_id` and `message`, and the
   * AUTOINCREMENT key takes the inserted integer (which must be new) or,
   * when NULL, one more than the largest key so far (`high`).
   */
  function StoreRow(n: CommentRow, ins: seq<string>, now: string, used: set<int>, high: int): (r: Result<(CommentRow, int), Fault>)
    requires high >= 0 && forall k :: k in used ==> k <= high
    ensures r.Ok? ==> StoredFrom(r.value.0, n, ins, now)
    ensures r.Ok? ==> r.value.1 >= high && Get(r.value.0, "id").i !in used && Get(r.value.0, "id").i <= r.value.1
    ensures r.Err? <==>
      || Get(n, "request_id") == SqlNull
      || Get(n, "message") == SqlNull
      || IntegerAffinity(Get(n, "id")).SqlText?
      || (IntegerAffinity(Get(n, "id")).SqlInt? && IntegerAffinity(Get(n, "id")).i in used)
  {
    var typed := Typed(n);
    var n1 := if "created_at" in ins then typed else typed["created_at" := SqlText(now)];
    assert Get(n1, "id") == Get(n, "id");
    if Get(n1, "request_id") == SqlNull then Err(NotNullViolated("request_id"))
    else if Get(n1, "message") == SqlNull then Err(NotNullViolated("message"))
    else
      match IntegerAffinity(Get(n1, "id"))
      case SqlNull => Ok((n1["id" := SqlInt(high + 1)], high + 1))
      case SqlInt(k) =>
        if k in used then Err(UniqueViolated("id"))
        else Ok((n1["id" := SqlInt(k)], if k > high then k else high))
      case SqlText(_) => Err(DatatypeMismatch)
  }

  /** The rows the SELECT produces, bound to the insert columns. */
  function ProjectAll(rows: seq<CommentRow>, sel: seq<SelectItem>, ins: seq<string>): (r: seq<CommentRow>)
    requires |sel| == |ins| && Distinct(ins)
    ensures |r| == |rows|
    ensures forall i :: 0 <= i < |rows| ==> r[i] == Project(rows[i], sel, ins)
  {
    seq(|rows|, i requires 0 <= i < |rows| => Project(rows[i], sel, ins))
  }

  /**
   * `executemany` of the insert; the first row that fails aborts the copy.
   * It cannot fail when every row has a `request_id` and a `message` and
   * leaves the key to AUTOINCREMENT.
   */
  function CopyRows(bound: seq<CommentRow>, ins: seq<string>, now: string, used: set<int>, high: int): (r: Result<seq<CommentRow>, Fault>)
    requires high >= 0 && forall k :: k in used ==> k <= high
    ensures r.Ok? ==> |r.value| == |bound| && forall i :: 0 <= i < |bound| ==> StoredFrom(r.value[i], bound[i], ins, now)
    ensures (forall i :: 0 <= i < |bound| ==>
               && Get(bound[i], "request_id") != SqlNull
               && Get(bound[i], "message") != SqlNull
               && IntegerAffinity(Get(bound[i], "id")).SqlNull?) ==> r.Ok?
    decreases |bound|
  {
    if bound == [] then Ok([])
    else
      match StoreRow(bound[0], ins, now, used, high)
      case Err(f) => Err(f)
      case Ok((stored, high')) =>
        match CopyRows(bound[1..], ins, now, used + {Get(stored, "id").i}, high')
        case Err(f) => Err(f)
        case Ok(tail) =>
          StoredCons(bound, stored, tail, ins, now);
          Ok([stored] + tail)
  }

  lemma StoredSame(x: CommentRow, y: CommentRow, n: CommentRow, m: CommentRow, ins: seq<string>, now: string)
    requires x == y && n == m && StoredFrom(y, m, ins, now)
    ensures StoredFrom(x, n, ins, now)
  {
  }

  /** Stored rows for the first bound row and for the rest are stored rows for all of them. */
  lemma StoredCons(bound: seq<CommentRow>, stored: CommentRow, tail: seq<CommentRow>, ins: seq<string>, now: string)
    requires |bound| == |tail| + 1 && StoredFrom(stored, bound[0], ins, now)
    requires forall i :: 0 <= i < |tail| ==> StoredFrom(tail[i], bound[1..][i], ins, now)
    ensures forall i :: 0 <= i < |bound| ==> StoredFrom(([stored] + tail)[i], bound[i], ins, now)
  {
    forall i | 1 <= i < |bound|
      ensures StoredFrom(([stored] + tail)[i], bound[i], ins, now)
    {
      StoredSame(([stored] + tail)[i], tail[i - 1], bound[i], bound[1..][i - 1], ins, now);
    }
  }

  /** Row i of the old table bound to the insert columns. */
  function BoundRow(t: CommentsTable, i: int): CommentRow
    requires WellFormed(t) && 0 <= i < |t.rows|
  {
    Project(t.rows[i], ColumnLists(t.columns).0, ColumnLists(t.columns).1)
  }

  /**
   * The copy of every row of `t` into `comments_new`: on success one stored
   * row per old row, each what the table keeps for the bound old row.
   */
  function CopyTable(t: CommentsTable, now: string): (r: Result<seq<CommentRow>, Fault>)
    requires WellFormed(t)
    ensures r.Ok? ==> |r.value| == |t.rows|
    ensures r.Ok? ==> forall i :: 0 <= i < |t.rows| ==> StoredFrom(r.value[i], BoundRow(t, i), ColumnLists(t.columns).1, now)
    ensures r.Ok? ==> forall i :: 0 <= i < |t.rows| ==> r.value[i].Keys <= set c | c in NewColumns
  {
    var lists := ColumnLists(t.columns);
    var bound := ProjectAll(t.rows, lists.0, lists.1);
    assert forall i :: 0 <= i < |t.rows| ==> bound[i] == BoundRow(t, i);
    InsertedColumnsNew(t.columns);
    assert "id" in NewColumns && "created_at" in NewColumns;
    CopyRows(bound, lists.1, now, {}, 0)
  }

  // ---------------------------------------------------------------------------
  // check_and_update_tables
  // ---------------------------------------------------------------------------

  lemma LowerCaseFixed(s: string)
    requires forall i :: 0 <= i < |s| ==> !('A' <= s[i] <= 'Z')
    ensures AsciiLower(s) == s
  {
  }

  lemma NewColumnsCaseDistinct()
    ensures CaseDistinct(NewColumns)
  {
    var n := NewColumns;
    assert Distinct(n);
    forall i | 0 <= i < |n|
      ensures AsciiLower(n[i]) == n[i]
    {
      LowerCaseFixed(n[i]);
    }
  }

  function ColumnNames(s: ServiceSchema): seq<string> {
    if s.comments.Some? then s.comments.value.columns else []
  }

  /**
   * The whole check: nothing happens to `comments` when no required column
   * is missing; otherwise the copy either replaces `comments` by a table with
   * the columns of `comments_new`, or fails and leaves `comments` as it was.
   * The `masters` and `status_history` tables are created when absent.
   */
  function CheckAndUpdateTables(s: ServiceSchema, now: string): (r: (MigrationOutcome, ServiceSchema))
    requires s.comments.Some? ==> WellFormed(s.comments.value)
    ensures r.1.hasMasters && r.1.hasStatusHistory
    ensures r.0 == AlreadyCurrent <==> MissingColumns(ColumnNames(s)) == []
    ensures !r.0.Migrated? ==> r.1.comments == s.comments
    ensures r.0.Migrated? ==>
              && s.comments.Some? && r.1.comments.Some?
              && r.1.comments.value.columns == NewColumns
              && |r.1.comments.value.rows| == |s.comments.value.rows|
    ensures r.0.Migrated? ==> CopyTable(s.comments.value, now) == Ok(r.1.comments.value.rows)
    ensures r.0.Migrated? <==>
              s.comments.Some? && MissingColumns(ColumnNames(s)) != [] && CopyTable(s.comments.value, now).Ok?
    ensures r.0.CopyFailed? && s.comments.None? ==> r.0.fault == NoSuchTable("comments")
    ensures r.0.CopyFailed? && s.comments.Some? ==> CopyTable(s.comments.value, now) == Err(r.0.fault)
    ensures r.1.comments.Some? ==> WellFormed(r.1.comments.value)
  {
    var after := ServiceSchema(s.comments, true, true);
    if MissingColumns(ColumnNames(s)) == [] then (AlreadyCurrent, after)
    else
      match s.comments
      case None => (CopyFailed(NoSuchTable("comments")), after)
      case Some(prev) =>
        NewColumnsCaseDistinct();
        match CopyTable(prev, now)
        case Err(f) => (CopyFailed(f), after)
        case Ok(rows) =>
          (Migrated, ServiceSchema(Some(CommentsTable(NewColumns, rows)), true, true))
  }

  /** A recognised old column's value lands in its target column of the bound row. */
  lemma ProjectedFromColumn(cols: seq<string>, row: CommentRow, c: string)
    requires CaseDistinct(cols) && c in cols && Target(c).Some?
    ensures Get(Project(row, ColumnLists(cols).0, ColumnLists(cols).1), Target(c).value) == Get(row, c)
  {
    var copied := CopiedColumns(cols);
    var lists := ColumnLists(cols);
    CopiedColumnsCover(cols, c);
    var k :| 0 <= k < |copied.0| && copied.0[k] == Col(c);
    assert lists.0[k] == Col(c) && lists.1[k] == Target(c).value;
    assert Project(row, lists.0, lists.1)[lists.1[k]] == Get(row, c);
  }

  /** An author column no old column supplies is NULL in the bound row. */
  lemma ProjectedNull(cols: seq<string>, row: CommentRow, a: string)
    requires CaseDistinct(cols) && a in AuthorColumns && forall c :: c in cols ==> Target(c) != Some(a)
    ensures Get(Project(row, ColumnLists(cols).0, ColumnLists(cols).1), a) == SqlNull
  {
    var copied := CopiedColumns(cols);
    var lists := ColumnLists(cols);
    var k :| 0 <= k < |lists.1| && lists.1[k] == a;
    ListsEntry(cols, k);
    assert !lists.0[k].Col?;
  }

  /** A column copied under its own name carries the old value, NULL when the old table lacks it. */
  lemma ProjectedAsIs(cols: seq<string>, row: CommentRow, a: string)
    requires CaseDistinct(cols) && row.Keys <= (set c | c in cols) && a in CopiedAsIs
    ensures Get(Project(row, ColumnLists(cols).0, ColumnLists(cols).1), a) == Get(row, a)
  {
    AsIsNotAuthor(a);
    if a in cols {
      assert Target(a) == Some(a);
      ProjectedFromColumn(cols, row, a);
    } else {
      var lists := ColumnLists(cols);
      forall k | 0 <= k < |lists.1|
        ensures lists.1[k] != a
      {
        ListsEntry(cols, k);
      }
      assert a !in row;
    }
  }

  /**
   * Running the check again changes nothing: a migrated table already has
   * every required column, and a table left alone (current, or whose copy
   * failed) meets the same fate again.
   */
  lemma MigrationIdempotent(s: ServiceSchema, now: string)
    requires s.comments.Some? ==> WellFormed(s.comments.value)
    ensures CheckAndUpdateTables(CheckAndUpdateTables(s, now).1, now).1 == CheckAndUpdateTables(s, now).1
    ensures CheckAndUpdateTables(s, now).0.Migrated? ==> CheckAndUpdateTables(CheckAndUpdateTables(s, now).1, now).0 == AlreadyCurrent
  {
    var r := CheckAndUpdateTables(s, now);
    if r.0.Migrated? {
      assert forall c :: c in RequiredColumns ==> c in NewColumns;
      assert MissingColumns(ColumnNames(r.1)) == [];
    } else {
      assert r.1 == ServiceSchema(s.comments, true, true);
    }
  }

  /**
   * A copied row keeps `request_id`, `message`, `comment_id`, `master_id`
   * and an integer `id`, each as its new column's affinity stores it;
   * `request_id` and `message` are never NULL after the copy.
   */
  lemma MigratedRowKeepsValues(t: CommentsTable, now: string, i: int)
    requires WellFormed(t) && CopyTable(t, now).Ok? && 0 <= i < |t.rows|
    ensures var prev := t.rows[i];
            var next := CopyTable(t, now).value[i];
            && Get(next, "request_id") == IntegerAffinity(Get(prev, "request_id")) != SqlNull
            && Get(next, "message") == TextAffinity(Get(prev, "message")) != SqlNull
            && Get(next, "comment_id") == IntegerAffinity(Get(prev, "comment_id"))
            && Get(next, "master_id") == IntegerAffinity(Get(prev, "master_id"))
            && (IntegerAffinity(Get(prev, "id")).SqlInt? ==> Get(next, "id") == IntegerAffinity(Get(prev, "id")))
  {
    CopiedValue(t, now, i, "request_id");
    CopiedValue(t, now, i, "message");
    CopiedValue(t, now, i, "comment_id");
    CopiedValue(t, now, i, "master_id");
    var bound := BoundRow(t, i);
    assert StoredFrom(CopyTable(t, now).value[i], bound, ColumnLists(t.columns).1, now);
    ProjectedAsIs(t.columns, t.rows[i], "id");
  }

  /**
   * A column copied under its own name, other than the key and the
   * timestamp, keeps its value as the new column's affinity stores it.
   */
  lemma CopiedValue(t: CommentsTable, now: string, i: int, a: string)
    requires WellFormed(t) && CopyTable(t, now).Ok? && 0 <= i < |t.rows|
    requires a in CopiedAsIs && a != "id" && a != "created_at"
    ensures Get(CopyTable(t, now).value[i], a) == ColumnAffinity(a, Get(t.rows[i], a))
  {
    var bound := BoundRow(t, i);
    assert StoredFrom(CopyTable(t, now).value[i], bound, ColumnLists(t.columns).1, now);
    ProjectedAsIs(t.columns, t.rows[i], a);
  }

  /**
   * An author column of a copied row holds the old column that spells it
   * in any ASCII case (or `User_id`), as the new column's affinity stores it.
   */
  lemma MigratedRowAuthor(t: CommentsTable, now: string, i: int, c: string)
    requires WellFormed(t) && CopyTable(t, now).Ok? && 0 <= i < |t.rows|
    requires c in t.columns && Target(c).Some? && Target(c).value in AuthorColumns
    ensures Get(CopyTable(t, now).value[i], Target(c).value) == ColumnAffinity(Target(c).value, Get(t.rows[i], c))
  {
    var a := Target(c).value;
    var next := CopyTable(t, now).value[i];
    var bound := BoundRow(t, i);
    assert StoredFrom(next, bound, ColumnLists(t.columns).1, now);
    ProjectedFromColumn(t.columns, t.rows[i], c);
    AuthorNotDefaulted(a);
    assert Get(next, a) == ColumnAffinity(a, Get(bound, a));
  }

  /** An author column the old table had under no spelling is NULL in every copied row. */
  lemma MigratedRowAuthorMissing(t: CommentsTable, now: string, i: int, a: string)
    requires WellFormed(t) && CopyTable(t, now).Ok? && 0 <= i < |t.rows|
    requires a in AuthorColumns && forall c :: c in t.columns ==> Target(c) != Some(a)
    ensures Get(CopyTable(t, now).value[i], a) == SqlNull
  {
    var next := CopyTable(t, now).value[i];
    var bound := BoundRow(t, i);
    assert StoredFrom(next, bound, ColumnLists(t.columns).1, now);
    ProjectedNull(t.columns, t.rows[i], a);
    AuthorNotDefaulted(a);
    assert Get(next, a) == ColumnAffinity(a, Get(bound, a));
  }
}

=== FILE: repair_import.dfy ===
/**
 * `import_from_excel` of Work_DB.py: three spreadsheets (users, requests,
 * comments) loaded into the repair-management store in one transaction.
 *
 * Users are matched by login (updated in place, or inserted) and their
 * sheet ids mapped to store ids; requests get-or-create their equipment
 * type and model through two memo dictionaries and resolve their client
 * and master through the user mapping; comments are kept only when both
 * their master and their request resolve. Any exception rolls everything
 * back. The password hash is a parameter (SHA-256 is not modelled).
 */
module ExcelImport {
  import opened Wrappers
  import opened Strings
  import opened Cells
  import opened Tables
  import opened Roles
  import opened SqlValues
  import opened RepairStore

  /** The integer a cell reads as, as a set of at most one element. */
  function IntSet(c: Cell): (r: set<int>)
    ensures forall x :: x in r <==> IntOf(c) == Ok(x)
  {
    match IntOf(c)
    case Ok(x) => {x}
    case Err(_) => {}
  }

  /** The ids in column `col` of the first n rows that read as integers. */
  function ExtIds(sheet: Sheet, col: string, n: nat): set<int>
    requires n <= |sheet.rows|
  {
    if n == 0 then {}
    else ExtIds(sheet, col, n - 1) + IntSet(CellAt(sheet.rows[n - 1], col))
  }

  /**
   * The last of the first n rows whose `col` reads as x: the row whose
   * value a mapping built by overwriting keeps for x.
   */
  function LastWith(sheet: Sheet, col: string, n: nat, x: int): (r: Option<nat>)
    requires n <= |sheet.rows|
    ensures r.Some? ==> r.value < n && IntOf(CellAt(sheet.rows[r.value], col)) == Ok(x)
    ensures r.Some? ==> forall j :: r.value < j < n ==> IntOf(CellAt(sheet.rows[j], col)) != Ok(x)
    ensures r.None? ==> forall j :: 0 <= j < n ==> IntOf(CellAt(sheet.rows[j], col)) != Ok(x)
  {
    if n == 0 then None
    else if IntOf(CellAt(sheet.rows[n - 1], col)) == Ok(x) then Some(n - 1)
    else LastWith(sheet, col, n - 1, x)
  }

  /** An id is among them exactly when some row carries it, the last such row being `LastWith`'s. */
  lemma {:induction false} ExtIdsLast(sheet: Sheet, col: string, n: nat, x: int)
    requires n <= |sheet.rows|
    ensures x in ExtIds(sheet, col, n) <==> LastWith(sheet, col, n, x).Some?
  {
    if n > 0 {
      ExtIdsLast(sheet, col, n - 1, x);
      var c := CellAt(sheet.rows[n - 1], col);
      if IntOf(c) == Ok(x) {
        assert x in IntSet(c);
      } else {
        assert x !in IntSet(c);
      }
    }
  }

  /** An id is among them exactly when one of the first n rows reads as it. */
  lemma ExtIdsMembers(sheet: Sheet, col: string, n: nat, x: int)
    requires n <= |sheet.rows|
    ensures x in ExtIds(sheet, col, n) <==> exists j :: 0 <= j < n && IntOf(CellAt(sheet.rows[j], col)) == Ok(x)
  {
    ExtIdsLast(sheet, col, n, x);
    var last := LastWith(sheet, col, n, x);
    if last.Some? {
      assert 0 <= last.value < n && IntOf(CellAt(sheet.rows[last.value], col)) == Ok(x);
    }
  }

  /** Mapping row i's own id extends a mapping of the ids before it to one of the ids up to it. */
  lemma KeysStep(ids: map<int, int>, ext: int, v: int, sheet: Sheet, col: string, i: nat)
    requires i < |sheet.rows| && IntOf(CellAt(sheet.rows[i], col)) == Ok(ext)
    requires ids.Keys == ExtIds(sheet, col, i)
    ensures ids[ext := v].Keys == ExtIds(sheet, col, i + 1)
  {
    assert IntSet(CellAt(sheet.rows[i], col)) == {ext};
  }

  /** Every row of `a` is still in `b`, unchanged. */
  predicate Extends<T(==)>(a: map<int, T>, b: map<int, T>) {
    forall k :: k in a ==> k in b && b[k] == a[k]
  }

  // ---------------------------------------------------------------------------
  // Users
  // ---------------------------------------------------------------------------

  const UserColumns: set<string> := {"type", "password", "login", "fio", "phone", "userID"}

  function LoginText(row: Row): string {
    Str(CellAt(row, "login"))
  }

  /** The user row a sheet row writes: every cell through `str()`, active, the type by its label. */
  function PersonOf(row: Row, hash: string -> string): Person {
    Person(
      Str(CellAt(row, "fio")),
      Str(CellAt(row, "phone")),
      LoginText(row),
      hash(Str(CellAt(row, "password"))),
      TypeIdOfCell(CellAt(row, "type")),
      true)
  }

  predicate HasLoginText(login: string, p: Person) { p.login == login }

  /**
   * A users row the import accepts: the sheet has every column it reads,
   * the type it names exists (the foreign key), and `int(userID)` succeeds.
   */
  predicate UserRowOk(db: RepairDb, sheet: Sheet, row: Row) {
    && UserColumns <= sheet.columns
    && TypeIdOfCell(CellAt(row, "type")) in db.userTypes.rows
    && IntOf(CellAt(row, "userID")).Ok?
  }

  /**
   * Each `int(userID)` of the first n rows with the login of the last row
   * carrying it: what the id mapping is built to follow.
   */
  function SheetLogins(sheet: Sheet, n: nat): map<int, string>
    requires n <= |sheet.rows|
  {
    if n == 0 then map[]
    else
      var row := sheet.rows[n - 1];
      match IntOf(CellAt(row, "userID"))
      case Ok(x) => SheetLogins(sheet, n - 1)[x := LoginText(row)]
      case Err(_) => SheetLogins(sheet, n - 1)
  }

  /** Each login of the first n rows with the user its last row writes. */
  function SheetPersons(sheet: Sheet, hash: string -> string, n: nat): map<string, Person>
    requires n <= |sheet.rows|
  {
    if n == 0 then map[]
    else SheetPersons(sheet, hash, n - 1)[LoginText(sheet.rows[n - 1]) := PersonOf(sheet.rows[n - 1], hash)]
  }

  /** The ids `SheetLogins` keeps are the sheet's ids, each with the login of its last row. */
  lemma {:induction false} SheetLoginsLast(sheet: Sheet, n: nat, x: int)
    requires n <= |sheet.rows|
    ensures x in SheetLogins(sheet, n) <==> x in ExtIds(sheet, "userID", n)
    ensures x in SheetLogins(sheet, n) ==>
      && LastWith(sheet, "userID", n, x).Some?
      && SheetLogins(sheet, n)[x] == LoginText(sheet.rows[LastWith(sheet, "userID", n, x).value])
  {
    ExtIdsLast(sheet, "userID", n, x);
    if n > 0 {
      SheetLoginsLast(sheet, n - 1, x);
      ExtIdsLast(sheet, "userID", n - 1, x);
    }
  }

  /** `SheetLogins` keeps exactly the sheet's ids. */
  lemma SheetLoginsKeys(sheet: Sheet, n: nat)
    requires n <= |sheet.rows|
    ensures SheetLogins(sheet, n).Keys == ExtIds(sheet, "userID", n)
  {
    forall x ensures x in SheetLogins(sheet, n) <==> x in ExtIds(sheet, "userID", n) {
      SheetLoginsLast(sheet, n, x);
    }
  }

  /** No row after row j, among the first n, repeats its login. */
  ghost predicate LoginFinal(sheet: Sheet, n: nat, j: nat)
    requires j < n <= |sheet.rows|
  {
    forall l :: j < l < n ==> LoginText(sheet.rows[l]) != LoginText(sheet.rows[j])
  }

  /** Every user `SheetPersons` keeps carries its own login. */
  lemma {:induction false} SheetPersonsLogins(sheet: Sheet, hash: string -> string, n: nat)
    requires n <= |sheet.rows|
    ensures forall login :: login in SheetPersons(sheet, hash, n) ==> SheetPersons(sheet, hash, n)[login].login == login
  {
    if n > 0 {
      SheetPersonsLogins(sheet, hash, n - 1);
    }
  }

  /** A row whose login no later row repeats is the user `SheetPersons` keeps for that login. */
  lemma {:induction false} SheetPersonsLast(sheet: Sheet, hash: string -> string, n: nat, j: nat)
    requires j < n <= |sheet.rows| && LoginFinal(sheet, n, j)
    ensures LoginText(sheet.rows[j]) in SheetPersons(sheet, hash, n)
    ensures SheetPersons(sheet, hash, n)[LoginText(sheet.rows[j])] == PersonOf(sheet.rows[j], hash)
  {
    if j < n - 1 {
      assert LoginText(sheet.rows[n - 1]) != LoginText(sheet.rows[j]);
      assert LoginFinal(sheet, n - 1, j);
      SheetPersonsLast(sheet, hash, n - 1, j);
    }
  }

  /** Each sheet id maps to a user holding the login `SheetLogins` keeps for it. */
  ghost predicate MapsLastLogin(sheet: Sheet, rows: map<int, Person>, ids: map<int, int>, n: nat)
    requires n <= |sheet.rows|
  {
    && ids.Keys == SheetLogins(sheet, n).Keys
    && forall k :: k in ids ==> ids[k] in rows && rows[ids[k]].login == SheetLogins(sheet, n)[k]
  }

  /** Every user `SheetPersons` keeps is a user of `rows`. */
  ghost predicate LastPersonsHeld(sheet: Sheet, rows: map<int, Person>, hash: string -> string, n: nat)
    requires n <= |sheet.rows|
  {
    forall login :: login in SheetPersons(sheet, hash, n) ==> SheetPersons(sheet, hash, n)[login] in rows.Values
  }

  /** Mapping row i's id to the user it wrote keeps every id on the login `SheetLogins` keeps. */
  lemma MapsLastLoginStep(sheet: Sheet, before: map<int, Person>, after: map<int, Person>, ids: map<int, int>,
                          ext: int, uid: int, i: nat)
    requires i < |sheet.rows| && IntOf(CellAt(sheet.rows[i], "userID")) == Ok(ext)
    requires MapsLastLogin(sheet, before, ids, i) && KeepsLogins(before, after)
    requires uid in after && after[uid].login == LoginText(sheet.rows[i])
    ensures MapsLastLogin(sheet, after, ids[ext := uid], i + 1)
  {
    var logins := SheetLogins(sheet, i + 1);
    assert logins == SheetLogins(sheet, i)[ext := LoginText(sheet.rows[i])];
    forall k | k in ids && k != ext
      ensures ids[k] in after && after[ids[k]].login == logins[k]
    {
      assert k in SheetLogins(sheet, i) && logins[k] == SheetLogins(sheet, i)[k];
      var u := ids[k];
      assert u in before;
      assert u in after;
    }
  }

  /** Overwriting an entry that does not hold `q` keeps `q` among the values. */
  lemma ValueKept<K, V>(m: map<K, V>, u: K, p: V, q: V)
    requires q in m.Values && (u in m ==> m[u] != q)
    ensures q in m[u := p].Values
  {
    var w :| w in m && m[w] == q;
    assert w != u && m[u := p][w] == q;
  }

  /**
   * Writing row i's user over the user holding its login, or as a new
   * user, keeps every user `SheetPersons` keeps for another login.
   */
  lemma LastPersonsStep(sheet: Sheet, before: map<int, Person>, hash: string -> string, uid: int, i: nat)
    requires i < |sheet.rows| && LastPersonsHeld(sheet, before, hash, i)
    requires uid in before ==> before[uid].login == LoginText(sheet.rows[i])
    ensures LastPersonsHeld(sheet, before[uid := PersonOf(sheet.rows[i], hash)], hash, i + 1)
  {
    var p := PersonOf(sheet.rows[i], hash);
    var after := before[uid := p];
    var persons := SheetPersons(sheet, hash, i);
    SheetPersonsLogins(sheet, hash, i);
    forall login | login in persons && login != p.login
      ensures persons[login] in after.Values
    {
      ValueKept(before, uid, p, persons[login]);
    }
    assert after[uid] == p;
  }

  /** Every user of `a` is still in `b`, under the same login. */
  predicate KeepsLogins(a: map<int, Person>, b: map<int, Person>) {
    forall k :: k in a ==> k in b && b[k].login == a[k].login
  }

  /** Every login of the first n sheet rows belongs to some user of `rows`. */
  ghost predicate LoginsTaken(rows: map<int, Person>, sheet: Sheet, n: nat) {
    forall j :: 0 <= j < n <= |sheet.rows| ==> Taken(rows, LoginOf, LoginText(sheet.rows[j]))
  }

  /** Logins that are present stay present while no user is removed or renamed. */
  lemma LoginsCarry(a: map<int, Person>, b: map<int, Person>, sheet: Sheet, n: nat)
    requires KeepsLogins(a, b) && LoginsTaken(a, sheet, n)
    ensures LoginsTaken(b, sheet, n)
  {
    forall j | 0 <= j < n <= |sheet.rows|
      ensures Taken(b, LoginOf, LoginText(sheet.rows[j]))
    {
      assert Taken(a, LoginOf, LoginText(sheet.rows[j]));
      var w :| w in a && LoginOf(a[w]) == LoginText(sheet.rows[j]);
      assert w in b && LoginOf(b[w]) == LoginOf(a[w]);
    }
  }

  /** A row whose login was present before the import writes over an existing user. */
  lemma PresentLoginKeepsKeys(before: map<int, Person>, now: map<int, Person>, sheet: Sheet, i: nat, uid: int, p: Person)
    requires i < |sheet.rows|
    requires KeepsLogins(before, now) && LoginsTaken(before, sheet, |sheet.rows|)
    requires Taken(now, LoginOf, LoginText(sheet.rows[i])) <==> uid in now
    ensures now[uid := p].Keys == now.Keys
  {
    assert Taken(before, LoginOf, LoginText(sheet.rows[i]));
    var w :| w in before && LoginOf(before[w]) == LoginText(sheet.rows[i]);
    assert w in now && LoginOf(now[w]) == LoginText(sheet.rows[i]);
  }

  /**
   * Writing user `p` under `uid` keeps the database consistent when its type
   * exists and no other user holds its login.
   */
  lemma UserWriteConsistent(db: RepairDb, d: RepairDb, uid: int, p: Person)
    requires Consistent(db) && Valid(d.users) && d == db.(users := d.users)
    requires d.users.rows == db.users.rows[uid := p]
    requires p.typeId in db.userTypes.rows
    requires forall k :: k in db.users.rows && k != uid ==> db.users.rows[k].login != p.login
    ensures Consistent(d)
  {
    assert Unique(d.users.rows, LoginOf);
    forall k | k in db.requests.rows
      ensures Admissible(d, db.requests.rows[k])
    {
      assert Admissible(db, db.requests.rows[k]);
    }
  }

  /**
   * Writing user `p` under its login: over the user holding that login
   * (the least rowid, which keeps its id), or as a new user under the next
   * AUTOINCREMENT rowid.
   */
  function UpsertUser(db: RepairDb, p: Person): (r: (RepairDb, int))
    requires TablesValid(db)
    ensures TablesValid(r.0) && r.0 == db.(users := r.0.users)
    ensures r.0.users.rows == db.users.rows[r.1 := p]
    ensures Taken(db.users.rows, LoginOf, p.login) <==> r.1 in db.users.rows
    ensures KeepsLogins(db.users.rows, r.0.users.rows)
    ensures r.1 in db.users.rows ==>
      && db.users.rows[r.1].login == p.login
      && forall k :: k in db.users.rows && db.users.rows[k].login == p.login ==> r.1 <= k
    ensures Consistent(db) && p.typeId in db.userTypes.rows ==> Consistent(r.0)
  {
    var found := FirstWhere(db.users.rows, q => HasLoginText(p.login, q));
    assert found.None? ==> !Taken(db.users.rows, LoginOf, p.login) by {
      if found.None? {
        forall i | i in db.users.rows
          ensures LoginOf(db.users.rows[i]) != p.login
        {
          assert !HasLoginText(p.login, db.users.rows[i]);
        }
      }
    }
    assert found.Some? ==> HasLoginText(p.login, db.users.rows[found.value]);
    var (t, uid) := if found.Some? then (Put(db.users, found.value, p), found.value) else Append(db.users, p);
    var d := db.(users := t);
    assert Consistent(db) && p.typeId in db.userTypes.rows ==> Consistent(d) by {
      if Consistent(db) && p.typeId in db.userTypes.rows {
        forall k | k in db.users.rows && k != uid
          ensures db.users.rows[k].login != p.login
        {
          if uid in db.users.rows {
            assert LoginOf(db.users.rows[k]) != LoginOf(db.users.rows[uid]);
          }
        }
        UserWriteConsistent(db, d, uid, p);
      }
    }
    (d, uid)
  }

  /**
   * One users row: the user with this login is updated in place (keeping
   * its id), or a new user is inserted; the result pairs `int(userID)` with
   * that id. The type must exist (foreign key) and `userID` must read as an
   * integer.
   */
  function ImportUserRow(db: RepairDb, sheet: Sheet, row: Row, hash: string -> string): (r: Result<(RepairDb, int, int), Fault>)
    requires TablesValid(db)
    ensures r.Ok? <==> UserRowOk(db, sheet, row)
    ensures r.Ok? ==> var (d, ext, uid) := r.value;
      && TablesValid(d)
      && d == db.(users := d.users)
      && IntOf(CellAt(row, "userID")) == Ok(ext)
      && d.users.rows == db.users.rows[uid := PersonOf(row, hash)]
      && (Taken(db.users.rows, LoginOf, LoginText(row)) <==> uid in db.users.rows)
      && KeepsLogins(db.users.rows, d.users.rows)
    ensures r.Ok? && r.value.2 in db.users.rows ==> var uid := r.value.2;
      && db.users.rows[uid].login == LoginText(row)
      && forall k :: k in db.users.rows && db.users.rows[k].login == LoginText(row) ==> uid <= k
    ensures r.Ok? && Consistent(db) ==> Consistent(r.value.0)
  {
    var typeCell :- Field(sheet, row, "type");
    var password :- Field(sheet, row, "password");
    var login :- Field(sheet, row, "login");
    var fio :- Field(sheet, row, "fio");
    var phone :- Field(sheet, row, "phone");
    if TypeIdOfCell(typeCell) !in db.userTypes.rows then Err(ForeignKeyViolated("user_type_id"))
    else
      var (d, uid) := UpsertUser(db, PersonOf(row, hash));
      var idCell :- Field(sheet, row, "userID");
      var ext :- IntOf(idCell);
      Ok((d, ext, uid))
  }

  /**
   * The users loop from row i on, over database `d` and mapping `ids`:
   * each row is written in turn and its sheet id mapped, overwriting, to
   * the user it wrote; the first failure ends it.
   */
  function UsersFrom(sheet: Sheet, hash: string -> string, d: RepairDb, ids: map<int, int>, i: nat): (r: Result<(RepairDb, map<int, int>), Fault>)
    requires i <= |sheet.rows| && TablesValid(d)
    ensures r.Ok? ==> TablesValid(r.value.0)
    decreases |sheet.rows| - i
  {
    if i == |sheet.rows| then Ok((d, ids))
    else
      var (d1, ext, uid) :- ImportUserRow(d, sheet, sheet.rows[i], hash);
      UsersFrom(sheet, hash, d1, ids[ext := uid], i + 1)
  }

  /** The loop from row i on succeeds only when every row from i on is accepted. */
  lemma {:induction false} UsersFromSucceeds(db: RepairDb, sheet: Sheet, hash: string -> string, d: RepairDb, ids: map<int, int>, i: nat)
    requires i <= |sheet.rows| && TablesValid(d) && d.userTypes == db.userTypes
    ensures UsersFrom(sheet, hash, d, ids, i).Ok? ==> forall j :: i <= j < |sheet.rows| ==> UserRowOk(db, sheet, sheet.rows[j])
    decreases |sheet.rows| - i
  {
    if i < |sheet.rows| {
      var step := ImportUserRow(d, sheet, sheet.rows[i], hash);
      if step.Ok? {
        var (d1, ext, uid) := step.value;
        UsersFromSucceeds(db, sheet, hash, d1, ids[ext := uid], i + 1);
      }
    }
  }

  /** The loop gets past every row from i on when each of them is accepted. */
  lemma {:induction false} UsersFromAccepts(db: RepairDb, sheet: Sheet, hash: string -> string, d: RepairDb, ids: map<int, int>, i: nat)
    requires i <= |sheet.rows| && TablesValid(d) && d.userTypes == db.userTypes
    requires forall j :: i <= j < |sheet.rows| ==> UserRowOk(db, sheet, sheet.rows[j])
    ensures UsersFrom(sheet, hash, d, ids, i).Ok?
    decreases |sheet.rows| - i
  {
    if i < |sheet.rows| {
      assert UserRowOk(d, sheet, sheet.rows[i]);
      var (d1, ext, uid) := ImportUserRow(d, sheet, sheet.rows[i], hash).value;
      UsersFromAccepts(db, sheet, hash, d1, ids[ext := uid], i + 1);
    }
  }


  /**
   * The loop changes only the users table, removes or renames no user, and
   * keeps a consistent database consistent.
   */
  ghost predicate UsersFrame(db: RepairDb, d: RepairDb) {
    && TablesValid(d)
    && d == db.(users := d.users)
    && KeepsLogins(db.users.rows, d.users.rows)
    && (Consistent(db) ==> Consistent(d))
  }

  lemma {:induction false} UsersFromFrame(db: RepairDb, sheet: Sheet, hash: string -> string, d: RepairDb, ids: map<int, int>, i: nat)
    requires i <= |sheet.rows| && UsersFrame(db, d)
    ensures var r := UsersFrom(sheet, hash, d, ids, i); r.Ok? ==> UsersFrame(db, r.value.0)
    decreases |sheet.rows| - i
  {
    if i < |sheet.rows| {
      var step := ImportUserRow(d, sheet, sheet.rows[i], hash);
      if step.Ok? {
        var (d1, ext, uid) := step.value;
        assert UsersFrame(db, d1);
        UsersFromFrame(db, sheet, hash, d1, ids[ext := uid], i + 1);
      }
    }
  }

  /** Once the loop is past row i, every login of the rows before it is present. */
  lemma {:induction false} UsersFromLogins(sheet: Sheet, hash: string -> string, d: RepairDb, ids: map<int, int>, i: nat)
    requires i <= |sheet.rows| && TablesValid(d) && LoginsTaken(d.users.rows, sheet, i)
    ensures var r := UsersFrom(sheet, hash, d, ids, i);
      r.Ok? ==> LoginsTaken(r.value.0.users.rows, sheet, |sheet.rows|)
    decreases |sheet.rows| - i
  {
    if i < |sheet.rows| {
      var step := ImportUserRow(d, sheet, sheet.rows[i], hash);
      if step.Ok? {
        var (d1, ext, uid) := step.value;
        LoginsCarry(d.users.rows, d1.users.rows, sheet, i);
        assert LoginOf(d1.users.rows[uid]) == LoginText(sheet.rows[i]);
        assert LoginsTaken(d1.users.rows, sheet, i + 1);
        UsersFromLogins(sheet, hash, d1, ids[ext := uid], i + 1);
      }
    }
  }

  /** When every login of the sheet was present before, the loop adds no user. */
  lemma {:induction false} UsersFromKeys(db: RepairDb, sheet: Sheet, hash: string -> string, d: RepairDb, ids: map<int, int>, i: nat)
    requires i <= |sheet.rows| && TablesValid(d)
    requires LoginsTaken(db.users.rows, sheet, |sheet.rows|) && KeepsLogins(db.users.rows, d.users.rows)
    requires d.users.rows.Keys == db.users.rows.Keys
    ensures var r := UsersFrom(sheet, hash, d, ids, i);
      r.Ok? ==> r.value.0.users.rows.Keys == db.users.rows.Keys
    decreases |sheet.rows| - i
  {
    if i < |sheet.rows| {
      var step := ImportUserRow(d, sheet, sheet.rows[i], hash);
      if step.Ok? {
        var (d1, ext, uid) := step.value;
        PresentLoginKeepsKeys(db.users.rows, d.users.rows, sheet, i, uid, PersonOf(sheet.rows[i], hash));
        UsersFromKeys(db, sheet, hash, d1, ids[ext := uid], i + 1);
      }
    }
  }

  /**
   * The mapping's keys are the sheet ids of the rows the loop is past, each
   * mapped to a user holding the login of the last row carrying it.
   */
  lemma {:induction false} UsersFromMaps(sheet: Sheet, hash: string -> string, d: RepairDb, ids: map<int, int>, i: nat)
    requires i <= |sheet.rows| && TablesValid(d)
    requires MapsLastLogin(sheet, d.users.rows, ids, i)
    ensures var r := UsersFrom(sheet, hash, d, ids, i);
      r.Ok? ==> MapsLastLogin(sheet, r.value.0.users.rows, r.value.1, |sheet.rows|)
    decreases |sheet.rows| - i
  {
    if i < |sheet.rows| {
      var step := ImportUserRow(d, sheet, sheet.rows[i], hash);
      if step.Ok? {
        var (d1, ext, uid) := step.value;
        MapsLastLoginStep(sheet, d.users.rows, d1.users.rows, ids, ext, uid, i);
        UsersFromMaps(sheet, hash, d1, ids[ext := uid], i + 1);
      }
    }
  }

  /** Every row the loop is past whose login no later row repeats is a user exactly as written. */
  lemma {:induction false} UsersFromLast(sheet: Sheet, hash: string -> string, d: RepairDb, ids: map<int, int>, i: nat)
    requires i <= |sheet.rows| && TablesValid(d) && LastPersonsHeld(sheet, d.users.rows, hash, i)
    ensures var r := UsersFrom(sheet, hash, d, ids, i);
      r.Ok? ==> LastPersonsHeld(sheet, r.value.0.users.rows, hash, |sheet.rows|)
    decreases |sheet.rows| - i
  {
    if i < |sheet.rows| {
      var step := ImportUserRow(d, sheet, sheet.rows[i], hash);
      if step.Ok? {
        var (d1, ext, uid) := step.value;
        LastPersonsStep(sheet, d.users.rows, hash, uid, i);
        UsersFromLast(sheet, hash, d1, ids[ext := uid], i + 1);
      }
    }
  }

  /**
   * What the users phase leaves behind: only the users table changed, no
   * user was removed or renamed, every login of the sheet is present, the
   * mapping's keys are exactly the sheet's ids, each mapped to the user of
   * the last row carrying it, and every row whose login no later row
   * repeats is a user exactly as that row writes it.
   */
  ghost predicate UsersImported(db: RepairDb, sheet: Sheet, hash: string -> string, d: RepairDb, m: map<int, int>) {
    && TablesValid(d)
    && d == db.(users := d.users)
    && KeepsLogins(db.users.rows, d.users.rows)
    && LoginsTaken(d.users.rows, sheet, |sheet.rows|)
    && m.Keys == ExtIds(sheet, "userID", |sheet.rows|)
    && (forall k :: k in m ==> m[k] in d.users.rows)
    && MapsLastLogin(sheet, d.users.rows, m, |sheet.rows|)
    && LastPersonsHeld(sheet, d.users.rows, hash, |sheet.rows|)
  }

  /**
   * The users phase: it succeeds exactly when every row is accepted, and
   * then leaves what `UsersImported` states. When every login was present
   * already, no user is added, so importing the same sheet twice adds
   * nobody the second time.
   */
  method ImportUsers(db: RepairDb, sheet: Sheet, hash: string -> string) returns (r: Result<(RepairDb, map<int, int>), Fault>)
    requires TablesValid(db)
    ensures |sheet.rows| > 0 && !(UserColumns <= sheet.columns) ==> r.Err?
    ensures r.Ok? <==> forall j :: 0 <= j < |sheet.rows| ==> UserRowOk(db, sheet, sheet.rows[j])
    ensures r.Ok? ==> UsersImported(db, sheet, hash, r.value.0, r.value.1)
    ensures r.Ok? && LoginsTaken(db.users.rows, sheet, |sheet.rows|) ==> r.value.0.users.rows.Keys == db.users.rows.Keys
    ensures r.Ok? && Consistent(db) ==> Consistent(r.value.0)
  {
    r := UsersFrom(sheet, hash, db, map[], 0);
    UsersFromSucceeds(db, sheet, hash, db, map[], 0);
    if forall j :: 0 <= j < |sheet.rows| ==> UserRowOk(db, sheet, sheet.rows[j]) {
      UsersFromAccepts(db, sheet, hash, db, map[], 0);
    }
    if |sheet.rows| > 0 && !(UserColumns <= sheet.columns) {
      assert !UserRowOk(db, sheet, sheet.rows[0]);
    }
    UsersFromFrame(db, sheet, hash, db, map[], 0);
    UsersFromLogins(sheet, hash, db, map[], 0);
    if LoginsTaken(db.users.rows, sheet, |sheet.rows|) {
      UsersFromKeys(db, sheet, hash, db, map[], 0);
    }
    UsersFromMaps(sheet, hash, db, map[], 0);
    UsersFromLast(sheet, hash, db, map[], 0);
    SheetLoginsKeys(sheet, |sheet.rows|);
  }

  /**
   * What the users phase leaves, row by row: each sheet id maps to a user
   * holding the login of the last row with that id, and each row whose
   * login no later row repeats is a user exactly as that row describes it.
   */
  lemma UsersImportedRows(db: RepairDb, sheet: Sheet, hash: string -> string, d: RepairDb, m: map<int, int>)
    requires UsersImported(db, sheet, hash, d, m)
    ensures forall k :: k in m ==>
      && m[k] in d.users.rows
      && LastWith(sheet, "userID", |sheet.rows|, k).Some?
      && d.users.rows[m[k]].login == LoginText(sheet.rows[LastWith(sheet, "userID", |sheet.rows|, k).value])
    ensures forall j :: 0 <= j < |sheet.rows| && LoginFinal(sheet, |sheet.rows|, j) ==>
      PersonOf(sheet.rows[j], hash) in d.users.rows.Values
  {
    forall k | k in m
      ensures LastWith(sheet, "userID", |sheet.rows|, k).Some?
      ensures d.users.rows[m[k]].login == LoginText(sheet.rows[LastWith(sheet, "userID", |sheet.rows|, k).value])
    {
      SheetLoginsLast(sheet, |sheet.rows|, k);
    }
    forall j | 0 <= j < |sheet.rows| && LoginFinal(sheet, |sheet.rows|, j)
      ensures PersonOf(sheet.rows[j], hash) in d.users.rows.Values
    {
      SheetPersonsLast(sheet, hash, |sheet.rows|, j);
    }
  }

  // ---------------------------------------------------------------------------
  // Requests: equipment types and models through the memo
  // ---------------------------------------------------------------------------

  /**
   * The two memo dictionaries of the requests phase: type name to id, and
   * a key built from (type name, model name) to model id.
   */
  datatype Memo<K> = Memo(types: map<string, int>, models: map<K, int>)

  /** The memo key the code builds: f"{equipment_type}_{equipment_model}". */
  function JoinedKey(typeName: string, modelName: string): string {
    typeName + "_" + modelName
  }

  /** The memo key that tells every (type, model) pair apart. */
  function PairKey(typeName: string, modelName: string): (string, string) {
    (typeName, modelName)
  }

  ghost predicate Injective<K>(keyOf: (string, string) -> K) {
    forall a, b, c, d :: keyOf(a, b) == keyOf(c, d) ==> a == c && b == d
  }

  /** Every remembered type name names the row it maps to. */
  ghost predicate TypesSound(db: RepairDb, types: map<string, int>) {
    forall n :: n in types ==> types[n] in db.equipmentTypes.rows && db.equipmentTypes.rows[types[n]] == n
  }

  /** Every remembered model id is a row of the models table, whatever its key. */
  ghost predicate ModelsPresent<K>(db: RepairDb, models: map<K, int>) {
    forall key :: key in models ==> models[key] in db.equipmentModels.rows
  }

  /** The memo's type entries name their rows and its model entries are rows. */
  ghost predicate MemoPresent<K>(db: RepairDb, memo: Memo<K>) {
    TypesSound(db, memo.types) && ModelsPresent(db, memo.models)
  }

  /** Remembering a model row keeps every remembered id a row, as the table grows. */
  lemma ModelsPresentStep<K>(db: RepairDb, d: RepairDb, models: map<K, int>, key: K, id: int)
    requires ModelsPresent(db, models) && Extends(db.equipmentModels.rows, d.equipmentModels.rows)
    requires id in d.equipmentModels.rows
    ensures ModelsPresent(d, models[key := id])
  {
    forall k | k == key || k in models
      ensures models[key := id][k] in d.equipmentModels.rows
    {
      if k != key {
        var v := models[k];
        assert v in db.equipmentModels.rows;
        assert v in d.equipmentModels.rows;
      }
    }
  }

  /** Every memo entry names a row that matches it. */
  ghost predicate MemoSound<K>(db: RepairDb, memo: Memo<K>, keyOf: (string, string) -> K) {
    && TypesSound(db, memo.types)
    && (forall t, m :: keyOf(t, m) in memo.models ==>
          && t in memo.types
          && memo.models[keyOf(t, m)] in db.equipmentModels.rows
          && db.equipmentModels.rows[memo.models[keyOf(t, m)]] == EquipmentModel(m, memo.types[t]))
  }

  /** Rows are only ever added: a sound memo stays sound as the tables grow. */
  lemma MemoSoundGrows<K>(db: RepairDb, d: RepairDb, memo: Memo<K>, keyOf: (string, string) -> K)
    requires MemoSound(db, memo, keyOf)
    requires Extends(db.equipmentTypes.rows, d.equipmentTypes.rows)
    requires Extends(db.equipmentModels.rows, d.equipmentModels.rows)
    ensures MemoSound(d, memo, keyOf)
  {
    var types, models := db.equipmentTypes.rows, db.equipmentModels.rows;
    forall n | n in memo.types
      ensures memo.types[n] in d.equipmentTypes.rows && d.equipmentTypes.rows[memo.types[n]] == n
    {
      var id := memo.types[n];
      assert id in types && types[id] == n;
      assert id in d.equipmentTypes.rows && d.equipmentTypes.rows[id] == types[id];
    }
    forall t, m | keyOf(t, m) in memo.models
      ensures t in memo.types
      ensures memo.models[keyOf(t, m)] in d.equipmentModels.rows
      ensures d.equipmentModels.rows[memo.models[keyOf(t, m)]] == EquipmentModel(m, memo.types[t])
    {
      var id := memo.models[keyOf(t, m)];
      assert t in memo.types && id in models && models[id] == EquipmentModel(m, memo.types[t]);
      assert id in d.equipmentModels.rows && d.equipmentModels.rows[id] == models[id];
    }
  }

  /** The type id for `name`: from the memo, else by get-or-create, then remembered. */
  function TypeIdMemo<K(==)>(db: RepairDb, memo: Memo<K>, name: string): (r: (RepairDb, Memo<K>, int))
    requires TablesValid(db)
    ensures TablesValid(r.0)
    ensures r.0 == db.(equipmentTypes := r.0.equipmentTypes)
    ensures Extends(db.equipmentTypes.rows, r.0.equipmentTypes.rows)
    ensures r.1 == memo.(types := memo.types[name := r.2])
    ensures name in memo.types ==> r.2 == memo.types[name] && r.0 == db
    ensures Consistent(db) ==> Consistent(r.0)
    ensures TypesSound(db, memo.types) ==>
      TypesSound(r.0, r.1.types) && r.2 in r.0.equipmentTypes.rows && r.0.equipmentTypes.rows[r.2] == name
  {
    if name in memo.types then (db, memo, memo.types[name])
    else
      var (d, id) := TypeIdFor(db, name);
      (d, memo.(types := memo.types[name := id]), id)
  }

  /** The model id under memo key `key`: from the memo, else by get-or-create, then remembered. */
  function ModelIdMemo<K(==)>(db: RepairDb, memo: Memo<K>, key: K, name: string, typeId: int): (r: Result<(RepairDb, Memo<K>, int), Fault>)
    requires TablesValid(db)
    ensures typeId in db.equipmentTypes.rows ==> r.Ok?
    ensures r.Ok? ==> var (d, memo1, id) := r.value;
      && TablesValid(d)
      && d == db.(equipmentModels := d.equipmentModels)
      && Extends(db.equipmentModels.rows, d.equipmentModels.rows)
      && memo1 == memo.(models := memo.models[key := id])
      && (key in memo.models ==> id == memo.models[key] && d == db)
      && (key !in memo.models ==> id in d.equipmentModels.rows && d.equipmentModels.rows[id] == EquipmentModel(name, typeId))
    ensures r.Ok? && Consistent(db) ==> Consistent(r.value.0)
    ensures r.Ok? && ModelsPresent(db, memo.models) ==>
      ModelsPresent(r.value.0, r.value.1.models) && r.value.2 in r.value.0.equipmentModels.rows
  {
    if key in memo.models then Ok((db, memo, memo.models[key]))
    else
      var (id, d) := ModelIdFor(db, name, typeId);
      if id.Err? then Err(ForeignKeyViolated("equipment_type_id"))
      else
        assert ModelsPresent(db, memo.models) ==> ModelsPresent(d, memo.models[key := id.value]) by {
          if ModelsPresent(db, memo.models) {
            ModelsPresentStep(db, d, memo.models, key, id.value);
          }
        }
        Ok((d, memo.(models := memo.models[key := id.value]), id.value))
  }

  /**
   * One memo step keeps an injectively keyed memo sound: the type entry
   * names its row, and the model entry either was sound already or names
   * the model row just found or created.
   */
  lemma MemoStepSound<K>(db: RepairDb, db1: RepairDb, db2: RepairDb, memo: Memo<K>, keyOf: (string, string) -> K,
                         typeName: string, modelName: string, typeId: int, modelId: int)
    requires Injective(keyOf) && MemoSound(db, memo, keyOf)
    requires db1.equipmentModels == db.equipmentModels && db2.equipmentTypes == db1.equipmentTypes
    requires TypesSound(db1, memo.types[typeName := typeId])
    requires typeName in memo.types ==> typeId == memo.types[typeName]
    requires Extends(db1.equipmentModels.rows, db2.equipmentModels.rows)
    requires keyOf(typeName, modelName) in memo.models ==> modelId == memo.models[keyOf(typeName, modelName)] && db2 == db1
    requires keyOf(typeName, modelName) !in memo.models ==>
      modelId in db2.equipmentModels.rows && db2.equipmentModels.rows[modelId] == EquipmentModel(modelName, typeId)
    ensures MemoSound(db2, Memo(memo.types[typeName := typeId], memo.models[keyOf(typeName, modelName) := modelId]), keyOf)
    ensures modelId in db2.equipmentModels.rows && db2.equipmentModels.rows[modelId] == EquipmentModel(modelName, typeId)
  {
    var key := keyOf(typeName, modelName);
    var memo1 := memo.(types := memo.types[typeName := typeId]);
    var memo2 := memo1.(models := memo.models[key := modelId]);
    forall t, m | keyOf(t, m) in memo2.models
      ensures && t in memo2.types
        && memo2.models[keyOf(t, m)] in db2.equipmentModels.rows
        && db2.equipmentModels.rows[memo2.models[keyOf(t, m)]] == EquipmentModel(m, memo2.types[t])
    {
      if keyOf(t, m) == key {
        assert t == typeName && m == modelName;
        if key in memo.models {
          assert memo.models[key] in db.equipmentModels.rows;
        }
      } else {
        var id := memo.models[keyOf(t, m)];
        assert t in memo.types && id in db1.equipmentModels.rows;
        assert db1.equipmentModels.rows[id] == EquipmentModel(m, memo.types[t]);
        assert id in db2.equipmentModels.rows && db2.equipmentModels.rows[id] == db1.equipmentModels.rows[id];
      }
    }
  }

  function TypeText(row: Row): string { Str(CellAt(row, "homeTechType")) }
  function ModelText(row: Row): string { Str(CellAt(row, "homeTechModel")) }

  /**
   * The equipment type and model of one requests row, through the memo.
   * With a sound memo and an injective key, the ids found name exactly the
   * row's type and model.
   */
  function ResolveEquipment<K(==)>(db: RepairDb, memo: Memo<K>, sheet: Sheet, row: Row, keyOf: (string, string) -> K):
    (r: Result<(RepairDb, Memo<K>, int, int), Fault>)
    requires TablesValid(db)
    ensures !("homeTechType" in sheet.columns && "homeTechModel" in sheet.columns) ==> r.Err?
    ensures TypesSound(db, memo.types) && "homeTechType" in sheet.columns && "homeTechModel" in sheet.columns ==> r.Ok?
    ensures r.Ok? ==> var (d, memo1, typeId, modelId) := r.value;
      && TablesValid(d)
      && d == db.(equipmentTypes := d.equipmentTypes, equipmentModels := d.equipmentModels)
      && Extends(db.equipmentTypes.rows, d.equipmentTypes.rows)
      && Extends(db.equipmentModels.rows, d.equipmentModels.rows)
      && (TypesSound(db, memo.types) ==> TypesSound(d, memo1.types))
      && (keyOf(TypeText(row), ModelText(row)) in memo.models ==> modelId == memo.models[keyOf(TypeText(row), ModelText(row))])
      && (MemoPresent(db, memo) ==>
            MemoPresent(d, memo1) && typeId in d.equipmentTypes.rows && modelId in d.equipmentModels.rows)
    ensures r.Ok? && Consistent(db) ==> Consistent(r.value.0)
    ensures r.Ok? && Injective(keyOf) && MemoSound(db, memo, keyOf) ==> var (d, memo1, typeId, modelId) := r.value;
      && MemoSound(d, memo1, keyOf)
      && typeId in d.equipmentTypes.rows && d.equipmentTypes.rows[typeId] == TypeText(row)
      && modelId in d.equipmentModels.rows && d.equipmentModels.rows[modelId] == EquipmentModel(ModelText(row), typeId)
  {
    var typeCell :- Field(sheet, row, "homeTechType");
    var typeName := Str(typeCell);
    var (db1, memo1, typeId) := TypeIdMemo(db, memo, typeName);
    var modelCell :- Field(sheet, row, "homeTechModel");
    var modelName := Str(modelCell);
    var key := keyOf(typeName, modelName);
    var modelStep :- ModelIdMemo(db1, memo1, key, modelName, typeId);
    var (db2, memo2, modelId) := modelStep;
    assert Injective(keyOf) && MemoSound(db, memo, keyOf) ==>
      && MemoSound(db2, memo2, keyOf)
      && db2.equipmentModels.rows[modelId] == EquipmentModel(modelName, typeId)
    by {
      if Injective(keyOf) && MemoSound(db, memo, keyOf) {
        MemoStepSound(db, db1, db2, memo, keyOf, typeName, modelName, typeId, modelId);
      }
    }
    Ok((db2, memo2, typeId, modelId))
  }

  // ---------------------------------------------------------------------------
  // Requests: one row and the phase
  // ---------------------------------------------------------------------------

  /** `int(clientID)` reads and resolves through the user mapping. */
  predicate ClientResolves(row: Row, users: map<int, int>) {
    IntOf(CellAt(row, "clientID")).Ok? && IntOf(CellAt(row, "clientID")).value in users
  }

  /** `user_id_mapping.get(int(masterID))` unless the cell is NaN; `int()` of anything else may raise. */
  function MasterOf(c: Cell, users: map<int, int>): (r: Result<Option<int>, Fault>)
    ensures c.Null? ==> r == Ok(None)
    ensures !c.Null? ==> (r.Ok? <==> IntOf(c).Ok?)
    ensures r.Ok? && !c.Null? ==> (r.value.Some? <==> IntOf(c).value in users)
    ensures r.Ok? && r.value.Some? ==> !c.Null? && r.value.value == users[IntOf(c).value]
  {
    if c.Null? then Ok(None)
    else
      var m :- IntOf(c);
      Ok(if m in users then Some(users[m]) else None)
  }

  /** The parts cell: `str()` of it, NULL for NaN. */
  function PartsOf(c: Cell): Option<string> {
    if c.Null? then None else Some(Str(c))
  }

  /** The columns `ReadRequest` reads. */
  const RequestColumns: set<string> :=
    {"requestStatus", "clientID", "masterID", "startDate", "completionDate", "repairParts", "problemDescryption"}

  /**
   * The cells of a requests row read and bind: the columns are there, the
   * client resolves, `masterID` is NaN or an integer, and neither date is
   * a timestamp (which sqlite3 refuses to bind).
   */
  predicate RequestReads(sheet: Sheet, row: Row, users: map<int, int>) {
    && RequestColumns <= sheet.columns
    && ClientResolves(row, users)
    && (CellAt(row, "masterID").Null? || IntOf(CellAt(row, "masterID")).Ok?)
    && !CellAt(row, "startDate").Stamp? && !CellAt(row, "completionDate").Stamp?
  }

  /**
   * The row's dates, once bound and converted by the `DATE` affinity, pass
   * `start_date NOT NULL` and the completion-date CHECK.
   */
  predicate DatesFit(row: Row) {
    match (OfCell(CellAt(row, "startDate")), OfCell(CellAt(row, "completionDate")))
    case (Ok(start), Ok(completion)) =>
      !DateValue(start).SqlNull? && CompletionCheck(DateValue(start), DateValue(completion))
    case _ => false
  }

  /** The client, and the master when one resolves, are users of `db`. */
  predicate PeopleExist(db: RepairDb, row: Row, users: map<int, int>)
    requires ClientResolves(row, users)
  {
    && users[IntOf(CellAt(row, "clientID")).value] in db.users.rows
    && (IntOf(CellAt(row, "masterID")).Ok? && IntOf(CellAt(row, "masterID")).value in users ==>
          users[IntOf(CellAt(row, "masterID")).value] in db.users.rows)
  }

  /**
   * Every constraint `INSERT INTO repair_requests` checks, read off the
   * sheet row: the dates, the equipment and status references, and the
   * users it refers to (the priority is always 3, within its CHECK).
   */
  predicate RequestFits(db: RepairDb, row: Row, users: map<int, int>, typeId: int, modelId: int)
    requires ClientResolves(row, users)
  {
    && DatesFit(row)
    && typeId in db.equipmentTypes.rows && modelId in db.equipmentModels.rows
    && StatusIdOfLabel(Str(CellAt(row, "requestStatus"))) in db.statuses.rows
    && PeopleExist(db, row, users)
  }

  /**
   * A requests row the import stores, provided the users it maps to exist:
   * every column it reads is there, its client's sheet id is among
   * `userIds`, `masterID` is NaN or an integer, its dates bind and pass
   * NOT NULL and the CHECK, its status exists, and `int(requestID)`
   * succeeds.
   */
  predicate RequestRowOk(db: RepairDb, sheet: Sheet, row: Row, userIds: set<int>) {
    && RequestColumns + {"homeTechType", "homeTechModel", "requestID"} <= sheet.columns
    && IntOf(CellAt(row, "clientID")).Ok? && IntOf(CellAt(row, "clientID")).value in userIds
    && (CellAt(row, "masterID").Null? || IntOf(CellAt(row, "masterID")).Ok?)
    && DatesFit(row)
    && StatusIdOfLabel(Str(CellAt(row, "requestStatus"))) in db.statuses.rows
    && IntOf(CellAt(row, "requestID")).Ok?
  }

  /**
   * A stored request carries the sheet row's own fields: its dates as bound
   * and then converted by the `DATE` columns' affinity, its text, its status
   * by label, its client and master through the mapping, and the fixed
   * priority 3.
   */
  ghost predicate Transcribes(row: Row, users: map<int, int>, v: RepairRequest) {
    && OfCell(CellAt(row, "startDate")).Ok?
    && v.start == DateValue(OfCell(CellAt(row, "startDate")).value)
    && OfCell(CellAt(row, "completionDate")).Ok?
    && v.completion == DateValue(OfCell(CellAt(row, "completionDate")).value)
    && v.problem == Str(CellAt(row, "problemDescryption"))
    && v.statusId == StatusIdOfLabel(Str(CellAt(row, "requestStatus")))
    && v.repairParts == PartsOf(CellAt(row, "repairParts"))
    && MasterOf(CellAt(row, "masterID"), users) == Ok(v.masterId)
    && ClientResolves(row, users)
    && v.clientId == users[IntOf(CellAt(row, "clientID")).value]
    && v.priority == 3
  }

  /**
   * The request a sheet row describes, once its type and model are known;
   * the cells are read in the order the importer reads them, and an
   * unresolved client is a NULL `client_id`.
   */
  method ReadRequest(sheet: Sheet, row: Row, users: map<int, int>, typeId: int, modelId: int)
    returns (r: Result<RepairRequest, Fault>)
    ensures r.Ok? <==> RequestReads(sheet, row, users)
    ensures !ClientResolves(row, users) ==> r.Err?
    ensures CellAt(row, "startDate").Stamp? || CellAt(row, "completionDate").Stamp? ==> r.Err?
    ensures r.Ok? ==> OfCell(CellAt(row, "startDate")) == Ok(r.value.start)
    ensures r.Ok? ==> OfCell(CellAt(row, "completionDate")) == Ok(r.value.completion)
    ensures r.Ok? ==> Transcribes(row, users, AsStored(r.value)) && r.value.typeId == typeId && r.value.modelId == modelId
  {
    var statusCell :- Field(sheet, row, "requestStatus");
    var clientCell :- Field(sheet, row, "clientID");
    var clientKey :- IntOf(clientCell);
    var masterCell :- Field(sheet, row, "masterID");
    var masterId :- MasterOf(masterCell, users);
    var startCell :- Field(sheet, row, "startDate");
    var completionCell :- Field(sheet, row, "completionDate");
    var partsCell :- Field(sheet, row, "repairParts");
    var problemCell :- Field(sheet, row, "problemDescryption");
    var start :- OfCell(startCell);
    var completion :- OfCell(completionCell);
    if clientKey !in users {
      return Err(NotNullViolated("client_id"));
    }
    return Ok(RepairRequest(
      start, typeId, modelId, Str(problemCell),
      StatusIdOfLabel(Str(statusCell)), completion, PartsOf(partsCell),
      masterId, users[clientKey], 3));
  }

  /** A request that transcribes a row passes the table's constraints exactly when the row fits. */
  lemma FitsAdmissible(db: RepairDb, row: Row, users: map<int, int>, v: RepairRequest)
    requires Transcribes(row, users, v)
    ensures Admissible(db, v) <==> RequestFits(db, row, users, v.typeId, v.modelId)
  {
  }

  /** Request `v` is filed under the equipment type and model the sheet row names. */
  ghost predicate FiledAs(d: RepairDb, v: RepairRequest, row: Row) {
    && v.typeId in d.equipmentTypes.rows && d.equipmentTypes.rows[v.typeId] == TypeText(row)
    && v.modelId in d.equipmentModels.rows && d.equipmentModels.rows[v.modelId] == EquipmentModel(ModelText(row), v.typeId)
  }

  /**
   * `d` is `db` with one request added under the next AUTOINCREMENT rowid
   * `rid`, transcribing the sheet row; equipment rows may have been added,
   * no existing row changed, and no other table was touched.
   */
  ghost predicate RequestAdded(db: RepairDb, d: RepairDb, row: Row, users: map<int, int>, rid: int) {
    && TablesValid(d)
    && d == db.(equipmentTypes := d.equipmentTypes, equipmentModels := d.equipmentModels, requests := d.requests)
    && Extends(db.equipmentTypes.rows, d.equipmentTypes.rows)
    && Extends(db.equipmentModels.rows, d.equipmentModels.rows)
    && Extends(db.requests.rows, d.requests.rows)
    && rid !in db.requests.rows && rid in d.requests.rows
    && rid == db.requests.last + 1 && d.requests.last == rid
    && d.requests.rows.Keys == db.requests.rows.Keys + {rid}
    && Transcribes(row, users, d.requests.rows[rid])
  }

  /**
   * The request of a sheet row inserted once its type and model are known,
   * and the row's own `requestID`; only the requests table changes.
   */
  method StoreRequest(db: RepairDb, sheet: Sheet, row: Row, users: map<int, int>, typeId: int, modelId: int)
    returns (r: Result<(RepairDb, int, int), Fault>)
    requires TablesValid(db)
    ensures r.Ok? <==>
      && RequestReads(sheet, row, users)
      && RequestFits(db, row, users, typeId, modelId)
      && "requestID" in sheet.columns && IntOf(CellAt(row, "requestID")).Ok?
    ensures !ClientResolves(row, users) ==> r.Err?
    ensures CellAt(row, "startDate").Stamp? || CellAt(row, "completionDate").Stamp? ==> r.Err?
    ensures r.Ok? ==> var (d, ext, rid) := r.value;
      && d == db.(requests := d.requests)
      && RequestAdded(db, d, row, users, rid)
      && d.requests.rows[rid].typeId == typeId && d.requests.rows[rid].modelId == modelId
      && IntOf(CellAt(row, "requestID")) == Ok(ext)
    ensures r.Ok? && Consistent(db) ==> Consistent(r.value.0)
  {
    var v :- ReadRequest(sheet, row, users, typeId, modelId);
    FitsAdmissible(db, row, users, AsStored(v));
    var inserted :- InsertRequest(db, v);
    var (d, rid) := inserted;
    var idCell :- Field(sheet, row, "requestID");
    var ext :- IntOf(idCell);
    return Ok((d, ext, rid));
  }

  /** Equipment rows added before the request leave it added to the earlier database too. */
  lemma RequestAddedAfter(db: RepairDb, d1: RepairDb, d2: RepairDb, row: Row, users: map<int, int>, rid: int)
    requires d1 == db.(equipmentTypes := d1.equipmentTypes, equipmentModels := d1.equipmentModels)
    requires Extends(db.equipmentTypes.rows, d1.equipmentTypes.rows)
    requires Extends(db.equipmentModels.rows, d1.equipmentModels.rows)
    requires RequestAdded(d1, d2, row, users, rid)
    ensures RequestAdded(db, d2, row, users, rid)
  {
  }

  /** A row that is accepted, whose equipment rows exist, is read and fits the table. */
  lemma StoredOfRowOk(db: RepairDb, d: RepairDb, sheet: Sheet, row: Row, users: map<int, int>, typeId: int, modelId: int)
    requires d.users == db.users && d.statuses == db.statuses
    requires RequestRowOk(db, sheet, row, users.Keys) && PeopleExist(db, row, users)
    requires typeId in d.equipmentTypes.rows && modelId in d.equipmentModels.rows
    ensures RequestReads(sheet, row, users) && RequestFits(d, row, users, typeId, modelId)
  {
  }

  /** A row that is read and fits the table, and whose equipment and id columns are there, is accepted. */
  lemma RowOkOfStored(db: RepairDb, d: RepairDb, sheet: Sheet, row: Row, users: map<int, int>, typeId: int, modelId: int)
    requires d.users == db.users && d.statuses == db.statuses
    requires "homeTechType" in sheet.columns && "homeTechModel" in sheet.columns
    requires RequestReads(sheet, row, users) && RequestFits(d, row, users, typeId, modelId)
    requires "requestID" in sheet.columns && IntOf(CellAt(row, "requestID")).Ok?
    ensures RequestRowOk(db, sheet, row, users.Keys) && PeopleExist(db, row, users)
  {
  }

  /**
   * One requests row: type and model through the memo, status by label
   * (default 1), client and master through the user mapping, priority 3.
   * An unresolved client is a NULL `client_id` and aborts; the insert is
   * subject to every constraint of the table.
   */
  method ImportRequestRow<K(==)>(db: RepairDb, memo: Memo<K>, sheet: Sheet, row: Row, users: map<int, int>, keyOf: (string, string) -> K)
    returns (r: Result<(RepairDb, Memo<K>, int, int), Fault>)
    requires TablesValid(db)
    ensures r.Ok? ==> RequestRowOk(db, sheet, row, users.Keys) && PeopleExist(db, row, users)
    ensures MemoPresent(db, memo) && RequestRowOk(db, sheet, row, users.Keys) && PeopleExist(db, row, users)
            ==> r.Ok?
    ensures r.Ok? ==> var (d, memo1, ext, rid) := r.value;
      && RequestAdded(db, d, row, users, rid)
      && IntOf(CellAt(row, "requestID")) == Ok(ext)
      && (MemoPresent(db, memo) ==> MemoPresent(d, memo1))
    ensures r.Ok? && Consistent(db) ==> Consistent(r.value.0)
    ensures r.Ok? && Injective(keyOf) && MemoSound(db, memo, keyOf) ==> var (d, memo1, ext, rid) := r.value;
      && MemoSound(d, memo1, keyOf)
      && rid in d.requests.rows && FiledAs(d, d.requests.rows[rid], row)
  {
    var equipment :- ResolveEquipment(db, memo, sheet, row, keyOf);
    var (db2, memo2, typeId, modelId) := equipment;
    if MemoPresent(db, memo) && RequestRowOk(db, sheet, row, users.Keys) && PeopleExist(db, row, users) {
      StoredOfRowOk(db, db2, sheet, row, users, typeId, modelId);
    }
    var stored :- StoreRequest(db2, sheet, row, users, typeId, modelId);
    var (db3, ext, rid) := stored;
    RowOkOfStored(db, db2, sheet, row, users, typeId, modelId);
    RequestAddedAfter(db, db2, db3, row, users, rid);
    assert db3.equipmentTypes == db2.equipmentTypes && db3.equipmentModels == db2.equipmentModels;
    if Injective(keyOf) && MemoSound(db, memo, keyOf) {
      MemoSoundGrows(db2, db3, memo2, keyOf);
    }
    assert Consistent(db) ==> Consistent(db3);
    return Ok((db3, memo2, ext, rid));
  }

  /** A request added after the others keeps every model reference agreeing with its type. */
  lemma ModelsAgreeStep(db: RepairDb, d: RepairDb, rid: int)
    requires ModelsAgree(db)
    requires Extends(db.equipmentModels.rows, d.equipmentModels.rows)
    requires Extends(db.requests.rows, d.requests.rows)
    requires d.requests.rows.Keys == db.requests.rows.Keys + {rid}
    requires d.requests.rows[rid].modelId in d.equipmentModels.rows
    requires d.equipmentModels.rows[d.requests.rows[rid].modelId].typeId == d.requests.rows[rid].typeId
    ensures ModelsAgree(d)
  {
    forall k | k in d.requests.rows && k != rid
      ensures d.requests.rows[k].modelId in d.equipmentModels.rows
      ensures d.equipmentModels.rows[d.requests.rows[k].modelId].typeId == d.requests.rows[k].typeId
    {
      assert k in db.requests.rows && d.requests.rows[k] == db.requests.rows[k];
      assert db.requests.rows[k].modelId in db.equipmentModels.rows;
    }
  }

  /**
   * Row j's request is stored under the rowid AUTOINCREMENT gives the j-th
   * insert after sequence value `base`.
   */
  ghost predicate RowStored(sheet: Sheet, users: map<int, int>, rows: map<int, RepairRequest>, base: int, j: nat)
    requires j < |sheet.rows|
  {
    base + 1 + j in rows && Transcribes(sheet.rows[j], users, rows[base + 1 + j])
  }

  /** The mapping sends each sheet id to the rowid of the last row carrying it. */
  ghost predicate MapsLastRow(sheet: Sheet, ids: map<int, int>, base: int, n: nat)
    requires n <= |sheet.rows|
  {
    forall k :: k in ids ==>
      LastWith(sheet, "requestID", n, k).Some? && ids[k] == base + 1 + LastWith(sheet, "requestID", n, k).value
  }

  /** Mapping row i's id to its rowid keeps every id mapped to its last row. */
  lemma MapsLastRowStep(sheet: Sheet, ids: map<int, int>, ext: int, rid: int, base: int, i: nat)
    requires i < |sheet.rows| && IntOf(CellAt(sheet.rows[i], "requestID")) == Ok(ext)
    requires MapsLastRow(sheet, ids, base, i) && rid == base + 1 + i
    ensures MapsLastRow(sheet, ids[ext := rid], base, i + 1)
  {
    forall k | k == ext || k in ids
      ensures LastWith(sheet, "requestID", i + 1, k).Some?
      ensures ids[ext := rid][k] == base + 1 + LastWith(sheet, "requestID", i + 1, k).value
    {
      if k != ext {
        assert LastWith(sheet, "requestID", i + 1, k) == LastWith(sheet, "requestID", i, k);
      }
    }
  }

  /** Row j's request, at the rowid of the j-th insert after `base`, is filed under the row's equipment. */
  ghost predicate RowFiled(d: RepairDb, sheet: Sheet, base: int, j: nat)
    requires j < |sheet.rows|
  {
    base + 1 + j in d.requests.rows && FiledAs(d, d.requests.rows[base + 1 + j], sheet.rows[j])
  }

  /**
   * Row j of the requests sheet is done: it was accepted, its request is
   * stored under the rowid of the j-th insert and, when `filed`, under the
   * row's own equipment type and model.
   */
  ghost predicate RowDone(db: RepairDb, d: RepairDb, sheet: Sheet, users: map<int, int>, filed: bool, j: nat)
    requires j < |sheet.rows|
  {
    && RequestRowOk(db, sheet, sheet.rows[j], users.Keys)
    && RowStored(sheet, users, d.requests.rows, db.requests.last, j)
    && (filed ==> RowFiled(d, sheet, db.requests.last, j))
  }

  /** Adding rows to the equipment and requests tables keeps the earlier rows done. */
  lemma RowsDoneStep(db: RepairDb, before: RepairDb, after: RepairDb, sheet: Sheet, users: map<int, int>, filed: bool, i: nat)
    requires i < |sheet.rows|
    requires forall j :: 0 <= j < i ==> RowDone(db, before, sheet, users, filed, j)
    requires Extends(before.equipmentTypes.rows, after.equipmentTypes.rows)
    requires Extends(before.equipmentModels.rows, after.equipmentModels.rows)
    requires Extends(before.requests.rows, after.requests.rows)
    requires RowDone(db, after, sheet, users, filed, i)
    ensures forall j :: 0 <= j < i + 1 ==> RowDone(db, after, sheet, users, filed, j)
  {
    forall j | 0 <= j < i + 1
      ensures RowDone(db, after, sheet, users, filed, j)
    {
      if j < i {
        assert RowDone(db, before, sheet, users, filed, j);
      }
    }
  }

  /** Every row done: each was accepted, stored, and when `filed`, filed under its equipment. */
  lemma RowsDoneEach(db: RepairDb, d: RepairDb, sheet: Sheet, users: map<int, int>, filed: bool)
    requires forall j :: 0 <= j < |sheet.rows| ==> RowDone(db, d, sheet, users, filed, j)
    ensures forall j :: 0 <= j < |sheet.rows| ==> RequestRowOk(db, sheet, sheet.rows[j], users.Keys)
    ensures forall j :: 0 <= j < |sheet.rows| ==> RowStored(sheet, users, d.requests.rows, db.requests.last, j)
    ensures forall j :: 0 <= j < |sheet.rows| ==> RowIdIn(d.requests.rows, db.requests.last, j)
    ensures filed ==> RequestsFiled(d, sheet, db.requests.last)
  {
    forall j | 0 <= j < |sheet.rows|
      ensures RequestRowOk(db, sheet, sheet.rows[j], users.Keys)
      ensures RowStored(sheet, users, d.requests.rows, db.requests.last, j)
      ensures RowIdIn(d.requests.rows, db.requests.last, j)
      ensures filed ==> RowFiled(d, sheet, db.requests.last, j)
    {
      assert RowDone(db, d, sheet, users, filed, j);
    }
  }

  /** The j-th insert after sequence value `base` is a row of `rows`. */
  predicate RowIdIn<T>(rows: map<int, T>, base: int, j: nat) {
    base + 1 + j in rows
  }

  /** A mapping that sends each id to the rowid of its last row sends it to a stored request. */
  lemma MappedStored(db: RepairDb, d: RepairDb, sheet: Sheet, ids: map<int, int>)
    requires forall j :: 0 <= j < |sheet.rows| ==> RowIdIn(d.requests.rows, db.requests.last, j)
    requires MapsLastRow(sheet, ids, db.requests.last, |sheet.rows|)
    ensures forall k :: k in ids ==> ids[k] in d.requests.rows
  {
    forall k | k in ids
      ensures ids[k] in d.requests.rows
    {
      var j := LastWith(sheet, "requestID", |sheet.rows|, k).value;
      assert ids[k] == db.requests.last + 1 + j;
      assert RowIdIn(d.requests.rows, db.requests.last, j);
    }
  }

  /** What the requests phase has established after its first n rows. */
  ghost predicate RequestsProgress<K>(
    db: RepairDb, sheet: Sheet, users: map<int, int>, keyOf: (string, string) -> K,
    d: RepairDb, memo: Memo<K>, ids: map<int, int>, n: nat)
    requires n <= |sheet.rows|
  {
    && (forall j :: 0 <= j < n ==> RowDone(db, d, sheet, users, Injective(keyOf), j))
    && TablesValid(d)
    && d == db.(equipmentTypes := d.equipmentTypes, equipmentModels := d.equipmentModels, requests := d.requests)
    && Extends(db.equipmentTypes.rows, d.equipmentTypes.rows)
    && Extends(db.equipmentModels.rows, d.equipmentModels.rows)
    && Extends(db.requests.rows, d.requests.rows)
    && ids.Keys == ExtIds(sheet, "requestID", n)
    && MapsLastRow(sheet, ids, db.requests.last, n)
    && d.requests.last == db.requests.last + n
    && (forall k :: k in d.requests.rows ==> k in db.requests.rows || db.requests.last < k)
    && MemoPresent(d, memo)
    && (Consistent(db) ==> Consistent(d))
    && (Injective(keyOf) ==> MemoSound(d, memo, keyOf))
    && (Injective(keyOf) && ModelsAgree(db) ==> ModelsAgree(d))
  }

  /** Before the first row, with an empty memo and mapping, the phase has established everything. */
  lemma RequestsStart<K>(db: RepairDb, sheet: Sheet, users: map<int, int>, keyOf: (string, string) -> K)
    requires TablesValid(db)
    ensures RequestsProgress(db, sheet, users, keyOf, db, Memo(map[], map[]), map[], 0)
  {
  }

  /**
   * The requests phase on row i. It fails only on a row that is not
   * accepted, and, when every mapped user exists, on no accepted row.
   */
  method ImportRequestStep<K(==)>(
    db: RepairDb, sheet: Sheet, users: map<int, int>, keyOf: (string, string) -> K,
    d: RepairDb, memo: Memo<K>, ids: map<int, int>, i: nat)
    returns (r: Result<(RepairDb, Memo<K>, map<int, int>), Fault>)
    requires i < |sheet.rows| && RequestsProgress(db, sheet, users, keyOf, d, memo, ids, i)
    ensures (forall k :: k in users ==> users[k] in db.users.rows) && RequestRowOk(db, sheet, sheet.rows[i], users.Keys) ==> r.Ok?
    ensures r.Ok? ==> RequestsProgress(db, sheet, users, keyOf, r.value.0, r.value.1, r.value.2, i + 1)
  {
    var step := ImportRequestRow(d, memo, sheet, sheet.rows[i], users, keyOf);
    if step.Err? {
      return Err(step.error);
    }
    var (d1, memo1, ext, rid) := step.value;
    KeysStep(ids, ext, rid, sheet, "requestID", i);
    MapsLastRowStep(sheet, ids, ext, rid, db.requests.last, i);
    assert RowDone(db, d1, sheet, users, Injective(keyOf), i);
    RowsDoneStep(db, d, d1, sheet, users, Injective(keyOf), i);
    if Injective(keyOf) && ModelsAgree(db) {
      ModelsAgreeStep(d, d1, rid);
    }
    return Ok((d1, memo1, ids[ext := rid]));
  }

  /** The requests phase from row i on, once the rows before it are imported. */
  method ImportRequestsFrom<K(==)>(
    db: RepairDb, sheet: Sheet, users: map<int, int>, keyOf: (string, string) -> K,
    d: RepairDb, memo: Memo<K>, ids: map<int, int>, i: nat)
    returns (r: Result<(RepairDb, Memo<K>, map<int, int>), Fault>)
    requires i <= |sheet.rows| && RequestsProgress(db, sheet, users, keyOf, d, memo, ids, i)
    ensures && (forall k :: k in users ==> users[k] in db.users.rows)
            && (forall j :: i <= j < |sheet.rows| ==> RequestRowOk(db, sheet, sheet.rows[j], users.Keys))
            ==> r.Ok?
    ensures r.Ok? ==> RequestsProgress(db, sheet, users, keyOf, r.value.0, r.value.1, r.value.2, |sheet.rows|)
    decreases |sheet.rows| - i
  {
    if i == |sheet.rows| {
      return Ok((d, memo, ids));
    }
    var step := ImportRequestStep(db, sheet, users, keyOf, d, memo, ids, i);
    if step.Err? {
      return Err(step.error);
    }
    r := ImportRequestsFrom(db, sheet, users, keyOf, step.value.0, step.value.1, step.value.2, i + 1);
  }

  /**
   * What the requests phase leaves behind: only equipment and requests
   * changed, no existing row was altered, and each row added one request, under the next AUTOINCREMENT rowid, that
   * transcribes it. The mapping's keys are exactly the sheet's request ids,
   * each mapped to the request of the last row carrying it.
   */
  ghost predicate RequestsImported(db: RepairDb, sheet: Sheet, users: map<int, int>, d: RepairDb, m: map<int, int>) {
    && TablesValid(d)
    && d == db.(equipmentTypes := d.equipmentTypes, equipmentModels := d.equipmentModels, requests := d.requests)
    && Extends(db.equipmentTypes.rows, d.equipmentTypes.rows)
    && Extends(db.equipmentModels.rows, d.equipmentModels.rows)
    && Extends(db.requests.rows, d.requests.rows)
    && m.Keys == ExtIds(sheet, "requestID", |sheet.rows|)
    && (forall k :: k in m ==> m[k] in d.requests.rows)
    && d.requests.last == db.requests.last + |sheet.rows|
    && (forall k :: k in d.requests.rows ==> k in db.requests.rows || db.requests.last < k)
    && (forall j :: 0 <= j < |sheet.rows| ==> RowStored(sheet, users, d.requests.rows, db.requests.last, j))
    && MapsLastRow(sheet, m, db.requests.last, |sheet.rows|)
  }

  /** Every row's request is filed under the row's own equipment type and model. */
  ghost predicate RequestsFiled(d: RepairDb, sheet: Sheet, base: int) {
    forall j :: 0 <= j < |sheet.rows| ==> RowFiled(d, sheet, base, j)
  }

  /** Filing reads only the requests and equipment tables. */
  lemma RequestsFiledKept(d: RepairDb, e: RepairDb, sheet: Sheet, base: int)
    requires RequestsFiled(d, sheet, base)
    requires e.requests == d.requests && e.equipmentTypes == d.equipmentTypes && e.equipmentModels == d.equipmentModels
    ensures RequestsFiled(e, sheet, base)
  {
    forall j | 0 <= j < |sheet.rows|
      ensures RowFiled(e, sheet, base, j)
    {
      assert RowFiled(d, sheet, base, j);
    }
  }

  /**
   * The requests phase. It succeeds only when every row is accepted, and
   * does whenever every mapped user exists; it then leaves what
   * `RequestsImported` states. With an injective memo key every request is
   * filed under its row's own type and model, and each model agrees with
   * its request's type.
   */
  method ImportRequests<K(==)>(db: RepairDb, sheet: Sheet, users: map<int, int>, keyOf: (string, string) -> K)
    returns (r: Result<(RepairDb, map<int, int>), Fault>)
    requires TablesValid(db)
    ensures r.Ok? ==> forall j :: 0 <= j < |sheet.rows| ==> RequestRowOk(db, sheet, sheet.rows[j], users.Keys)
    ensures && (forall k :: k in users ==> users[k] in db.users.rows)
            && (forall j :: 0 <= j < |sheet.rows| ==> RequestRowOk(db, sheet, sheet.rows[j], users.Keys))
            ==> r.Ok?
    ensures r.Ok? ==> RequestsImported(db, sheet, users, r.value.0, r.value.1)
    ensures r.Ok? && Injective(keyOf) ==> RequestsFiled(r.value.0, sheet, db.requests.last)
    ensures r.Ok? && Consistent(db) ==> Consistent(r.value.0)
    ensures r.Ok? && Injective(keyOf) && ModelsAgree(db) ==> ModelsAgree(r.value.0)
  {
    RequestsStart(db, sheet, users, keyOf);
    var all := ImportRequestsFrom(db, sheet, users, keyOf, db, Memo(map[], map[]), map[], 0);
    if all.Err? {
      return Err(all.error);
    }
    var (d, _, ids) := all.value;
    RowsDoneEach(db, d, sheet, users, Injective(keyOf));
    MappedStored(db, d, sheet, ids);
    return Ok((d, ids));
  }

  // ---------------------------------------------------------------------------
  // Comments
  // ---------------------------------------------------------------------------

  /** Both `int(masterID)` and `int(requestID)` resolve, to truthy ids. */
  predicate CommentResolves(row: Row, users: map<int, int>, requests: map<int, int>) {
    && IntOf(CellAt(row, "masterID")).Ok? && IntOf(CellAt(row, "masterID")).value in users
    && IntOf(CellAt(row, "requestID")).Ok? && IntOf(CellAt(row, "requestID")).value in requests
    && users[IntOf(CellAt(row, "masterID")).value] != 0
    && requests[IntOf(CellAt(row, "requestID")).value] != 0
  }

  /** The comment a resolving row writes. */
  function CommentOf(row: Row, users: map<int, int>, requests: map<int, int>): Comment
    requires CommentResolves(row, users, requests)
  {
    Comment(
      Str(CellAt(row, "message")),
      users[IntOf(CellAt(row, "masterID")).value],
      requests[IntOf(CellAt(row, "requestID")).value])
  }

  /** The comments the first n rows write, in sheet order: one for each row that resolves. */
  function SheetComments(sheet: Sheet, users: map<int, int>, requests: map<int, int>, n: nat): (r: seq<Comment>)
    requires n <= |sheet.rows|
    ensures |r| <= n
  {
    if n == 0 then []
    else
      var row := sheet.rows[n - 1];
      SheetComments(sheet, users, requests, n - 1)
        + (if CommentResolves(row, users, requests) then [CommentOf(row, users, requests)] else [])
  }

  /**
   * A comments row the import gets past: both id columns are there and
   * read as integers, and a row that resolves has a `message` column and
   * refers to a user and a request of `db`.
   */
  predicate CommentRowOk(db: RepairDb, sheet: Sheet, row: Row, users: map<int, int>, requests: map<int, int>) {
    && "masterID" in sheet.columns && "requestID" in sheet.columns
    && IntOf(CellAt(row, "masterID")).Ok? && IntOf(CellAt(row, "requestID")).Ok?
    && (CommentResolves(row, users, requests) ==>
          && "message" in sheet.columns
          && CommentOf(row, users, requests).authorId in db.users.rows
          && CommentOf(row, users, requests).requestId in db.requests.rows)
  }

  /**
   * One comments row: both ids must read as integers; the comment is
   * inserted, and its id returned, only when both resolve; otherwise the
   * row is skipped.
   */
  method ImportCommentRow(db: RepairDb, sheet: Sheet, row: Row, users: map<int, int>, requests: map<int, int>)
    returns (r: Result<(RepairDb, Option<int>), Fault>)
    requires TablesValid(db)
    ensures r.Ok? <==> CommentRowOk(db, sheet, row, users, requests)
    ensures r.Ok? ==> var (d, added) := r.value;
      && TablesValid(d)
      && d == db.(comments := d.comments)
      && (added.Some? <==> CommentResolves(row, users, requests))
      && (added.None? ==> d == db)
      && (added.Some? ==>
            && added.value !in db.comments.rows
            && added.value == db.comments.last + 1 && d.comments.last == added.value
            && d.comments.rows == db.comments.rows[added.value := CommentOf(row, users, requests)])
    ensures r.Ok? && Consistent(db) ==> Consistent(r.value.0)
  {
    var masterCell :- Field(sheet, row, "masterID");
    var masterKey :- IntOf(masterCell);
    var requestCell :- Field(sheet, row, "requestID");
    var requestKey :- IntOf(requestCell);
    if masterKey in users && requestKey in requests && users[masterKey] != 0 && requests[requestKey] != 0 {
      var message :- Field(sheet, row, "message");
      var inserted :- InsertComment(db, Comment(Str(message), users[masterKey], requests[requestKey]));
      return Ok((inserted.0, Some(inserted.1)));
    }
    return Ok((db, None));
  }

  /** What the comments phase has established after its first n rows, having added `count` comments. */
  ghost predicate CommentsProgress(
    db: RepairDb, sheet: Sheet, users: map<int, int>, requests: map<int, int>,
    d: RepairDb, count: nat, n: nat)
    requires n <= |sheet.rows|
  {
    && (forall j :: 0 <= j < n ==> CommentRowOk(db, sheet, sheet.rows[j], users, requests))
    && TablesValid(d)
    && d == db.(comments := d.comments)
    && Extends(db.comments.rows, d.comments.rows)
    && |d.comments.rows.Keys| == |db.comments.rows.Keys| + count
    && count == |SheetComments(sheet, users, requests, n)|
    && d.comments.last == db.comments.last + count
    && d.comments.rows == Appended(db.comments.rows, db.comments.last, SheetComments(sheet, users, requests, n))
    && (Consistent(db) ==> Consistent(d))
  }

  /**
   * Whether row i is one the import gets past is the same against `d` as
   * against `db` when users and requests are unchanged, and the rows before
   * it stay so with it.
   */
  lemma CommentRowsStep(db: RepairDb, d: RepairDb, sheet: Sheet, users: map<int, int>, requests: map<int, int>, i: nat)
    requires i < |sheet.rows| && d.users == db.users && d.requests == db.requests
    requires forall j :: 0 <= j < i ==> CommentRowOk(db, sheet, sheet.rows[j], users, requests)
    ensures CommentRowOk(d, sheet, sheet.rows[i], users, requests) == CommentRowOk(db, sheet, sheet.rows[i], users, requests)
    ensures CommentRowOk(db, sheet, sheet.rows[i], users, requests) ==>
      forall j :: 0 <= j < i + 1 ==> CommentRowOk(db, sheet, sheet.rows[j], users, requests)
  {
  }

  /** Row i's comment, inserted under the next rowid, keeps the phase's progress. */
  lemma CommentAddedStep(
    db: RepairDb, sheet: Sheet, users: map<int, int>, requests: map<int, int>,
    d: RepairDb, d1: RepairDb, count: nat, i: nat, id: int)
    requires i < |sheet.rows| && CommentsProgress(db, sheet, users, requests, d, count, i)
    requires CommentRowOk(db, sheet, sheet.rows[i], users, requests) && CommentResolves(sheet.rows[i], users, requests)
    requires TablesValid(d1) && d1 == d.(comments := d1.comments)
    requires id !in d.comments.rows && id == d.comments.last + 1 && d1.comments.last == id
    requires d1.comments.rows == d.comments.rows[id := CommentOf(sheet.rows[i], users, requests)]
    requires Consistent(d) ==> Consistent(d1)
    ensures CommentsProgress(db, sheet, users, requests, d1, count + 1, i + 1)
  {
    var notes := SheetComments(sheet, users, requests, i);
    var c := CommentOf(sheet.rows[i], users, requests);
    assert SheetComments(sheet, users, requests, i + 1) == notes + [c];
    assert d1.comments.rows.Keys == d.comments.rows.Keys + {id};
    AppendedSnoc(db.comments.rows, db.comments.last, notes, c);
  }

  /** Before the first row, with nothing added, the phase has established everything. */
  lemma CommentsStart(db: RepairDb, sheet: Sheet, users: map<int, int>, requests: map<int, int>)
    requires TablesValid(db)
    ensures CommentsProgress(db, sheet, users, requests, db, 0, 0)
  {
    assert db.comments.rows == Appended(db.comments.rows, db.comments.last, []);
  }

  /** The comments phase on row i: it fails exactly when the row is not one the import gets past. */
  method ImportCommentStep(
    db: RepairDb, sheet: Sheet, users: map<int, int>, requests: map<int, int>,
    d: RepairDb, count: nat, i: nat)
    returns (r: Result<(RepairDb, nat), Fault>)
    requires i < |sheet.rows| && CommentsProgress(db, sheet, users, requests, d, count, i)
    ensures r.Ok? <==> CommentRowOk(db, sheet, sheet.rows[i], users, requests)
    ensures r.Ok? ==> CommentsProgress(db, sheet, users, requests, r.value.0, r.value.1, i + 1)
  {
    var step := ImportCommentRow(d, sheet, sheet.rows[i], users, requests);
    CommentRowsStep(db, d, sheet, users, requests, i);
    if step.Err? {
      return Err(step.error);
    }
    var (d1, added) := step.value;
    if added.Some? {
      CommentAddedStep(db, sheet, users, requests, d, d1, count, i, added.value);
      return Ok((d1, count + 1));
    }
    assert SheetComments(sheet, users, requests, i + 1) == SheetComments(sheet, users, requests, i);
    return Ok((d1, count));
  }

  /** The comments phase from row i on, once the rows before it are imported. */
  method ImportCommentsFrom(
    db: RepairDb, sheet: Sheet, users: map<int, int>, requests: map<int, int>,
    d: RepairDb, count: nat, i: nat)
    returns (r: Result<(RepairDb, nat), Fault>)
    requires i <= |sheet.rows| && CommentsProgress(db, sheet, users, requests, d, count, i)
    ensures r.Ok? <==> forall j :: i <= j < |sheet.rows| ==> CommentRowOk(db, sheet, sheet.rows[j], users, requests)
    ensures r.Ok? ==> CommentsProgress(db, sheet, users, requests, r.value.0, r.value.1, |sheet.rows|)
    decreases |sheet.rows| - i
  {
    if i == |sheet.rows| {
      return Ok((d, count));
    }
    var step := ImportCommentStep(db, sheet, users, requests, d, count, i);
    if step.Err? {
      return Err(step.error);
    }
    r := ImportCommentsFrom(db, sheet, users, requests, step.value.0, step.value.1, i + 1);
  }

  /**
   * What the comments phase leaves behind: the comments of the resolving
   * rows inserted in sheet order under the next AUTOINCREMENT rowids,
   * `count` of them, and no other table changed.
   */
  ghost predicate CommentsImported(
    db: RepairDb, sheet: Sheet, users: map<int, int>, requests: map<int, int>, d: RepairDb, count: nat)
  {
    && TablesValid(d)
    && d == db.(comments := d.comments)
    && Extends(db.comments.rows, d.comments.rows)
    && |d.comments.rows.Keys| == |db.comments.rows.Keys| + count
    && count <= |sheet.rows|
    && count == |SheetComments(sheet, users, requests, |sheet.rows|)|
    && d.comments.last == db.comments.last + count
    && d.comments.rows == Appended(db.comments.rows, db.comments.last, SheetComments(sheet, users, requests, |sheet.rows|))
  }

  /**
   * The comments phase: it succeeds exactly when every row is one the
   * import gets past, and then leaves what `CommentsImported` states.
   */
  method ImportComments(db: RepairDb, sheet: Sheet, users: map<int, int>, requests: map<int, int>)
    returns (r: Result<(RepairDb, nat), Fault>)
    requires TablesValid(db)
    ensures r.Ok? <==> forall j :: 0 <= j < |sheet.rows| ==> CommentRowOk(db, sheet, sheet.rows[j], users, requests)
    ensures r.Ok? ==> CommentsImported(db, sheet, users, requests, r.value.0, r.value.1)
    ensures r.Ok? && Consistent(db) ==> Consistent(r.value.0)
  {
    CommentsStart(db, sheet, users, requests);
    r := ImportCommentsFrom(db, sheet, users, requests, db, 0, 0);
  }

  // ---------------------------------------------------------------------------
  // The whole import
  // ---------------------------------------------------------------------------

  datatype ImportStats = ImportStats(users: nat, requests: nat, comments: nat)

  /**
   * After the users phase, a requests row is accepted against the new
   * database and the mapping exactly when it is against the old one and
   * the sheet's user ids, and every mapped user exists.
   */
  lemma SheetRowsAgree(db: RepairDb, d1: RepairDb, usersSheet: Sheet, requestsSheet: Sheet, userIds: map<int, int>)
    requires d1 == db.(users := d1.users)
    requires userIds.Keys == ExtIds(usersSheet, "userID", |usersSheet.rows|)
    ensures forall j :: 0 <= j < |requestsSheet.rows| ==>
      (RequestRowOk(d1, requestsSheet, requestsSheet.rows[j], userIds.Keys) <==>
       RequestRowOk(db, requestsSheet, requestsSheet.rows[j], ExtIds(usersSheet, "userID", |usersSheet.rows|)))
  {
  }

  /**
   * The sheets as the import needs them: every users row accepted, every
   * requests row accepted with its client among the users sheet's ids, and
   * both id columns of the comments sheet there and reading as integers in
   * every row.
   */
  predicate SheetsRead(db: RepairDb, usersSheet: Sheet, requestsSheet: Sheet, commentsSheet: Sheet) {
    && (forall j :: 0 <= j < |usersSheet.rows| ==> UserRowOk(db, usersSheet, usersSheet.rows[j]))
    && (forall j :: 0 <= j < |requestsSheet.rows| ==>
          RequestRowOk(db, requestsSheet, requestsSheet.rows[j], ExtIds(usersSheet, "userID", |usersSheet.rows|)))
    && CommentIdsRead(commentsSheet)
  }

  /** Every comments row has both id columns, and both read as integers. */
  predicate CommentIdsRead(sheet: Sheet) {
    forall j :: 0 <= j < |sheet.rows| ==>
      && "masterID" in sheet.columns && "requestID" in sheet.columns
      && IntOf(CellAt(sheet.rows[j], "masterID")).Ok?
      && IntOf(CellAt(sheet.rows[j], "requestID")).Ok?
  }

  /**
   * What a successful import leaves in `d`: each phase's result, read off
   * the final database (the users phase changed only users, the requests
   * phase only equipment and requests, the comments phase only comments),
   * and the counts it reports.
   */
  ghost predicate Imported(
    db: RepairDb, usersSheet: Sheet, requestsSheet: Sheet, commentsSheet: Sheet, hash: string -> string,
    d: RepairDb, userIds: map<int, int>, requestIds: map<int, int>, stats: ImportStats)
  {
    && UsersImported(db, usersSheet, hash, db.(users := d.users), userIds)
    && RequestsImported(db.(users := d.users), requestsSheet, userIds, d.(comments := db.comments), requestIds)
    && CommentsImported(d.(comments := db.comments), commentsSheet, userIds, requestIds, d, stats.comments)
    && stats.users == |userIds.Keys| == |ExtIds(usersSheet, "userID", |usersSheet.rows|)|
    && stats.requests == |requestIds.Keys| == |ExtIds(requestsSheet, "requestID", |requestsSheet.rows|)|
  }

  /**
   * Comments rows whose ids read, on a sheet with a `message` column, are
   * all accepted once every mapped user and request exists.
   */
  lemma CommentRowsAccepted(db: RepairDb, sheet: Sheet, users: map<int, int>, requests: map<int, int>)
    requires forall k :: k in users ==> users[k] in db.users.rows
    requires forall k :: k in requests ==> requests[k] in db.requests.rows
    requires CommentIdsRead(sheet) && "message" in sheet.columns
    ensures forall j :: 0 <= j < |sheet.rows| ==> CommentRowOk(db, sheet, sheet.rows[j], users, requests)
  {
  }

  /**
   * The requests and then the comments phase, on the database the users
   * phase left and with the user mapping it built. Both phases succeeding
   * is the same as the import succeeding once the users phase has.
   */
  method ImportRequestsAndComments<K(==)>(
    db: RepairDb, requestsSheet: Sheet, commentsSheet: Sheet, userIds: map<int, int>, keyOf: (string, string) -> K)
    returns (r: Result<nat, Fault>, d: RepairDb, requestIds: map<int, int>)
    requires TablesValid(db)
    ensures TablesValid(d)
    ensures r.Err? ==> d == db
    ensures r.Ok? ==> d.users == db.users
    ensures r.Ok? ==> forall j :: 0 <= j < |requestsSheet.rows| ==>
      RequestRowOk(db, requestsSheet, requestsSheet.rows[j], userIds.Keys)
    ensures r.Ok? ==> CommentIdsRead(commentsSheet)
    ensures && (forall k :: k in userIds ==> userIds[k] in db.users.rows)
            && (forall j :: 0 <= j < |requestsSheet.rows| ==>
                  RequestRowOk(db, requestsSheet, requestsSheet.rows[j], userIds.Keys))
            && CommentIdsRead(commentsSheet) && "message" in commentsSheet.columns
            ==> r.Ok?
    ensures r.Ok? ==> RequestsImported(db, requestsSheet, userIds, d.(comments := db.comments), requestIds)
    ensures r.Ok? ==> CommentsImported(d.(comments := db.comments), commentsSheet, userIds, requestIds, d, r.value)
    ensures r.Ok? && Injective(keyOf) ==> RequestsFiled(d, requestsSheet, db.requests.last)
    ensures Consistent(db) ==> Consistent(d)
    ensures Injective(keyOf) && ModelsAgree(db) ==> ModelsAgree(d)
  {
    var requests := ImportRequests(db, requestsSheet, userIds, keyOf);
    if requests.Err? {
      return Err(requests.error), db, map[];
    }
    var d2;
    d2, requestIds := requests.value.0, requests.value.1;
    var comments := ImportComments(d2, commentsSheet, userIds, requestIds);
    if (forall k :: k in userIds ==> userIds[k] in db.users.rows)
       && CommentIdsRead(commentsSheet) && "message" in commentsSheet.columns {
      assert d2.users == db.users;
      CommentRowsAccepted(d2, commentsSheet, userIds, requestIds);
    }
    if comments.Err? {
      return Err(comments.error), db, map[];
    }
    var count;
    d, count := comments.value.0, comments.value.1;
    assert ModelsAgree(d2) ==> ModelsAgree(d) by {
      assert d.requests == d2.requests && d.equipmentModels == d2.equipmentModels;
    }
    assert d2 == d.(comments := db.comments);
    if Injective(keyOf) {
      RequestsFiledKept(d2, d, requestsSheet, db.requests.last);
    }
    return Ok(count), d, requestIds;
  }

  /**
   * The three phases in one transaction, with the model memo keyed by
   * `keyOf`. A failure anywhere leaves the database as it was. The import
   * succeeds only on sheets that read as it needs, and on such sheets it
   * does whenever the comments sheet has its `message` column; it also
   * hands back the two id mappings it built.
   */
  method ImportWith<K(==)>(
    db: RepairDb, usersSheet: Sheet, requestsSheet: Sheet, commentsSheet: Sheet,
    hash: string -> string, keyOf: (string, string) -> K)
    returns (r: Result<ImportStats, Fault>, d: RepairDb, userIds: map<int, int>, requestIds: map<int, int>)
    requires TablesValid(db)
    ensures TablesValid(d)
    ensures r.Err? ==> d == db
    ensures r.Ok? ==> SheetsRead(db, usersSheet, requestsSheet, commentsSheet)
    ensures SheetsRead(db, usersSheet, requestsSheet, commentsSheet) && "message" in commentsSheet.columns ==> r.Ok?
    ensures r.Ok? ==> Imported(db, usersSheet, requestsSheet, commentsSheet, hash, d, userIds, requestIds, r.value)
    ensures r.Ok? && Injective(keyOf) ==> RequestsFiled(d, requestsSheet, db.requests.last)
    ensures Consistent(db) ==> Consistent(d)
    ensures Injective(keyOf) && ModelsAgree(db) ==> ModelsAgree(d)
  {
    var users := ImportUsers(db, usersSheet, hash);
    if users.Err? {
      return Err(users.error), db, map[], map[];
    }
    var d1;
    d1, userIds := users.value.0, users.value.1;
    assert ModelsAgree(db) ==> ModelsAgree(d1) by {
      assert d1.requests == db.requests && d1.equipmentModels == db.equipmentModels;
    }
    SheetRowsAgree(db, d1, usersSheet, requestsSheet, userIds);
    var rest;
    rest, d, requestIds := ImportRequestsAndComments(d1, requestsSheet, commentsSheet, userIds, keyOf);
    if rest.Err? {
      return Err(rest.error), db, map[], map[];
    }
    assert d1 == db.(users := d.users);
    return Ok(ImportStats(|userIds.Keys|, |requestIds.Keys|, rest.value)), d, userIds, requestIds;
  }


  /** `import_from_excel` as written: the model memo is keyed by the joined string. */
  method ImportFromExcelAsWritten(db: RepairDb, usersSheet: Sheet, requestsSheet: Sheet, commentsSheet: Sheet, hash: string -> string)
    returns (r: Result<ImportStats, Fault>, d: RepairDb, userIds: map<int, int>, requestIds: map<int, int>)
    requires TablesValid(db)
    ensures r.Err? ==> d == db
    ensures r.Ok? ==> SheetsRead(db, usersSheet, requestsSheet, commentsSheet)
    ensures SheetsRead(db, usersSheet, requestsSheet, commentsSheet) && "message" in commentsSheet.columns ==> r.Ok?
    ensures r.Ok? ==> Imported(db, usersSheet, requestsSheet, commentsSheet, hash, d, userIds, requestIds, r.value)
    ensures Consistent(db) ==> Consistent(d)
  {
    r, d, userIds, requestIds := ImportWith(db, usersSheet, requestsSheet, commentsSheet, hash, JoinedKey);
  }

  /** `import_from_excel` with the model memo keyed by the (type, model) pair. */
  method ImportFromExcel(db: RepairDb, usersSheet: Sheet, requestsSheet: Sheet, commentsSheet: Sheet, hash: string -> string)
    returns (r: Result<ImportStats, Fault>, d: RepairDb, userIds: map<int, int>, requestIds: map<int, int>)
    requires TablesValid(db)
    ensures r.Err? ==> d == db
    ensures r.Ok? ==> SheetsRead(db, usersSheet, requestsSheet, commentsSheet)
    ensures SheetsRead(db, usersSheet, requestsSheet, commentsSheet) && "message" in commentsSheet.columns ==> r.Ok?
    ensures r.Ok? ==> Imported(db, usersSheet, requestsSheet, commentsSheet, hash, d, userIds, requestIds, r.value)
    ensures r.Ok? ==> RequestsFiled(d, requestsSheet, db.requests.last)
    ensures Consistent(db) ==> Consistent(d)
    ensures ModelsAgree(db) ==> ModelsAgree(d)
  {
    assert Injective(PairKey);
    r, d, userIds, requestIds := ImportWith(db, usersSheet, requestsSheet, commentsSheet, hash, PairKey);
  }

  /** Two different (type, model) pairs share a joined memo key. */
  lemma JoinedKeyCollides()
    ensures JoinedKey("A_B", "C") == JoinedKey("A", "B_C")
    ensures PairKey("A_B", "C") != PairKey("A", "B_C")
    ensures !Injective(JoinedKey)
  {
    assert JoinedKey("A_B", "C") == "A_B_C" == JoinedKey("A", "B_C");
  }

  /**
   * With the joined key, a row for type "A", model "B_C" that comes after a
   * row for type "A_B", model "C" is handed the earlier row's model: the
   * request is filed under model "C", whatever the sheet says.
   */
  lemma JoinedKeyMisfilesModel(db: RepairDb, memo: Memo<string>, sheet: Sheet, row: Row)
    requires TablesValid(db)
    requires JoinedKey("A_B", "C") in memo.models
    requires memo.models[JoinedKey("A_B", "C")] in db.equipmentModels.rows
    requires db.equipmentModels.rows[memo.models[JoinedKey("A_B", "C")]].name == "C"
    requires TypeText(row) == "A" && ModelText(row) == "B_C"
    ensures var r := ResolveEquipment(db, memo, sheet, row, JoinedKey);
      r.Ok? ==> var (d, _, _, modelId) := r.value;
        && modelId in d.equipmentModels.rows
        && d.equipmentModels.rows[modelId].name == "C" != ModelText(row)
  {
    JoinedKeyCollides();
  }

  /** With the pair key the same row is filed under its own model. */
  lemma PairKeyFilesModel(db: RepairDb, memo: Memo<(string, string)>, sheet: Sheet, row: Row)
    requires TablesValid(db) && MemoSound(db, memo, PairKey)
    ensures var r := ResolveEquipment(db, memo, sheet, row, PairKey);
      r.Ok? ==> var (d, _, _, modelId) := r.value;
        && modelId in d.equipmentModels.rows
        && d.equipmentModels.rows[modelId].name == ModelText(row)
  {
    assert Injective(PairKey);
  }
}

=== FILE: repair_store.dfy ===
/**
 * The repair-management store of Work_DB.py: seven SQLite tables with
 * foreign keys enforced (`PRAGMA foreign_keys = ON`), the constraints of
 * their schema, the seeding of user types and statuses, and the
 * operations that change requests (create, assign a master, change the
 * status, comment) or read them (the filtered listing and the CSV header).
 *
 * Every operation runs in one transaction: it returns its reply together
 * with the database after it, and a failing statement rolls the whole
 * operation back, so a failure leaves the database as it was.
 */
module RepairStore {
  import opened Wrappers
  import opened Strings
  import opened Tables
  import opened Roles
  import opened SqlValues

  // ---------------------------------------------------------------------------
  // Rows and the database
  // ---------------------------------------------------------------------------

  datatype UserType = UserType(name: string, description: string)

  datatype Person = Person(
    fullName: string,
    phone: string,
    login: string,
    passwordHash: string,
    typeId: int,
    isActive: bool)

  datatype EquipmentModel = EquipmentModel(name: string, typeId: int)

  datatype Status = Status(name: string, isActive: bool)

  /**
   * A row of `repair_requests`. `request_number` is a generated column and
   * is not stored: it is `RequestNumber` of the rowid.
   */
  datatype RepairRequest = RepairRequest(
    start: SqlValue,
    typeId: int,
    modelId: int,
    problem: string,
    statusId: int,
    completion: SqlValue,
    repairParts: Option<string>,
    masterId: Option<int>,
    clientId: int,
    priority: int)

  datatype Comment = Comment(message: string, authorId: int, requestId: int)

  datatype RepairDb = RepairDb(
    userTypes: Table<UserType>,
    users: Table<Person>,
    equipmentTypes: Table<string>,
    equipmentModels: Table<EquipmentModel>,
    statuses: Table<Status>,
    requests: Table<RepairRequest>,
    comments: Table<Comment>)

  // Keys of the UNIQUE constraints.
  function TypeNameOf(t: UserType): string { t.name }
  function LoginOf(p: Person): string { p.login }
  function NameOf(s: string): string { s }
  function ModelKeyOf(m: EquipmentModel): (string, int) { (m.name, m.typeId) }
  function StatusNameOf(s: Status): string { s.name }

  /** A UNIQUE constraint: no two rows share a key. */
  ghost predicate Unique<T, K>(rows: map<int, T>, key: T -> K) {
    forall i, j :: i in rows && j in rows && key(rows[i]) == key(rows[j]) ==> i == j
  }

  /** Some row has the key. */
  predicate Taken<T, K(==)>(rows: map<int, T>, key: T -> K, k: K) {
    exists i :: i in rows && key(rows[i]) == k
  }

  /**
   * A value stored into a `DATE` column. The declared type gives the column
   * NUMERIC affinity, so text that spells an integer is stored, compared
   * and read back as that integer; any other value is kept.
   */
  function DateValue(v: SqlValue): (r: SqlValue)
    ensures r.SqlNull? <==> v.SqlNull?
    ensures v.SqlText? ==> (r.SqlInt? <==> ParseInt(v.s).Some?)
    ensures r.SqlInt? && v.SqlText? ==> ParseInt(v.s) == Some(r.i)
    ensures !v.SqlText? ==> r == v
  {
    IntegerAffinity(v)
  }

  /** A request row as the table holds it: both dates converted by their column's affinity. */
  function AsStored(v: RepairRequest): (r: RepairRequest)
    ensures r.(start := v.start, completion := v.completion) == v
    ensures r.start == DateValue(v.start) && r.completion == DateValue(v.completion)
  {
    v.(start := DateValue(v.start), completion := DateValue(v.completion))
  }

  /** `CHECK (completion_date IS NULL OR completion_date >= start_date)`: only false rejects. */
  predicate CompletionCheck(start: SqlValue, completion: SqlValue) {
    completion.SqlNull? || AtLeast(completion, start) != Some(false)
  }

  /** `CHECK (priority BETWEEN 1 AND 5)`. */
  predicate PriorityCheck(priority: int) {
    1 <= priority <= 5
  }

  /** The foreign keys of a request row. */
  predicate RequestRefsExist(db: RepairDb, r: RepairRequest) {
    && r.typeId in db.equipmentTypes.rows
    && r.modelId in db.equipmentModels.rows
    && r.statusId in db.statuses.rows
    && (r.masterId.Some? ==> r.masterId.value in db.users.rows)
    && r.clientId in db.users.rows
  }

  /** Everything `INSERT INTO repair_requests` checks of a new row. */
  predicate Admissible(db: RepairDb, r: RepairRequest) {
    && !r.start.SqlNull?
    && PriorityCheck(r.priority)
    && CompletionCheck(r.start, r.completion)
    && RequestRefsExist(db, r)
  }

  ghost predicate TablesValid(db: RepairDb) {
    && Valid(db.userTypes) && Valid(db.users) && Valid(db.equipmentTypes)
    && Valid(db.equipmentModels) && Valid(db.statuses) && Valid(db.requests)
    && Valid(db.comments)
  }

  /** The schema's UNIQUE, NOT NULL, CHECK and FOREIGN KEY constraints, over the whole database. */
  ghost predicate Consistent(db: RepairDb) {
    && TablesValid(db)
    && Unique(db.userTypes.rows, TypeNameOf)
    && Unique(db.users.rows, LoginOf)
    && Unique(db.equipmentTypes.rows, NameOf)
    && Unique(db.equipmentModels.rows, ModelKeyOf)
    && Unique(db.statuses.rows, StatusNameOf)
    && (forall k :: k in db.users.rows ==> db.users.rows[k].typeId in db.userTypes.rows)
    && (forall k :: k in db.equipmentModels.rows ==> db.equipmentModels.rows[k].typeId in db.equipmentTypes.rows)
    && (forall k :: k in db.requests.rows ==> Admissible(db, db.requests.rows[k]))
    && (forall k :: k in db.comments.rows ==>
          db.comments.rows[k].authorId in db.users.rows && db.comments.rows[k].requestId in db.requests.rows)
  }

  /**
   * Each request's model is a model of the request's own equipment type.
   * The schema does not enforce this; the operations that create requests
   * are meant to keep it.
   */
  ghost predicate ModelsAgree(db: RepairDb) {
    forall k :: k in db.requests.rows ==>
      && db.requests.rows[k].modelId in db.equipmentModels.rows
      && db.equipmentModels.rows[db.requests.rows[k].modelId].typeId == db.requests.rows[k].typeId
  }

  // ---------------------------------------------------------------------------
  // INSERT OR IGNORE and the seed data
  // ---------------------------------------------------------------------------

  /** `INSERT OR IGNORE` against a UNIQUE key: a clash leaves the table (and its sequence) as it was. */
  function InsertOrIgnore<T, K(==)>(t: Table<T>, v: T, key: T -> K): (r: Table<T>)
    requires Valid(t)
    ensures Valid(r)
    ensures Taken(r.rows, key, key(v))
    ensures Taken(t.rows, key, key(v)) ==> r == t
    ensures !Taken(t.rows, key, key(v)) ==> r.last == t.last + 1 && r.rows == t.rows[r.last := v]
    ensures Unique(t.rows, key) ==> Unique(r.rows, key)
  {
    if Taken(t.rows, key, key(v)) then t
    else
      var r := Append(t, v).0;
      assert r.rows[t.last + 1] == v;
      r
  }

  /** A key taken in some rows stays taken in rows that keep them. */
  lemma TakenGrows<T, K>(a: map<int, T>, b: map<int, T>, key: T -> K, k: K)
    requires forall i :: i in a ==> i in b && b[i] == a[i]
    requires Taken(a, key, k)
    ensures Taken(b, key, k)
  {
    var i :| i in a && key(a[i]) == k;
    assert i in b && key(b[i]) == k;
  }

  /** `executemany` of `INSERT OR IGNORE` over the values in order. */
  function InsertAllOrIgnore<T, K(==)>(t: Table<T>, vs: seq<T>, key: T -> K): (r: Table<T>)
    requires Valid(t)
    ensures Valid(r)
    ensures forall i :: 0 <= i < |vs| ==> Taken(r.rows, key, key(vs[i]))
    ensures forall k :: k in t.rows ==> k in r.rows && r.rows[k] == t.rows[k]
    ensures forall k :: k in r.rows && k !in t.rows ==> r.rows[k] in vs
    ensures Unique(t.rows, key) ==> Unique(r.rows, key)
    decreases |vs|
  {
    if |vs| == 0 then t
    else
      var t1 := InsertOrIgnore(t, vs[0], key);
      var r := InsertAllOrIgnore(t1, vs[1..], key);
      TakenGrows(t1.rows, r.rows, key, key(vs[0]));
      forall i | 1 <= i < |vs| ensures Taken(r.rows, key, key(vs[i])) {
        assert vs[i] == vs[1..][i - 1];
      }
      forall k | k in r.rows && k !in t.rows
        ensures r.rows[k] in vs
      {
        if k !in t1.rows {
          assert r.rows[k] in vs[1..];
        }
      }
      r
  }

  /** Inserting values that are all taken already changes nothing. */
  lemma {:induction false} InsertAllPresent<T, K>(t: Table<T>, vs: seq<T>, key: T -> K)
    requires Valid(t)
    requires forall i :: 0 <= i < |vs| ==> Taken(t.rows, key, key(vs[i]))
    ensures InsertAllOrIgnore(t, vs, key) == t
    decreases |vs|
  {
    if |vs| > 0 {
      assert forall i :: 0 <= i < |vs[1..]| ==> vs[1..][i] == vs[i + 1];
      InsertAllPresent(t, vs[1..], key);
    }
  }

  /** The keys of `vs` are pairwise different. */
  predicate DistinctKeys<T, K(==)>(vs: seq<T>, key: T -> K) {
    forall i, j :: 0 <= i < j < |vs| ==> key(vs[i]) != key(vs[j])
  }

  /** A key is taken after adding a row exactly when it was taken before or is the new row's key. */
  lemma TakenAfterAdd<T, K>(rows: map<int, T>, id: int, v: T, key: T -> K, k: K)
    requires id !in rows
    ensures Taken(rows[id := v], key, k) <==> Taken(rows, key, k) || key(v) == k
  {
    if Taken(rows[id := v], key, k) && key(v) != k {
      var i :| i in rows[id := v] && key(rows[id := v][i]) == k;
      assert i != id && i in rows;
    }
    if Taken(rows, key, k) {
      var i :| i in rows && key(rows[i]) == k;
      assert i in rows[id := v] && rows[id := v][i] == rows[i];
    }
    if key(v) == k {
      assert id in rows[id := v];
    }
  }

  /**
   * Into a table whose rowids are exactly 1..last, distinct new keys land
   * at consecutive rowids after `last`, in the order given.
   */
  lemma {:induction false} InsertAllFresh<T, K>(t: Table<T>, vs: seq<T>, key: T -> K)
    requires Valid(t)
    requires forall k :: k in t.rows <==> 1 <= k <= t.last
    requires DistinctKeys(vs, key)
    requires forall i :: 0 <= i < |vs| ==> !Taken(t.rows, key, key(vs[i]))
    ensures var r := InsertAllOrIgnore(t, vs, key);
      && r.last == t.last + |vs|
      && (forall k :: k in r.rows <==> 1 <= k <= r.last)
      && (forall i :: 0 <= i < |vs| ==> r.rows[t.last + 1 + i] == vs[i])
    decreases |vs|
  {
    if |vs| > 0 {
      var t1 := InsertOrIgnore(t, vs[0], key);
      assert t1.last == t.last + 1 && t1.rows == t.rows[t.last + 1 := vs[0]];
      assert forall k :: k in t1.rows <==> 1 <= k <= t1.last;
      forall i | 0 <= i < |vs[1..]|
        ensures !Taken(t1.rows, key, key(vs[1..][i]))
      {
        assert vs[1..][i] == vs[i + 1];
        assert key(vs[0]) != key(vs[i + 1]);
        TakenAfterAdd(t.rows, t.last + 1, vs[0], key, key(vs[i + 1]));
      }
      InsertAllFresh(t1, vs[1..], key);
      var r := InsertAllOrIgnore(t1, vs[1..], key);
      assert r == InsertAllOrIgnore(t, vs, key);
      forall i | 0 <= i < |vs|
        ensures r.rows[t.last + 1 + i] == vs[i]
      {
        if i > 0 {
          assert vs[1..][i - 1] == vs[i];
        }
      }
    }
  }

  /** The descriptions seeded with the user types, in the order of `SeedUserTypes`. */
  const TypeDescriptions: seq<string> := [
    "Управление системой, полный доступ",
    "Выполнение ремонтных работ",
    "Обработка заявок, назначение мастеров",
    "Создание заявок на ремонт"
  ]

  const UserTypeSeeds: seq<UserType> :=
    seq(4, i requires 0 <= i < 4 => UserType(SeedUserTypes[i].Label(), TypeDescriptions[i]))

  const StatusSeeds: seq<Status> :=
    seq(5, i requires 0 <= i < 5 => Status(SeedStatuses[i].Label(), true))

  /**
   * `_populate_initial_data`: the four user types and five statuses, each
   * added unless its name is taken. Nothing else changes, the constraints
   * keep holding, and every seeded name is present afterwards.
   */
  function PopulateInitial(db: RepairDb): (r: RepairDb)
    requires TablesValid(db)
    ensures TablesValid(r)
    ensures r == db.(userTypes := r.userTypes, statuses := r.statuses)
    ensures forall i :: 0 <= i < |SeedUserTypes| ==> Taken(r.userTypes.rows, TypeNameOf, SeedUserTypes[i].Label())
    ensures forall i :: 0 <= i < |SeedStatuses| ==> Taken(r.statuses.rows, StatusNameOf, SeedStatuses[i].Label())
    ensures forall k :: k in db.userTypes.rows ==> k in r.userTypes.rows && r.userTypes.rows[k] == db.userTypes.rows[k]
    ensures forall k :: k in db.statuses.rows ==> k in r.statuses.rows && r.statuses.rows[k] == db.statuses.rows[k]
    ensures Consistent(db) ==> Consistent(r)
  {
    var types := InsertAllOrIgnore(db.userTypes, UserTypeSeeds, TypeNameOf);
    var statuses := InsertAllOrIgnore(db.statuses, StatusSeeds, StatusNameOf);
    assert forall i :: 0 <= i < |SeedUserTypes| ==> SeedUserTypes[i].Label() == TypeNameOf(UserTypeSeeds[i]);
    assert forall i :: 0 <= i < |SeedStatuses| ==> SeedStatuses[i].Label() == StatusNameOf(StatusSeeds[i]);
    db.(userTypes := types, statuses := statuses)
  }

  /** Seeding twice is seeding once: the second run finds every name taken. */
  lemma PopulateInitialIdempotent(db: RepairDb)
    requires TablesValid(db)
    ensures PopulateInitial(PopulateInitial(db)) == PopulateInitial(db)
  {
    var once := PopulateInitial(db);
    assert forall i :: 0 <= i < |UserTypeSeeds| ==> TypeNameOf(UserTypeSeeds[i]) == SeedUserTypes[i].Label();
    assert forall i :: 0 <= i < |StatusSeeds| ==> StatusNameOf(StatusSeeds[i]) == SeedStatuses[i].Label();
    InsertAllPresent(once.userTypes, UserTypeSeeds, TypeNameOf);
    InsertAllPresent(once.statuses, StatusSeeds, StatusNameOf);
  }

  lemma SeedTypesDistinct()
    ensures DistinctKeys(UserTypeSeeds, TypeNameOf)
  {
    forall i, j | 0 <= i < j < |UserTypeSeeds|
      ensures TypeNameOf(UserTypeSeeds[i]) != TypeNameOf(UserTypeSeeds[j])
    {
      assert TypeNameOf(UserTypeSeeds[i]) == SeedUserTypes[i].Label();
      assert TypeNameOf(UserTypeSeeds[j]) == SeedUserTypes[j].Label();
      assert SeedUserTypes[i] != SeedUserTypes[j];
    }
  }

  lemma SeedStatusesDistinct()
    ensures DistinctKeys(StatusSeeds, StatusNameOf)
  {
    forall i, j | 0 <= i < j < |StatusSeeds|
      ensures StatusNameOf(StatusSeeds[i]) != StatusNameOf(StatusSeeds[j])
    {
      assert StatusNameOf(StatusSeeds[i]) == SeedStatuses[i].Label();
      assert StatusNameOf(StatusSeeds[j]) == SeedStatuses[j].Label();
      StatusIdOfLabelMeaning(SeedStatuses[i].Label());
    }
  }

  /** Into an empty table, distinct keys land at rowids 1, 2, ... in order. */
  lemma {:induction false} FreshRowids<T, K>(t: Table<T>, vs: seq<T>, key: T -> K)
    requires t.rows == map[] && t.last == 0
    requires DistinctKeys(vs, key)
    ensures var r := InsertAllOrIgnore(t, vs, key);
      && (forall k :: k in r.rows <==> 1 <= k <= |vs|)
      && (forall k :: 1 <= k <= |vs| ==> r.rows[k] == vs[k - 1])
  {
    InsertAllFresh(t, vs, key);
    var r := InsertAllOrIgnore(t, vs, key);
    assert r.last == |vs|;
    forall k | 1 <= k <= |vs|
      ensures r.rows[k] == vs[k - 1]
    {
      var i := k - 1;
      assert 0 <= i < |vs| && t.last + 1 + i == k;
    }
  }

  lemma SeedTypeNames(vs: seq<UserType>)
    requires vs == UserTypeSeeds
    ensures |vs| == 4
    ensures forall k :: 1 <= k <= 4 ==> vs[k - 1].name == RoleName(k)
  {
  }

  lemma SeedStatusNames(vs: seq<Status>)
    requires vs == StatusSeeds
    ensures |vs| == 5
    ensures forall i :: 0 <= i < 5 ==> vs[i].name == SeedStatuses[i].Label()
    ensures forall i :: 0 <= i < 5 ==> StatusIdOfLabel(SeedStatuses[i].Label()) == i + 1
  {
    StatusIdOfLabelMeaning(New.Label());
  }

  /**
   * Seeding an empty `user_types` (what `PopulateInitial` does to a fresh
   * database) gives type k the name `RoleName(k)` for k in 1..4: the ids
   * the import hard-codes are the right ones.
   */
  lemma SeededTypeIds(t: Table<UserType>, vs: seq<UserType>)
    requires t.rows == map[] && t.last == 0
    requires vs == UserTypeSeeds
    ensures var r := InsertAllOrIgnore(t, vs, TypeNameOf);
      && (forall k :: k in r.rows <==> 1 <= k <= 4)
      && (forall k :: 1 <= k <= 4 ==> r.rows[k].name == RoleName(k))
  {
    SeedTypesDistinct();
    SeedTypeNames(vs);
    FreshRowids(t, vs, TypeNameOf);
  }

  /** Seeding an empty `request_statuses` puts each status at `StatusIdOfLabel` of its name. */
  lemma SeededStatusIds(t: Table<Status>, vs: seq<Status>)
    requires t.rows == map[] && t.last == 0
    requires vs == StatusSeeds
    ensures var r := InsertAllOrIgnore(t, vs, StatusNameOf);
      && (forall k :: k in r.rows <==> 1 <= k <= 5)
      && (forall i :: 0 <= i < |SeedStatuses| ==>
            r.rows[StatusIdOfLabel(SeedStatuses[i].Label())].name == SeedStatuses[i].Label())
  {
    SeedStatusesDistinct();
    SeedStatusNames(vs);
    FreshRowids(t, vs, StatusNameOf);
  }

  // ---------------------------------------------------------------------------
  // Get-or-create of equipment types and models
  // ---------------------------------------------------------------------------

  predicate NamedType(name: string, n: string) { n == name }

  /**
   * `SELECT equipment_type_id ... WHERE type_name = ?`, inserting the name
   * when no row has it. The id returned names `name`, an existing name is
   * reused, and a new one gets a fresh rowid.
   */
  function TypeIdFor(db: RepairDb, name: string): (r: (RepairDb, int))
    requires TablesValid(db)
    ensures TablesValid(r.0)
    ensures r.0 == db.(equipmentTypes := r.0.equipmentTypes)
    ensures r.1 in r.0.equipmentTypes.rows && r.0.equipmentTypes.rows[r.1] == name
    ensures Taken(db.equipmentTypes.rows, NameOf, name) ==> r.0 == db
    ensures !Taken(db.equipmentTypes.rows, NameOf, name) ==>
      r.1 !in db.equipmentTypes.rows && r.0.equipmentTypes.rows == db.equipmentTypes.rows[r.1 := name]
    ensures Consistent(db) ==> Consistent(r.0)
  {
    match FirstWhere(db.equipmentTypes.rows, n => NamedType(name, n))
    case Some(id) => (db, id)
    case None =>
      assert !Taken(db.equipmentTypes.rows, NameOf, name);
      var (t, id) := Append(db.equipmentTypes, name);
      var r := db.(equipmentTypes := t);
      assert Consistent(db) ==> Unique(t.rows, NameOf);
      (r, id)
  }

  predicate NamedModel(name: string, typeId: int, m: EquipmentModel) {
    m.name == name && m.typeId == typeId
  }

  /**
   * The same for `equipment_models`, keyed by (name, type). A new model row
   * is subject to the foreign key on its type, the only way this fails.
   */
  function ModelIdFor(db: RepairDb, name: string, typeId: int): (r: (Result<int, Fault>, RepairDb))
    requires TablesValid(db)
    ensures TablesValid(r.1)
    ensures r.1 == db.(equipmentModels := r.1.equipmentModels)
    ensures r.0.Err? <==> !Taken(db.equipmentModels.rows, ModelKeyOf, (name, typeId)) && typeId !in db.equipmentTypes.rows
    ensures r.0.Err? ==> r.1 == db
    ensures r.0.Ok? ==>
      r.0.value in r.1.equipmentModels.rows && r.1.equipmentModels.rows[r.0.value] == EquipmentModel(name, typeId)
    ensures Taken(db.equipmentModels.rows, ModelKeyOf, (name, typeId)) ==> r.1 == db
    ensures r.0.Ok? && !Taken(db.equipmentModels.rows, ModelKeyOf, (name, typeId)) ==>
      r.0.value !in db.equipmentModels.rows
      && r.1.equipmentModels.rows == db.equipmentModels.rows[r.0.value := EquipmentModel(name, typeId)]
    ensures Consistent(db) ==> Consistent(r.1)
  {
    match FirstWhere(db.equipmentModels.rows, m => NamedModel(name, typeId, m))
    case Some(id) => (Ok(id), db)
    case None =>
      assert !Taken(db.equipmentModels.rows, ModelKeyOf, (name, typeId)) by {
        forall i | i in db.equipmentModels.rows
          ensures ModelKeyOf(db.equipmentModels.rows[i]) != (name, typeId)
        {
          assert !NamedModel(name, typeId, db.equipmentModels.rows[i]);
        }
      }
      if typeId !in db.equipmentTypes.rows then (Err(ForeignKeyViolated("equipment_type_id")), db)
      else
        var (t, id) := Append(db.equipmentModels, EquipmentModel(name, typeId));
        var r := db.(equipmentModels := t);
        assert Consistent(db) ==> Unique(t.rows, ModelKeyOf);
        (Ok(id), r)
  }

  // ---------------------------------------------------------------------------
  // Writing request and comment rows
  // ---------------------------------------------------------------------------

  /**
   * `INSERT INTO repair_requests`: the dates take their column's affinity,
   * then NOT NULL, the CHECKs and the foreign keys are tested on the row
   * as it would be stored.
   */
  function InsertRequest(db: RepairDb, v: RepairRequest): (r: Result<(RepairDb, int), Fault>)
    requires TablesValid(db)
    ensures r.Ok? <==> Admissible(db, AsStored(v))
    ensures r.Ok? ==> var (d, id) := r.value;
      && TablesValid(d)
      && id !in db.requests.rows
      && d == db.(requests := d.requests)
      && d.requests.rows == db.requests.rows[id := AsStored(v)]
      && id == db.requests.last + 1 && d.requests.last == id
    ensures r.Ok? && Consistent(db) ==> Consistent(r.value.0)
  {
    var w := AsStored(v);
    if w.start.SqlNull? then Err(NotNullViolated("start_date"))
    else if !PriorityCheck(w.priority) then Err(CheckViolated("priority"))
    else if !CompletionCheck(w.start, w.completion) then Err(CheckViolated("completion_date"))
    else if !RequestRefsExist(db, w) then Err(ForeignKeyViolated("repair_requests"))
    else
      var (t, id) := Append(db.requests, w);
      var d := db.(requests := t);
      assert forall k :: k in db.requests.rows ==> d.requests.rows[k] == db.requests.rows[k];
      Ok((d, id))
  }

  /** `INSERT INTO comments`: both foreign keys must resolve. */
  function InsertComment(db: RepairDb, c: Comment): (r: Result<(RepairDb, int), Fault>)
    requires TablesValid(db)
    ensures r.Ok? <==> c.authorId in db.users.rows && c.requestId in db.requests.rows
    ensures r.Ok? ==> var (d, id) := r.value;
      && TablesValid(d)
      && id !in db.comments.rows
      && d == db.(comments := d.comments)
      && d.comments.rows == db.comments.rows[id := c]
      && id == db.comments.last + 1 && d.comments.last == id
    ensures r.Ok? && Consistent(db) ==> Consistent(r.value.0)
  {
    if c.authorId !in db.users.rows then Err(ForeignKeyViolated("master_id"))
    else if c.requestId !in db.requests.rows then Err(ForeignKeyViolated("request_id"))
    else
      var (t, id) := Append(db.comments, c);
      Ok((db.(comments := t), id))
  }

  // ---------------------------------------------------------------------------
  // create_request
  // ---------------------------------------------------------------------------

  /** The generated `request_number`: 'REQ-' || printf('%06d', request_id). */
  function RequestNumber(id: int): string {
    "REQ-" + ZeroPadded(id, 6)
  }

  /** The number reads back as the id, and is ten characters while ids stay below a million. */
  lemma RequestNumberRoundTrip(id: nat)
    ensures StartsWith(RequestNumber(id), "REQ-")
    ensures ParseInt(RequestNumber(id)[4..]) == Some(id)
    ensures id < 1000000 ==> |RequestNumber(id)| == 10
  {
    assert RequestNumber(id)[4..] == ZeroPadded(id, 6);
    ZeroPaddedRoundTrip(id, 6);
    if id < 1000000 {
      DigitsBelowMillion(id);
      ZeroPaddedWidth(id, 6);
    }
  }

  /** Different requests get different numbers. */
  lemma RequestNumberInjective(a: nat, b: nat)
    requires RequestNumber(a) == RequestNumber(b)
    ensures a == b
  {
    RequestNumberRoundTrip(a);
    RequestNumberRoundTrip(b);
  }

  datatype Created = Created(requestId: int, requestNumber: string)

  predicate NewStatusRow(s: Status) { s.name == New.Label() }

  /** The id of the 'Новая заявка' status, if that status exists. */
  function NewStatusId(db: RepairDb): (r: Option<int>)
    ensures r.Some? <==> Taken(db.statuses.rows, StatusNameOf, New.Label())
    ensures r.Some? ==> r.value in db.statuses.rows && db.statuses.rows[r.value].name == New.Label()
  {
    var r := FirstWhere(db.statuses.rows, NewStatusRow);
    assert r.None? ==> !Taken(db.statuses.rows, StatusNameOf, New.Label()) by {
      if r.None? {
        forall i | i in db.statuses.rows
          ensures StatusNameOf(db.statuses.rows[i]) != New.Label()
        {
          assert !NewStatusRow(db.statuses.rows[i]);
        }
      }
    }
    r
  }

  /**
   * `create_request` with the generated number computed rather than
   * written: get-or-create the type and model, look up 'Новая заявка' and
   * insert a request dated `today` with no completion, parts or master.
   */
  function CreateRequest(
    db: RepairDb, clientId: int, typeName: string, modelName: string,
    problem: string, priority: int, today: string): (r: (Result<Created, Fault>, RepairDb))
    requires TablesValid(db)
    ensures TablesValid(r.1)
    ensures r.0.Ok? <==>
      Taken(db.statuses.rows, StatusNameOf, New.Label()) && PriorityCheck(priority) && clientId in db.users.rows
    ensures r.0.Err? ==> r.1 == db
    ensures r.0.Ok? ==> r.0.value.requestId !in db.requests.rows && r.0.value.requestId in r.1.requests.rows
    ensures r.0.Ok? ==> var id := r.0.value.requestId; var q := r.1.requests.rows[id];
      && r.0.value.requestNumber == RequestNumber(id)
      && r.1.requests.rows == db.requests.rows[id := q]
      && Admissible(r.1, q)
      && q.start == DateValue(SqlText(today)) && q.completion.SqlNull? && q.masterId.None? && q.repairParts.None?
      && q.problem == problem && q.clientId == clientId && q.priority == priority
      && r.1.statuses.rows[q.statusId].name == New.Label()
      && r.1.equipmentTypes.rows[q.typeId] == typeName
      && r.1.equipmentModels.rows[q.modelId] == EquipmentModel(modelName, q.typeId)
    ensures r.0.Ok? ==> r.1.userTypes == db.userTypes && r.1.users == db.users && r.1.comments == db.comments && r.1.statuses == db.statuses
    ensures Consistent(db) ==> Consistent(r.1)
    ensures ModelsAgree(db) ==> ModelsAgree(r.1)
  {
    var (db1, typeId) := TypeIdFor(db, typeName);
    var (model, db2) := ModelIdFor(db1, modelName, typeId);
    if model.Err? then (Err(ForeignKeyViolated("equipment_type_id")), db)
    else match NewStatusId(db2)
      case None => (Err(NoSuchRow("request_statuses")), db)
      case Some(statusId) =>
        var v := RepairRequest(SqlText(today), typeId, model.value, problem, statusId, SqlNull, None, None, clientId, priority);
        match InsertRequest(db2, v)
        case Err(f) => (Err(f), db)
        case Ok((db3, id)) => (Ok(Created(id, RequestNumber(id))), db3)
  }

  /**
   * `create_request` as written: after the INSERT it runs
   * `UPDATE repair_requests SET request_number = ?`, which SQLite refuses
   * for a generated column, so every call that got that far rolls back.
   */
  function CreateRequestAsWritten(
    db: RepairDb, clientId: int, typeName: string, modelName: string,
    problem: string, priority: int, today: string): (r: (Result<Created, Fault>, RepairDb))
    requires TablesValid(db)
    ensures r.1 == db
    ensures r.0.Err?
  {
    var (created, _) := CreateRequest(db, clientId, typeName, modelName, problem, priority, today);
    if created.Err? then (Err(created.error), db)
    else (Err(GeneratedColumnWrite("request_number")), db)
  }

  /**
   * The as-written `create_request` never creates a request, even on inputs
   * where the corrected one does; the two differ exactly there.
   */
  lemma CreateRequestAsWrittenNeverCreates(
    db: RepairDb, clientId: int, typeName: string, modelName: string,
    problem: string, priority: int, today: string)
    requires TablesValid(db)
    requires Taken(db.statuses.rows, StatusNameOf, New.Label()) && PriorityCheck(priority) && clientId in db.users.rows
    ensures CreateRequestAsWritten(db, clientId, typeName, modelName, problem, priority, today).0
      == Err(GeneratedColumnWrite("request_number"))
    ensures CreateRequest(db, clientId, typeName, modelName, problem, priority, today).0.Ok?
  {
  }

  // ---------------------------------------------------------------------------
  // assign_master
  // ---------------------------------------------------------------------------

  datatype Refusal = RequestNotFound | NotAMaster | StatusNotFound | Failed(fault: Fault)

  const AssignedMessage := "Мастер назначен на заявку"

  /** The user exists and its type (by the join on `user_types`) is Мастер or Менеджер. */
  predicate MayRepair(db: RepairDb, userId: int) {
    && userId in db.users.rows
    && db.users.rows[userId].typeId in db.userTypes.rows
    && db.userTypes.rows[db.users.rows[userId].typeId].name in {Specialist.Label(), Manager.Label()}
  }

  predicate StatusRowNamed(name: string, s: Status) { s.name == name }

  /** `SELECT status_id FROM request_statuses WHERE status_name = ?`. */
  function StatusIdNamed(db: RepairDb, name: string): (r: Option<int>)
    ensures r.Some? <==> Taken(db.statuses.rows, StatusNameOf, name)
    ensures r.Some? ==> r.value in db.statuses.rows && db.statuses.rows[r.value].name == name
  {
    var r := FirstWhere(db.statuses.rows, s => StatusRowNamed(name, s));
    assert r.None? ==> !Taken(db.statuses.rows, StatusNameOf, name) by {
      if r.None? {
        forall i | i in db.statuses.rows
          ensures StatusNameOf(db.statuses.rows[i]) != name
        {
          assert !StatusRowNamed(name, db.statuses.rows[i]);
        }
      }
    }
    r
  }

  /**
   * `assign_master`: the request must exist, the master must be a Мастер or
   * Менеджер and 'В процессе ремонта' must exist; then the request gets the
   * master and that status, and a comment authored by `userId` records it.
   * The comment's foreign key on `userId` can still roll everything back.
   */
  function AssignMaster(db: RepairDb, requestId: int, masterId: int, userId: int): (r: (Result<(), Refusal>, RepairDb))
    requires TablesValid(db)
    ensures TablesValid(r.1)
    ensures r.0.Ok? <==>
      && requestId in db.requests.rows
      && MayRepair(db, masterId)
      && Taken(db.statuses.rows, StatusNameOf, InProgress.Label())
      && userId in db.users.rows
    ensures requestId !in db.requests.rows ==> r.0 == Err(RequestNotFound)
    ensures requestId in db.requests.rows && !MayRepair(db, masterId) ==> r.0 == Err(NotAMaster)
    ensures r.0.Err? ==> r.1 == db
    ensures r.0.Ok? ==> requestId in r.1.requests.rows
    ensures r.0.Ok? ==> var q := r.1.requests.rows[requestId];
      && r.1.requests.rows == db.requests.rows[requestId := q]
      && q == db.requests.rows[requestId].(masterId := Some(masterId), statusId := q.statusId)
      && q.statusId in r.1.statuses.rows
      && r.1.statuses.rows[q.statusId].name == InProgress.Label()
      && (exists c :: c !in db.comments.rows
            && r.1.comments.rows == db.comments.rows[c := Comment(AssignedMessage, userId, requestId)])
      && r.1 == db.(requests := r.1.requests, comments := r.1.comments)
    ensures Consistent(db) ==> Consistent(r.1)
  {
    if requestId !in db.requests.rows then (Err(RequestNotFound), db)
    else if !MayRepair(db, masterId) then (Err(NotAMaster), db)
    else match StatusIdNamed(db, InProgress.Label())
      case None => (Err(Failed(NoSuchRow("request_statuses"))), db)
      case Some(statusId) =>
        var q := db.requests.rows[requestId].(masterId := Some(masterId), statusId := statusId);
        var db1 := db.(requests := Put(db.requests, requestId, q));
        assert Consistent(db) ==> Consistent(db1) by {
          if Consistent(db) {
            assert Admissible(db1, q);
            assert forall k :: k in db1.requests.rows ==> Admissible(db1, db1.requests.rows[k]);
          }
        }
        match InsertComment(db1, Comment(AssignedMessage, userId, requestId))
        case Err(f) => (Err(Failed(f)), db)
        case Ok((db2, c)) => (Ok(()), db2)
  }

  // ---------------------------------------------------------------------------
  // update_request_status
  // ---------------------------------------------------------------------------

  /** The completion the UPDATE writes: today for 'Готова к выдаче', else the old value. */
  function CompletionAfter(statusName: string, prior: SqlValue, today: string): SqlValue {
    if statusName == Ready.Label() then DateValue(SqlText(today)) else prior
  }

  /**
   * `update_request_status`: an unknown status name is refused; a missing
   * request matches no row and the call still succeeds; otherwise the
   * status changes and the completion date is stamped with today exactly
   * when the new status is 'Готова к выдаче'. The completion CHECK is
   * evaluated because `completion_date` is in the SET list.
   */
  function UpdateRequestStatus(db: RepairDb, requestId: int, statusName: string, today: string): (r: (Result<(), Refusal>, RepairDb))
    requires TablesValid(db)
    ensures TablesValid(r.1)
    ensures !Taken(db.statuses.rows, StatusNameOf, statusName) ==> r == (Err(StatusNotFound), db)
    ensures r.0.Ok? <==>
      && Taken(db.statuses.rows, StatusNameOf, statusName)
      && (requestId in db.requests.rows ==>
            CompletionCheck(db.requests.rows[requestId].start,
                            CompletionAfter(statusName, db.requests.rows[requestId].completion, today)))
    ensures r.0.Err? || requestId !in db.requests.rows ==> r.1 == db
    ensures r.0.Ok? && requestId in db.requests.rows ==> requestId in r.1.requests.rows
    ensures r.0.Ok? && requestId in db.requests.rows ==> var q := r.1.requests.rows[requestId];
      && r.1 == db.(requests := r.1.requests)
      && r.1.requests.rows == db.requests.rows[requestId := q]
      && q.statusId in r.1.statuses.rows
      && r.1.statuses.rows[q.statusId].name == statusName
      && q == db.requests.rows[requestId].(statusId := q.statusId, completion := q.completion)
      && (statusName == Ready.Label() ==> q.completion == DateValue(SqlText(today)))
      && (statusName != Ready.Label() ==> q.completion == db.requests.rows[requestId].completion)
    ensures Consistent(db) ==> Consistent(r.1)
  {
    match StatusIdNamed(db, statusName)
    case None => (Err(StatusNotFound), db)
    case Some(statusId) =>
      if requestId !in db.requests.rows then (Ok(()), db)
      else
        var prior := db.requests.rows[requestId];
        var q := prior.(statusId := statusId, completion := CompletionAfter(statusName, prior.completion, today));
        if !CompletionCheck(q.start, q.completion) then (Err(Failed(CheckViolated("completion_date"))), db)
        else
          var db1 := db.(requests := Put(db.requests, requestId, q));
          assert Consistent(db) ==> Consistent(db1) by {
            if Consistent(db) {
              assert Admissible(db1, q);
              assert forall k :: k in db1.requests.rows ==> Admissible(db1, db1.requests.rows[k]);
            }
          }
          (Ok(()), db1)
  }

  /**
   * On a consistent database only the move to 'Готова к выдаче' can fail
   * the completion CHECK: any other known status always succeeds.
   */
  lemma OnlyReadyCanFailCheck(db: RepairDb, requestId: int, statusName: string, today: string)
    requires Consistent(db)
    requires Taken(db.statuses.rows, StatusNameOf, statusName) && statusName != Ready.Label()
    ensures UpdateRequestStatus(db, requestId, statusName, today).0.Ok?
  {
    if requestId in db.requests.rows {
      assert Admissible(db, db.requests.rows[requestId]);
    }
  }

  // ---------------------------------------------------------------------------
  // add_comment
  // ---------------------------------------------------------------------------

  /** `add_comment`: the new comment's id, or the foreign-key failure with nothing written. */
  function AddComment(db: RepairDb, requestId: int, masterId: int, message: string): (r: (Result<int, Fault>, RepairDb))
    requires TablesValid(db)
    ensures TablesValid(r.1)
    ensures r.0.Ok? <==> masterId in db.users.rows && requestId in db.requests.rows
    ensures r.0.Err? ==> r.1 == db
    ensures r.0.Ok? ==>
      && r.0.value !in db.comments.rows
      && r.1 == db.(comments := r.1.comments)
      && r.1.comments.rows == db.comments.rows[r.0.value := Comment(message, masterId, requestId)]
    ensures Consistent(db) ==> Consistent(r.1)
  {
    match InsertComment(db, Comment(message, masterId, requestId))
    case Err(f) => (Err(f), db)
    case Ok((d, id)) => (Ok(id), d)
  }

  // ---------------------------------------------------------------------------
  // get_all_requests and export_to_csv
  // ---------------------------------------------------------------------------

  /**
   * The filters `get_all_requests` reads; an empty string or 0 is falsy and
   * applies no condition, as an absent key does.
   */
  datatype RequestFilter = RequestFilter(
    status: string,
    clientId: int,
    masterId: int,
    startFrom: string,
    startTo: string,
    equipmentType: string)

  const NoFilter := RequestFilter("", 0, 0, "", "", "")

  /** A request is a row of `vw_requests_full` when its inner joins (type, model, status, client) find rows. */
  predicate InView(db: RepairDb, k: int) {
    && k in db.requests.rows
    && db.requests.rows[k].typeId in db.equipmentTypes.rows
    && db.requests.rows[k].modelId in db.equipmentModels.rows
    && db.requests.rows[k].statusId in db.statuses.rows
    && db.requests.rows[k].clientId in db.users.rows
  }

  /** The date parameter as compared with the `start_date` column: the column's affinity applies to it. */
  function DateParam(s: string): SqlValue {
    DateValue(SqlText(s))
  }

  predicate StatusMatches(db: RepairDb, k: int, status: string)
    requires InView(db, k)
  {
    status == "" || db.statuses.rows[db.requests.rows[k].statusId].name == status
  }

  predicate ClientMatches(db: RepairDb, k: int, clientId: int)
    requires InView(db, k)
  {
    clientId == 0 || db.requests.rows[k].clientId == clientId
  }

  predicate MasterMatches(db: RepairDb, k: int, masterId: int)
    requires InView(db, k)
  {
    masterId == 0 || db.requests.rows[k].masterId == Some(masterId)
  }

  predicate StartsNotBefore(db: RepairDb, k: int, from: string)
    requires InView(db, k)
  {
    from == "" || Holds(AtLeast(db.requests.rows[k].start, DateParam(from)))
  }

  predicate StartsNotAfter(db: RepairDb, k: int, to: string)
    requires InView(db, k)
  {
    to == "" || Holds(AtMost(db.requests.rows[k].start, DateParam(to)))
  }

  predicate TypeMatches(db: RepairDb, k: int, equipmentType: string)
    requires InView(db, k)
  {
    equipmentType == "" || db.equipmentTypes.rows[db.requests.rows[k].typeId] == equipmentType
  }

  /** Every condition of `f` holds of view row `k`. */
  predicate Passes(db: RepairDb, k: int, f: RequestFilter)
    requires InView(db, k)
  {
    && StatusMatches(db, k, f.status)
    && ClientMatches(db, k, f.clientId)
    && MasterMatches(db, k, f.masterId)
    && StartsNotBefore(db, k, f.startFrom)
    && StartsNotAfter(db, k, f.startTo)
    && TypeMatches(db, k, f.equipmentType)
  }

  function ViewIds(db: RepairDb): (r: set<int>)
    ensures forall k :: k in r <==> InView(db, k)
  {
    set k | k in db.requests.rows && InView(db, k)
  }

  /**
   * `get_all_requests` with the client and master conditions evaluated
   * against the request's own columns: the ids of the view rows that pass
   * every truthy filter (the ORDER BY is not modelled).
   */
  function ListRequests(db: RepairDb, f: RequestFilter): (r: set<int>)
    ensures r <= ViewIds(db)
  {
    set k | k in db.requests.rows && InView(db, k) && Passes(db, k, f)
  }

  /**
   * `get_all_requests` as written: the view has no `client_id` or
   * `master_id` column, so either filter makes the query fail, and the
   * routine answers an empty list.
   */
  function ListRequestsAsWritten(db: RepairDb, f: RequestFilter): (r: set<int>)
    ensures f.clientId != 0 || f.masterId != 0 ==> r == {}
    ensures f.clientId == 0 && f.masterId == 0 ==> r == ListRequests(db, f)
  {
    if f.clientId != 0 || f.masterId != 0 then {} else ListRequests(db, f)
  }

  /** A filter naming a client drops every one of that client's requests in the as-written listing. */
  lemma ClientFilterLosesRows(db: RepairDb, k: int)
    requires InView(db, k)
    requires db.requests.rows[k].clientId != 0
    ensures var f := NoFilter.(clientId := db.requests.rows[k].clientId);
      k in ListRequests(db, f) && ListRequestsAsWritten(db, f) == {}
  {
  }

  /** The filters are conjunctive: the listing is the intersection of the one-condition listings. */
  lemma ListRequestsIntersection(db: RepairDb, f: RequestFilter)
    ensures ListRequests(db, f)
      == ListRequests(db, NoFilter.(status := f.status))
       * ListRequests(db, NoFilter.(clientId := f.clientId))
       * ListRequests(db, NoFilter.(masterId := f.masterId))
       * ListRequests(db, NoFilter.(startFrom := f.startFrom))
       * ListRequests(db, NoFilter.(startTo := f.startTo))
       * ListRequests(db, NoFilter.(equipmentType := f.equipmentType))
  {
  }

  /** Without filters every request is listed once the foreign keys hold. */
  lemma ListAllOfConsistent(db: RepairDb)
    requires Consistent(db)
    ensures ListRequests(db, NoFilter) == db.requests.rows.Keys
  {
    assert forall k :: k in db.requests.rows ==> Admissible(db, db.requests.rows[k]);
  }

  function Flatten(rows: seq<seq<string>>): (r: seq<string>)
    ensures forall x :: x in r <==> exists i :: 0 <= i < |rows| && x in rows[i]
  {
    if |rows| == 0 then []
    else
      var r := Flatten(rows[..|rows| - 1]) + rows[|rows| - 1];
      assert forall i :: 0 <= i < |rows| - 1 ==> rows[..|rows| - 1][i] == rows[i];
      r
  }

  /**
   * The CSV header `export_to_csv` writes: none when there are no rows,
   * else every key of every row once, in ascending order.
   */
  function CsvHeader(rows: seq<seq<string>>): (r: Option<seq<string>>)
    ensures r.None? <==> |rows| == 0
    ensures r.Some? ==> StrictlySorted(r.value)
    ensures r.Some? ==> forall x :: x in r.value <==> exists i :: 0 <= i < |rows| && x in rows[i]
  {
    if |rows| == 0 then None else Some(SortUnique(Flatten(rows)))
  }

  /** The header is the only sorted, duplicate-free listing of the rows' keys. */
  lemma CsvHeaderUnique(rows: seq<seq<string>>, header: seq<string>)
    requires |rows| > 0
    requires StrictlySorted(header)
    requires forall x :: x in header <==> exists i :: 0 <= i < |rows| && x in rows[i]
    ensures CsvHeader(rows) == Some(header)
  {
    SortedUnique(CsvHeader(rows).value, header);
  }
}

=== FILE: roles.dfy ===
/**
 * Role and status vocabularies of both stores.
 *
 * The repair-management store (Work_DB.py) names user types and request
 * statuses by Russian labels and numbers them in seeding order; the
 * service-centre application (App.py) keeps its own role names ('admin',
 * 'master', 'operator', 'client', and 'manager', which only the permission
 * checks mention) and derives the page's permission flags from them.
 */
module Roles {
  import opened Wrappers
  import opened Cells

  // ---------------------------------------------------------------------------
  // Work_DB.py: UserRole, RequestStatus, User.role, the import mappings
  // ---------------------------------------------------------------------------

  datatype UserRole = Manager | Specialist | Operator | Client {
    function Label(): string {
      match this
      case Manager => "Менеджер"
      case Specialist => "Мастер"
      case Operator => "Оператор"
      case Client => "Заказчик"
    }
  }

  datatype RequestStatus =
    | New | Confirmed | Diagnosis | InProgress | WaitingParts | Ready | Completed | Cancelled
  {
    function Label(): string {
      match this
      case New => "Новая заявка"
      case Confirmed => "Подтверждена"
      case Diagnosis => "На диагностике"
      case InProgress => "В процессе ремонта"
      case WaitingParts => "Ожидает запчасти"
      case Ready => "Готова к выдаче"
      case Completed => "Выполнена"
      case Cancelled => "Отменена"
    }
  }

  /** The user types `_populate_initial_data` seeds, in insertion order. */
  const SeedUserTypes: seq<UserRole> := [Manager, Specialist, Operator, Client]

  /** The request statuses `_populate_initial_data` seeds, in insertion order. */
  const SeedStatuses: seq<RequestStatus> := [New, InProgress, Ready, Completed, Cancelled]

  const UnknownRole := "Неизвестно"

  /** `User.role`: the name of a user-type id, "Неизвестно" outside 1..4. */
  function RoleName(typeId: int): (r: string)
    ensures 1 <= typeId <= 4 ==> r == SeedUserTypes[typeId - 1].Label()
    ensures !(1 <= typeId <= 4) ==> r == UnknownRole
  {
    if typeId == 1 then Manager.Label()
    else if typeId == 2 then Specialist.Label()
    else if typeId == 3 then Operator.Label()
    else if typeId == 4 then Client.Label()
    else UnknownRole
  }

  /** `type_mapping.get(name, 4)` of the users phase of the import. */
  function TypeIdOfLabel(name: string): int {
    if name == Manager.Label() then 1
    else if name == Specialist.Label() then 2
    else if name == Operator.Label() then 3
    else 4
  }

  /** `type_mapping.get(row['type'], 4)`: a cell that is not text is never a key. */
  function TypeIdOfCell(c: Cell): int {
    if c.Text? then TypeIdOfLabel(c.s) else 4
  }

  /** `status_mapping.get(name, 1)` of the requests phase of the import. */
  function StatusIdOfLabel(name: string): int {
    if name == New.Label() then 1
    else if name == InProgress.Label() then 2
    else if name == Ready.Label() then 3
    else if name == Completed.Label() then 4
    else if name == Cancelled.Label() then 5
    else 1
  }

  /** The import's name-to-id mapping and `User.role` are inverse on the four seeded types. */
  lemma TypeIdRoundTrip(typeId: int)
    requires 1 <= typeId <= 4
    ensures TypeIdOfLabel(RoleName(typeId)) == typeId
  {
  }

  /** Every name maps to an id in 1..4, and it is 4 (Заказчик) unless the name names another seeded type. */
  lemma TypeIdOfLabelMeaning(name: string)
    ensures 1 <= TypeIdOfLabel(name) <= 4
    ensures TypeIdOfLabel(name) < 4 ==> RoleName(TypeIdOfLabel(name)) == name
    ensures (forall k :: 0 <= k < 3 ==> SeedUserTypes[k].Label() != name) ==> TypeIdOfLabel(name) == 4
  {
    assert SeedUserTypes[0] == Manager && SeedUserTypes[1] == Specialist && SeedUserTypes[2] == Operator;
  }

  /**
   * Every status name maps to its position in the seeding order (plus one),
   * and a name outside the seeded five maps to 1 (Новая заявка).
   */
  lemma StatusIdOfLabelMeaning(name: string)
    ensures 1 <= StatusIdOfLabel(name) <= 5
    ensures forall k :: 0 <= k < |SeedStatuses| ==> StatusIdOfLabel(SeedStatuses[k].Label()) == k + 1
    ensures (forall k :: 0 <= k < |SeedStatuses| ==> SeedStatuses[k].Label() != name) ==> StatusIdOfLabel(name) == 1
    ensures StatusIdOfLabel(name) != 1 ==> SeedStatuses[StatusIdOfLabel(name) - 1].Label() == name
  {
    assert SeedStatuses[0] == New;
    if StatusIdOfLabel(name) != 1 {
      var k := StatusIdOfLabel(name) - 1;
      assert SeedStatuses[k].Label() == name;
    }
  }

  // ---------------------------------------------------------------------------
  // App.py: role names and the main page's permission flags
  // ---------------------------------------------------------------------------

  /** `type_mapping.get(name, 'client')` of the legacy user loader. */
  function AppRoleOfLabel(name: string): string {
    if name == Manager.Label() then "admin"
    else if name == Specialist.Label() then "master"
    else if name == Operator.Label() then "operator"
    else "client"
  }

  /** The legacy loader's role for a `type` cell: a missing cell counts as Заказчик. */
  function AppRoleOfCell(c: Cell): (r: string)
    ensures r in {"admin", "master", "operator", "client"}
    ensures c.Null? ==> r == "client"
  {
    match c
    case Null => AppRoleOfLabel(Client.Label())
    case Text(s) => AppRoleOfLabel(s)
    case _ => "client"
  }

  /** Both importers classify a name the same way: the App role and the Work_DB type id agree. */
  lemma AppRoleMatchesTypeId(name: string)
    ensures AppRoleOfLabel(name) == ["admin", "master", "operator", "client"][TypeIdOfLabel(name) - 1]
  {
  }

  /** `session.get('user_type', 'client')`. */
  function SessionRole(userType: Option<string>): string {
    if userType.Some? then userType.value else "client"
  }

  predicate CanViewMasters(userType: Option<string>) {
    SessionRole(userType) in ["admin", "manager", "master", "operator"]
  }

  predicate CanCreateRequests(userType: Option<string>) {
    SessionRole(userType) in ["admin", "manager", "client", "operator"]
  }

  predicate CanViewStats(userType: Option<string>) {
    SessionRole(userType) in ["admin", "manager", "operator"]
  }

  predicate CanAssignMasters(userType: Option<string>) {
    SessionRole(userType) in ["admin", "manager", "operator"]
  }

  predicate CanEditAll(userType: Option<string>) {
    SessionRole(userType) in ["admin", "manager", "operator"]
  }

  predicate CanEditOwn(userType: Option<string>) {
    SessionRole(userType) == "master"
  }

  /**
   * How the flags relate: the staff roles (admin, manager, operator) hold
   * every flag but editing their own; a master views masters and edits own
   * requests only; a client, and a session without a role, only creates.
   */
  lemma PermissionFlags(userType: Option<string>)
    ensures CanAssignMasters(userType) <==> SessionRole(userType) in {"admin", "manager", "operator"}
    ensures CanAssignMasters(userType) <==> CanViewStats(userType)
    ensures CanAssignMasters(userType) <==> CanEditAll(userType)
    ensures CanAssignMasters(userType) ==> CanViewMasters(userType) && CanCreateRequests(userType) && !CanEditOwn(userType)
    ensures CanEditOwn(userType) <==> CanViewMasters(userType) && !CanCreateRequests(userType)
    ensures CanEditOwn(userType) ==> !CanEditAll(userType) && !CanViewStats(userType)
    ensures userType.None? ==> CanCreateRequests(userType) && !CanViewMasters(userType) && !CanViewStats(userType)
  {
  }
}

=== FILE: service_api.dfy ===
/**
 * The JSON handlers of App.py that change or read the service-centre
 * store: creating a request, assigning a master, adding a comment, the
 * role-scoped request list and search, the statistics counts and the
 * template comments. A handler returns its reply and the store after it;
 * a handler that raises commits nothing.
 */
module ServiceApi {
  import opened Wrappers
  import opened Strings
  import opened Tables
  import opened Roles
  import opened SqlValues
  import opened ServiceStore

  /** The values a JSON body carries in the fields these handlers read. */
  datatype Json = JNull | JInt(i: int) | JStr(s: string)

  type Body = map<string, Json>

  /** The session keys the handlers read; `None` is a key the session does not hold. */
  datatype Session = Session(userId: Option<int>, userType: Option<string>, userLogin: Option<string>, userName: Option<string>)

  datatype Reply =
    | Created(requestId: int)   // {"success": true, "request_id": ...}
    | Done                      // {"success": true}
    | Refused(code: int)        // 401, 403, 400 or 404, nothing written
    | Failed(fault: Fault)      // 500: the handler raised, nothing committed

  /** A JSON value bound to a TEXT column: null is NULL, an integer is stored as its decimal text. */
  function JsonText(v: Json): (r: Option<string>)
    ensures r.None? <==> v.JNull?
  {
    match v
    case JNull => None
    case JInt(i) => Some(Decimal(i))
    case JStr(s) => Some(s)
  }

  /** Python truthiness of a JSON value. */
  predicate JsonTruthy(v: Json) {
    match v
    case JNull => false
    case JInt(i) => i != 0
    case JStr(s) => s != ""
  }

  /** A JSON value compared with an INTEGER column: text that spells an integer is that integer, other text matches nothing. */
  function JsonKey(v: Json): (r: Option<int>)
    ensures v.JInt? ==> r == Some(v.i)
    ensures v.JNull? ==> r.None?
  {
    match v
    case JNull => None
    case JInt(i) => Some(i)
    case JStr(s) => ParseInt(s)
  }

  /** A JSON value bound to an INTEGER column, after the column's affinity. */
  function JsonInteger(v: Json): (r: SqlValue)
    ensures r.SqlNull? <==> v.JNull?
    ensures JsonKey(v).Some? ==> r == SqlInt(JsonKey(v).value)
  {
    match v
    case JNull => SqlNull
    case JInt(i) => SqlInt(i)
    case JStr(s) => IntegerAffinity(SqlText(s))
  }

  /** `data[key]`: a KeyError when the body lacks it. */
  function Read(body: Body, key: string): (r: Result<Json, Fault>)
    ensures r.Ok? <==> key in body
    ensures r.Ok? ==> r.value == body[key]
  {
    if key in body then Ok(body[key]) else Err(KeyMissing(key))
  }

  /** A value for a NOT NULL column. */
  function NotNull(v: Option<string>, column: string): (r: Result<string, Fault>)
    ensures r.Ok? <==> v.Some?
    ensures r.Ok? ==> r.value == v.value
  {
    if v.Some? then Ok(v.value) else Err(NotNullViolated(column))
  }

  // ---------------------------------------------------------------------------
  // POST /api/requests
  // ---------------------------------------------------------------------------

  /** `MAX(request_id) + 1`, or 1 for an empty table. */
  function NextRequestId(requests: map<int, ServiceRequest>): (r: int)
    ensures r !in requests
    ensures requests == map[] ==> r == 1
    ensures requests != map[] ==> r - 1 in requests && forall k :: k in requests ==> k < r
  {
    if requests == map[] then 1 else Greatest(requests.Keys) + 1
  }

  /** Each value bound to its NOT NULL column, in order; the first null raises. */
  function NotNullAll(values: seq<Json>, columns: seq<string>): (r: Result<seq<string>, Fault>)
    requires |values| == |columns|
    ensures r.Ok? <==> forall i :: 0 <= i < |values| ==> !values[i].JNull?
    ensures r.Ok? ==> |r.value| == |values| && forall i :: 0 <= i < |values| ==> Some(r.value[i]) == JsonText(values[i])
  {
    if values == [] then Ok([])
    else
      var head :- NotNull(JsonText(values[0]), columns[0]);
      var tail :- NotNullAll(values[1..], columns[1..]);
      assert forall i :: 1 <= i < |values| ==> values[i] == values[1..][i - 1];
      Ok([head] + tail)
  }

  /** The body holds a non-null value under `key`. */
  predicate Filled(body: Body, key: string) {
    key in body && !body[key].JNull?
  }

  /** The keys `create_request` reads all hold values, and `request_status`, when given, is not null. */
  predicate CreateComplete(body: Body) {
    && Filled(body, "tech_type") && Filled(body, "tech_model") && Filled(body, "problem_description")
    && Filled(body, "client_fio") && Filled(body, "client_phone")
    && ("request_status" in body ==> Filled(body, "request_status"))
  }

  /** The body's values for the create keys, read in order; a missing key raises. */
  function ReadCreateFields(body: Body): (r: Result<seq<Json>, Fault>)
    ensures r.Ok? <==>
      "tech_type" in body && "tech_model" in body && "problem_description" in body && "client_fio" in body && "client_phone" in body
    ensures r.Ok? ==>
      r.value == [body["tech_type"], body["tech_model"], body["problem_description"], body["client_fio"], body["client_phone"]]
  {
    var techType :- Read(body, "tech_type");
    var techModel :- Read(body, "tech_model");
    var problem :- Read(body, "problem_description");
    var clientFio :- Read(body, "client_fio");
    var clientPhone :- Read(body, "client_phone");
    Ok([techType, techModel, problem, clientFio, clientPhone])
  }

  /** The row a request body describes; `request_status` defaults to a new request. */
  function NewRequest(body: Body, s: Session, now: string): (r: Result<ServiceRequest, Fault>)
    ensures r.Ok? <==> CreateComplete(body)
    ensures r.Ok? ==>
      && r.value.status == (if "request_status" in body then JsonText(body["request_status"]).value else NewStatus)
      && r.value.techType == JsonText(body["tech_type"]).value
      && r.value.techModel == JsonText(body["tech_model"]).value
      && r.value.problem == JsonText(body["problem_description"]).value
      && r.value.clientFio == JsonText(body["client_fio"]).value
      && r.value.clientPhone == JsonText(body["client_phone"]).value
      && r.value.clientLogin == Some(s.userLogin.GetOr(""))
      && r.value.clientType == Some("client")
      && r.value.start == now
      && !r.value.hasComment && r.value.masterId.None? && r.value.repairParts.None? && r.value.completion.None?
  {
    var fields :- ReadCreateFields(body);
    var status := if "request_status" in body then body["request_status"] else JStr(NewStatus);
    var values := [fields[0], fields[1], fields[2], status, fields[3], fields[4]];
    var texts :- NotNullAll(values, ["tech_type", "tech_model", "problem_description", "request_status", "client_fio", "client_phone"]);
    Ok(ServiceRequest(
      now, texts[0], texts[1], texts[2], texts[3],
      None, None, None, false,
      None, None, None, None, None,
      None, texts[4], texts[5], Some(s.userLogin.GetOr("")), Some("client")))
  }

  /**
   * `create_request`: a signed-in caller's request gets the next request id;
   * a missing key or a null value raises and nothing is written.
   */
  function CreateRequest(db: Store, s: Session, body: Body, now: string): (r: (Reply, Store))
    ensures s.userId.None? ==> r == (Refused(401), db)
    ensures r.0.Created? <==> s.userId.Some? && NewRequest(body, s, now).Ok?
    ensures r.0.Created? ==>
              && r.0.requestId == NextRequestId(db.requests)
              && r.0.requestId !in db.requests
              && r.1 == db.(requests := db.requests[r.0.requestId := NewRequest(body, s, now).value])
    ensures !r.0.Created? ==> r.1 == db
  {
    if s.userId.None? then (Refused(401), db)
    else
      var id := NextRequestId(db.requests);
      match NewRequest(body, s, now)
      case Err(f) => (Failed(f), db)
      case Ok(req) => (Created(id), db.(requests := db.requests[id := req]))
  }

  /** Consecutive creations number requests consecutively. */
  lemma CreateRequestNumbersConsecutively(db: Store, s: Session, b1: Body, b2: Body, now: string)
    requires CreateRequest(db, s, b1, now).0.Created?
    requires CreateRequest(CreateRequest(db, s, b1, now).1, s, b2, now).0.Created?
    ensures CreateRequest(CreateRequest(db, s, b1, now).1, s, b2, now).0.requestId == CreateRequest(db, s, b1, now).0.requestId + 1
  {
    var first := CreateRequest(db, s, b1, now);
    var id := first.0.requestId;
    var after := first.1.requests;
    assert id in after && forall k :: k in after ==> k <= id;
    assert NextRequestId(after) == id + 1;
  }

  // ---------------------------------------------------------------------------
  // PUT /api/requests/<id>/assign
  // ---------------------------------------------------------------------------

  const InRepair := "В процессе ремонта"

  /** `session.get('user_name', 'Система')`. */
  function ChangedBy(s: Session): string {
    s.userName.GetOr("Система")
  }

  /**
   * `assign_master`: a staff caller naming an existing master assigns them.
   * The UPDATE touches the request only if it exists, but the history row
   * is written either way.
   */
  function AssignMaster(db: Store, s: Session, requestId: int, body: Body): (r: (Reply, Store))
    ensures r.0 == Done <==>
              && CanAssignMasters(s.userType)
              && "master_id" in body && JsonTruthy(body["master_id"])
              && JsonKey(body["master_id"]).Some? && JsonKey(body["master_id"]).value in db.masters.rows
    ensures r.0 != Done ==> r.1 == db
    ensures !CanAssignMasters(s.userType) ==> r.0 == Refused(403)
    ensures r.0 == Done ==>
              var k := JsonKey(body["master_id"]).value;
              var m := db.masters.rows[k];
              && r.1.users == db.users && r.1.masters == db.masters && r.1.comments == db.comments
              && r.1.history == db.history + [StatusChange(requestId, NewStatus, InRepair, ChangedBy(s), "Назначен мастер: " + m.fio)]
              && r.1.requests.Keys == db.requests.Keys
              && (forall j :: j in db.requests && j != requestId ==> r.1.requests[j] == db.requests[j])
              && (requestId in db.requests ==>
                    r.1.requests[requestId] == db.requests[requestId].(
                      masterId := Some(k), masterFio := Some(m.fio), masterPhone := Some(m.phone),
                      masterLogin := Some(m.login), status := InRepair))
  {
    if SessionRole(s.userType) !in ["admin", "manager", "operator"] then (Refused(403), db)
    else if "master_id" !in body || !JsonTruthy(body["master_id"]) then (Refused(400), db)
    else
      match JsonKey(body["master_id"])
      case None => (Refused(404), db)
      case Some(k) =>
        if k !in db.masters.rows then (Refused(404), db)
        else
          var m := db.masters.rows[k];
          var requests :=
            if requestId in db.requests then
              db.requests[requestId := db.requests[requestId].(
                masterId := Some(k), masterFio := Some(m.fio), masterPhone := Some(m.phone),
                masterLogin := Some(m.login), status := InRepair)]
            else db.requests;
          var change := StatusChange(requestId, NewStatus, InRepair, ChangedBy(s), "Назначен мастер: " + m.fio);
          (Done, db.(requests := requests, history := db.history + [change]))
  }

  // ---------------------------------------------------------------------------
  // POST /api/comments
  // ---------------------------------------------------------------------------

  /** `SELECT id FROM masters WHERE user_id = ?` for a master caller, first match. */
  function CallerMaster(db: Store, s: Session): (r: Option<int>)
    ensures s.userType != Some("master") || s.userId.None? ==> r.None?
    ensures r.Some? ==> r.value in db.masters.rows && Some(db.masters.rows[r.value].userId) == s.userId
    ensures s.userType == Some("master") && s.userId.Some? ==>
              (r.None? <==> forall k :: k in db.masters.rows ==> db.masters.rows[k].userId != s.userId.value)
    ensures r.Some? ==> forall k :: k in db.masters.rows && Some(db.masters.rows[k].userId) == s.userId ==> r.value <= k
  {
    if s.userType == Some("master") && s.userId.Some? then
      FirstWhere(db.masters.rows, (m: Master) => m.userId == s.userId.value)
    else None
  }

  /** The rows an `UPDATE service_requests ... WHERE request_id = ?` reaches for a JSON value. */
  function RequestKey(requests: map<int, ServiceRequest>, v: Json): (r: Option<int>)
    ensures r.Some? ==> r.value in requests && JsonKey(v) == r
    ensures r.None? ==> JsonKey(v).None? || JsonKey(v).value !in requests
  {
    if JsonKey(v).Some? && JsonKey(v).value in requests then JsonKey(v) else None
  }

  /** `COALESCE(repair_parts || ', ', '') || ?` as SQLite evaluates it. */
  function AppendParts(prior: Option<string>, added: string): (r: Option<string>)
    ensures prior.None? ==> r == Some(added)
    ensures prior.Some? ==> r == Some(prior.value + ", " + added)
  {
    var v := Concat(Coalesce(Concat(OfOption(prior), SqlText(", ")), SqlText("")), SqlText(added));
    assert "" + added == added;
    Some(TextOf(v))
  }

  /** The request as the two updates after a comment leave it. */
  function Commented(req: ServiceRequest, body: Body): (r: ServiceRequest)
    ensures r.hasComment
    ensures r == req.(hasComment := true, repairParts := r.repairParts)
  {
    var flagged := req.(hasComment := true);
    if "repair_parts" in body && JsonTruthy(body["repair_parts"]) then
      flagged.(repairParts := AppendParts(req.repairParts, JsonText(body["repair_parts"]).value))
    else flagged
  }

  /**
   * `add_comment`: a signed-in caller's comment is stored with the caller as
   * author (and, for a master, their masters row); the request it names is
   * flagged and, when parts are given, has them appended. A missing key or
   * a null `request_id` or `message` raises and nothing is committed.
   */
  function AddComment(db: Store, s: Session, body: Body): (r: (Reply, Store))
    ensures r.0 == Done <==>
              && s.userId.Some?
              && "request_id" in body && "message" in body
              && !body["request_id"].JNull? && !body["message"].JNull?
    ensures r.0 != Done ==> r.1 == db
    ensures s.userId.None? ==> r.0 == Refused(401)
    ensures r.0 == Done ==>
              && r.1.users == db.users && r.1.masters == db.masters && r.1.history == db.history
              && r.1.comments == db.comments + [Note(None, JsonInteger(body["request_id"]), CallerMaster(db, s), s.userId, s.userName, s.userType,
                                                     JsonText(body["message"]).value)]
              && r.1.requests.Keys == db.requests.Keys
              && (var target := RequestKey(db.requests, body["request_id"]);
                  && (forall j :: j in db.requests && Some(j) != target ==> r.1.requests[j] == db.requests[j])
                  && (target.Some? ==> r.1.requests[target.value] == Commented(db.requests[target.value], body)))
  {
    if s.userId.None? then (Refused(401), db)
    else
      var masterId := CallerMaster(db, s);
      match Read(body, "request_id")
      case Err(f) => (Failed(f), db)
      case Ok(requestId) =>
        match Read(body, "message")
        case Err(f) => (Failed(f), db)
        case Ok(message) =>
          if requestId.JNull? then (Failed(NotNullViolated("request_id")), db)
          else if message.JNull? then (Failed(NotNullViolated("message")), db)
          else
            var note := Note(None, JsonInteger(requestId), masterId, s.userId, s.userName, s.userType, JsonText(message).value);
            var requests :=
              match RequestKey(db.requests, requestId)
              case None => db.requests
              case Some(k) => db.requests[k := Commented(db.requests[k], body)];
            (Done, db.(comments := db.comments + [note], requests := requests))
  }

  /** Parts given with a comment are appended after a comma, or become the parts when there were none. */
  lemma AddCommentAppendsParts(db: Store, s: Session, body: Body, k: int, parts: string)
    requires AddComment(db, s, body).0 == Done
    requires RequestKey(db.requests, body["request_id"]) == Some(k)
    requires "repair_parts" in body && body["repair_parts"] == JStr(parts) && parts != ""
    ensures var after := AddComment(db, s, body).1.requests[k];
            && after.hasComment
            && after.repairParts == Some(if db.requests[k].repairParts.Some? then db.requests[k].repairParts.value + ", " + parts else parts)
  {
  }

  // ---------------------------------------------------------------------------
  // GET /api/requests and /api/requests/search
  // ---------------------------------------------------------------------------

  /** The masters row whose login is the caller's: `master_login` is UNIQUE, so at most one. */
  function MasterByLogin(db: Store, login: Option<string>): (r: Option<int>)
    ensures login.None? ==> r.None?
    ensures r.Some? ==> r.value in db.masters.rows && Some(db.masters.rows[r.value].login) == login
    ensures r.None? && login.Some? ==> forall k :: k in db.masters.rows ==> db.masters.rows[k].login != login.value
  {
    if login.None? then None
    else FirstWhere(db.masters.rows, (m: Master) => m.login == login.value)
  }

  /** `client_login = ?`: NULL on either side matches nothing. */
  predicate OwnedBy(req: ServiceRequest, login: Option<string>) {
    login.Some? && req.clientLogin == login
  }

  /**
   * `get_requests`: a client sees the requests filed under their login, a
   * master the requests assigned to their masters row (none without one),
   * everyone else, signed in or not, every request.
   */
  function ListRequests(db: Store, s: Session): (r: set<int>)
    ensures r <= db.requests.Keys
    ensures s.userType == Some("client") ==> forall k :: k in r ==> OwnedBy(db.requests[k], s.userLogin)
    ensures s.userType == Some("master") ==>
              forall k :: k in r ==> exists m :: m in db.masters.rows && Some(db.masters.rows[m].login) == s.userLogin && db.requests[k].masterId == Some(m)
    ensures s.userType != Some("client") && s.userType != Some("master") ==> r == db.requests.Keys
    ensures s.userType == Some("client") ==> forall k :: k in db.requests && OwnedBy(db.requests[k], s.userLogin) ==> k in r
    ensures s.userType == Some("master") && MasterByLogin(db, s.userLogin).None? ==> r == {}
    ensures s.userType == Some("master") && MasterByLogin(db, s.userLogin).Some? ==>
              forall k :: k in db.requests && db.requests[k].masterId == MasterByLogin(db, s.userLogin) ==> k in r
  {
    if s.userType == Some("client") then
      set k | k in db.requests && OwnedBy(db.requests[k], s.userLogin)
    else if s.userType == Some("master") then
      match MasterByLogin(db, s.userLogin)
      case None => {}
      case Some(m) => set k | k in db.requests && db.requests[k].masterId == Some(m)
    else db.requests.Keys
  }

  /** A client's listing is the selection of the requests filed under their login. */
  lemma ClientListingIsSelection(db: Store, s: Session)
    requires s.userType == Some("client")
    ensures ListRequests(db, s) == Where(db.requests, (q: ServiceRequest) => OwnedBy(q, s.userLogin))
  {
    var listed := ListRequests(db, s);
    var selected := Where(db.requests, (q: ServiceRequest) => OwnedBy(q, s.userLogin));
    assert forall k :: k in listed <==> k in selected;
  }

  /** A master's listing is the selection of the requests assigned to the masters row with their login. */
  lemma MasterListingIsSelection(db: Store, s: Session, m: int)
    requires s.userType == Some("master") && MasterByLogin(db, s.userLogin) == Some(m)
    ensures ListRequests(db, s) == Where(db.requests, (q: ServiceRequest) => q.masterId == Some(m))
  {
    var listed := ListRequests(db, s);
    var selected := Where(db.requests, (q: ServiceRequest) => q.masterId == Some(m));
    assert forall k :: k in listed <==> k in selected;
  }

  /**
   * After a successful assignment of an existing request, a master sees it
   * in their listing exactly when their login names the masters row it was
   * assigned to.
   */
  lemma AssignedRequestListed(db: Store, s: Session, requestId: int, body: Body, viewer: Session)
    requires AssignMaster(db, s, requestId, body).0 == Done && requestId in db.requests
    requires viewer.userType == Some("master")
    ensures (requestId in ListRequests(AssignMaster(db, s, requestId, body).1, viewer))
        <==> (MasterByLogin(db, viewer.userLogin) == JsonKey(body["master_id"]))
  {
  }

  /** Assigning the same master again leaves the requests as one assignment does, and logs the change once more. */
  lemma AssignMasterTwice(db: Store, s: Session, requestId: int, body: Body)
    requires AssignMaster(db, s, requestId, body).0 == Done
    ensures var once := AssignMaster(db, s, requestId, body).1;
      var twice := AssignMaster(once, s, requestId, body);
      && twice.0 == Done
      && twice.1.requests == once.requests
      && |once.history| > 0
      && twice.1.history == once.history + [once.history[|once.history| - 1]]
  {
  }

  /** `field LIKE '%q%'`: ASCII letters compare without case. */
  predicate Like(field: string, q: string) {
    Contains(AsciiLower(field), AsciiLower(q))
  }

  /** The six columns the search pattern is tried on (the id as decimal text). */
  predicate MatchesQuery(id: int, req: ServiceRequest, q: string) {
    || Like(Decimal(id), q)
    || Like(req.problem, q)
    || Like(req.clientFio, q)
    || Like(req.clientPhone, q)
    || Like(req.techType, q)
    || Like(req.techModel, q)
  }

  /** `search_requests`: the same role scoping as the list, with the pattern test added to each branch. */
  function SearchRequests(db: Store, s: Session, q: string): (r: set<int>)
    ensures forall k :: k in r <==> k in ListRequests(db, s) && MatchesQuery(k, db.requests[k], q)
  {
    if s.userType == Some("client") then
      set k | k in db.requests && OwnedBy(db.requests[k], s.userLogin) && MatchesQuery(k, db.requests[k], q)
    else if s.userType == Some("master") then
      match MasterByLogin(db, s.userLogin)
      case None => {}
      case Some(m) => set k | k in db.requests && db.requests[k].masterId == Some(m) && MatchesQuery(k, db.requests[k], q)
    else set k | k in db.requests && MatchesQuery(k, db.requests[k], q)
  }

  lemma ContainsEmpty(hay: string)
    ensures Contains(hay, "")
  {
  }

  /** An empty query finds exactly what the list shows. */
  lemma SearchEmptyIsList(db: Store, s: Session)
    ensures SearchRequests(db, s, "") == ListRequests(db, s)
  {
    forall k | k in db.requests
      ensures MatchesQuery(k, db.requests[k], "")
    {
      ContainsEmpty(AsciiLower(Decimal(k)));
    }
  }

  // ---------------------------------------------------------------------------
  // GET /api/stats (counts) and GET /api/template_comments
  // ---------------------------------------------------------------------------

  /** A subset is no larger than its superset. */
  lemma SubsetCardinality(a: set<int>, b: set<int>)
    requires a <= b
    ensures |a| <= |b|
  {
    assert b == a + (b - a);
  }

  /** `COUNT(*) ... WHERE p`. */
  function CountWhere(requests: map<int, ServiceRequest>, p: ServiceRequest -> bool): (n: nat)
    ensures n <= |requests.Keys|
  {
    var ids := Where(requests, p);
    SubsetCardinality(ids, requests.Keys);
    |ids|
  }

  const ReadyStatus := "Готова к выдаче"
  const FinishedStatus := "Завершена"

  predicate IsCompleted(req: ServiceRequest) {
    req.status == ReadyStatus || req.status == FinishedStatus
  }

  predicate IsInRepair(req: ServiceRequest) {
    req.status == InRepair
  }

  const Categories: seq<string> := ["Не работает", "Проблемы с охлаждением", "Шум/вибрация", "Проблемы с включением", "Другое"]

  /** The CASE expression of the problem statistics: the first pair of phrases found decides. */
  function Classify(problem: string): (r: string)
    ensures r in Categories
    ensures r == "Другое" <==>
              && !Contains(problem, "не работает") && !Contains(problem, "перестал")
              && !Contains(problem, "мороз") && !Contains(problem, "холод")
              && !Contains(problem, "гудит") && !Contains(problem, "шум")
              && !Contains(problem, "включаться") && !Contains(problem, "запуск")
    ensures Contains(problem, "не работает") || Contains(problem, "перестал") ==> r == "Не работает"
  {
    if Contains(problem, "не работает") || Contains(problem, "перестал") then "Не работает"
    else if Contains(problem, "мороз") || Contains(problem, "холод") then "Проблемы с охлаждением"
    else if Contains(problem, "гудит") || Contains(problem, "шум") then "Шум/вибрация"
    else if Contains(problem, "включаться") || Contains(problem, "запуск") then "Проблемы с включением"
    else "Другое"
  }

  datatype Stats = Stats(total: nat, completed: nat, inProcess: nat, problems: seq<nat>)

  predicate InCategory(req: ServiceRequest, category: string) {
    Classify(req.problem) == category
  }

  /** The requests of one category. */
  function CategoryIds(requests: map<int, ServiceRequest>, category: string): (ids: set<int>)
    ensures ids <= requests.Keys
    ensures forall k :: k in ids <==> k in requests && InCategory(requests[k], category)
  {
    set k | k in requests && InCategory(requests[k], category)
  }

  /** `COUNT(*)` of one `problem_type` group. */
  function ProblemCount(requests: map<int, ServiceRequest>, category: string): nat {
    |CategoryIds(requests, category)|
  }

  /** The counting part of `get_stats`; `problems` follows the order of `Categories`. */
  function GetStats(requests: map<int, ServiceRequest>): (r: Stats)
    ensures r.total == |requests.Keys|
    ensures r.completed == |set k | k in requests && IsCompleted(requests[k])|
    ensures r.inProcess == |set k | k in requests && IsInRepair(requests[k])|
    ensures |r.problems| == |Categories|
    ensures forall i :: 0 <= i < |Categories| ==> r.problems[i] == ProblemCount(requests, Categories[i])
  {
    assert Where(requests, IsCompleted) == set k | k in requests && IsCompleted(requests[k]);
    assert Where(requests, IsInRepair) == set k | k in requests && IsInRepair(requests[k]);
    Stats(|requests.Keys|,
          CountWhere(requests, IsCompleted),
          CountWhere(requests, IsInRepair),
          seq(|Categories|, i requires 0 <= i < |Categories| => ProblemCount(requests, Categories[i])))
  }

  /** Disjoint sets: the size of the union is the sum of the sizes. */
  lemma DisjointUnionCardinality(a: set<int>, b: set<int>)
    requires a * b == {}
    ensures |a + b| == |a| + |b|
  {
  }

  /** Every request is in the category its problem text classifies it under. */
  lemma CategoriesCover(requests: map<int, ServiceRequest>)
    ensures requests.Keys == CategoryIds(requests, Categories[0]) + CategoryIds(requests, Categories[1])
                             + CategoryIds(requests, Categories[2]) + CategoryIds(requests, Categories[3])
                             + CategoryIds(requests, Categories[4])
  {
    var all := CategoryIds(requests, Categories[0]) + CategoryIds(requests, Categories[1])
               + CategoryIds(requests, Categories[2]) + CategoryIds(requests, Categories[3])
               + CategoryIds(requests, Categories[4]);
    forall k | k in requests ensures k in all {
      CategoryOfRequest(requests, k);
    }
  }

  /** One request lies in one of the five categories. */
  lemma CategoryOfRequest(requests: map<int, ServiceRequest>, k: int)
    requires k in requests
    ensures k in CategoryIds(requests, Categories[0]) || k in CategoryIds(requests, Categories[1])
            || k in CategoryIds(requests, Categories[2]) || k in CategoryIds(requests, Categories[3])
            || k in CategoryIds(requests, Categories[4])
  {
    CategoryListed(Classify(requests[k].problem));
  }

  /** A listed category is one of the five entries. */
  lemma CategoryListed(c: string)
    requires c in Categories
    ensures c == Categories[0] || c == Categories[1] || c == Categories[2] || c == Categories[3] || c == Categories[4]
  {
  }

  /** Five pairwise disjoint sets: the size of their union is the sum of their sizes. */
  lemma FiveDisjoint(s0: set<int>, s1: set<int>, s2: set<int>, s3: set<int>, s4: set<int>)
    requires s0 * s1 == {} && s0 * s2 == {} && s0 * s3 == {} && s0 * s4 == {}
    requires s1 * s2 == {} && s1 * s3 == {} && s1 * s4 == {}
    requires s2 * s3 == {} && s2 * s4 == {} && s3 * s4 == {}
    ensures |s0 + s1 + s2 + s3 + s4| == |s0| + |s1| + |s2| + |s3| + |s4|
  {
    DisjointUnionCardinality(s0, s1);
    assert (s0 + s1) * s2 == {};
    DisjointUnionCardinality(s0 + s1, s2);
    assert (s0 + s1 + s2) * s3 == {};
    DisjointUnionCardinality(s0 + s1 + s2, s3);
    assert (s0 + s1 + s2 + s3) * s4 == {};
    DisjointUnionCardinality(s0 + s1 + s2 + s3, s4);
  }

  /** Different categories share no request. */
  lemma CategoriesDisjoint(requests: map<int, ServiceRequest>, a: string, b: string)
    requires a != b
    ensures CategoryIds(requests, a) * CategoryIds(requests, b) == {}
  {
  }

  /** Every request falls in exactly one problem category, so the category counts add up to the total. */
  lemma ProblemCountsPartition(requests: map<int, ServiceRequest>)
    ensures var st := GetStats(requests);
            st.problems[0] + st.problems[1] + st.problems[2] + st.problems[3] + st.problems[4] == st.total
  {
    var st := GetStats(requests);
    var c := Categories;
    var s0, s1, s2, s3, s4 := CategoryIds(requests, c[0]), CategoryIds(requests, c[1]), CategoryIds(requests, c[2]),
                              CategoryIds(requests, c[3]), CategoryIds(requests, c[4]);
    CategoriesCover(requests);
    CategoriesDisjoint(requests, c[0], c[1]);
    CategoriesDisjoint(requests, c[0], c[2]);
    CategoriesDisjoint(requests, c[0], c[3]);
    CategoriesDisjoint(requests, c[0], c[4]);
    CategoriesDisjoint(requests, c[1], c[2]);
    CategoriesDisjoint(requests, c[1], c[3]);
    CategoriesDisjoint(requests, c[1], c[4]);
    CategoriesDisjoint(requests, c[2], c[3]);
    CategoriesDisjoint(requests, c[2], c[4]);
    CategoriesDisjoint(requests, c[3], c[4]);
    FiveDisjoint(s0, s1, s2, s3, s4);
  }

  /** Completed and in-repair requests are disjoint, so together they never exceed the total. */
  lemma CompletedAndInRepairBounded(requests: map<int, ServiceRequest>)
    ensures var st := GetStats(requests);
            st.completed + st.inProcess <= st.total
  {
    var a := Where(requests, IsCompleted);
    var b := Where(requests, IsInRepair);
    DisjointUnionCardinality(a, b);
    SubsetCardinality(a + b, requests.Keys);
  }

  const DefaultTemplates: seq<string> := [
    "Интересная поломка",
    "Очень странно, будем разбираться!",
    "Скорее всего потребуется мотор обдува!",
    "Требуется замена детали",
    "Диагностика выполнена",
    "Ремонт завершен успешно"
  ]

  /** The messages of comments that came from the comments sheet (those with a `comment_id`). */
  function SheetMessages(comments: seq<Note>): (r: seq<string>)
    ensures forall m :: m in r <==> exists i :: 0 <= i < |comments| && comments[i].commentId.Some? && comments[i].message == m
  {
    if comments == [] then []
    else
      var rest := SheetMessages(comments[1..]);
      assert forall i :: 1 <= i < |comments| ==> comments[i] == comments[1..][i - 1];
      if comments[0].commentId.Some? then [comments[0].message] + rest else rest
  }

  /** `get_template_comments`: the distinct sheet messages in order, or the six built-in phrases when there are none. */
  function TemplateComments(comments: seq<Note>): (r: seq<string>)
    ensures (forall i :: 0 <= i < |comments| ==> comments[i].commentId.None?) ==> r == DefaultTemplates
    ensures (exists i :: 0 <= i < |comments| && comments[i].commentId.Some?) ==>
              && StrictlySorted(r)
              && forall m :: m in r <==> exists i :: 0 <= i < |comments| && comments[i].commentId.Some? && comments[i].message == m
  {
    var messages := SheetMessages(comments);
    var found := SortUnique(messages);
    assert forall i :: 0 <= i < |comments| && comments[i].commentId.Some? ==> comments[i].message in found;
    if found == [] then
      DefaultTemplates
    else
      assert found[0] in messages;
      found
  }
}

=== FILE: service_store.dfy ===
/**
 * The service-centre store (service_requests.db of App.py) and the three
 * spreadsheet loaders that fill it: users, requests, comments. The store
 * is a value; each loader reads a sheet row by row, and a row whose reading
 * or whose statement raises is skipped while the rows before it stay.
 *
 * Password hashing is a parameter (`hash`); "now" is a parameter; a sheet
 * that is missing is `None`.
 */
module ServiceStore {
  import opened Wrappers
  import opened Strings
  import opened Cells
  import opened Tables
  import opened Dates
  import opened Roles
  import opened SqlValues

  datatype Account = Account(login: string, passwordHash: string, fio: string, phone: string, userType: string)

  datatype Master = Master(userId: int, fio: string, phone: string, login: string, masterType: string)

  /** A row of `service_requests`, keyed by its `request_id`. */
  datatype ServiceRequest = ServiceRequest(
    start: string,
    techType: string,
    techModel: string,
    problem: string,
    status: string,
    completion: Option<string>,
    daysInProcess: Option<int>,
    repairParts: Option<string>,
    hasComment: bool,
    masterId: Option<int>,
    masterFio: Option<string>,
    masterPhone: Option<string>,
    masterLogin: Option<string>,
    masterType: Option<string>,
    clientId: Option<int>,
    clientFio: string,
    clientPhone: string,
    clientLogin: Option<string>,
    clientType: Option<string>)

  /** A row of `comments` in its current layout (the layout the schema repair produces). */
  datatype Note = Note(
    commentId: Option<int>,
    requestId: SqlValue,
    masterId: Option<int>,
    userId: Option<int>,
    userFio: Option<string>,
    userType: Option<string>,
    message: string)

  /** A row of `status_history`. */
  datatype StatusChange = StatusChange(requestId: int, oldStatus: string, newStatus: string, changedBy: string, comment: string)

  datatype Store = Store(
    users: Table<Account>,
    masters: Table<Master>,
    requests: map<int, ServiceRequest>,
    comments: seq<Note>,
    history: seq<StatusChange>)

  ghost predicate ValidStore(db: Store) {
    Valid(db.users) && Valid(db.masters)
  }

  /** `users.login` is UNIQUE. */
  ghost predicate UniqueLogins(users: map<int, Account>) {
    forall j, k :: j in users && k in users && j != k ==> users[j].login != users[k].login
  }

  /** `masters.master_login` is UNIQUE. */
  ghost predicate UniqueMasterLogins(masters: map<int, Master>) {
    forall j, k :: j in masters && k in masters && j != k ==> masters[j].login != masters[k].login
  }

  function HasLogin(users: map<int, Account>, login: string): bool {
    exists k :: k in users && users[k].login == login
  }

  function HasMasterLogin(masters: map<int, Master>, login: string): bool {
    exists k :: k in masters && masters[k].login == login
  }

  // ---------------------------------------------------------------------------
  // Statements on users and masters
  // ---------------------------------------------------------------------------

  /**
   * `INSERT OR REPLACE INTO users (id, login, ...)`: the rows clashing on the
   * key or on the login are deleted, then the row is written under `id`.
   */
  function ReplaceAccount(users: Table<Account>, id: int, a: Account): (r: Table<Account>)
    requires Valid(users)
    ensures Valid(r)
    ensures id in r.rows && r.rows[id] == a
    ensures forall k :: k in r.rows && k != id ==> k in users.rows && r.rows[k] == users.rows[k] && r.rows[k].login != a.login
    ensures forall k :: k in users.rows && k != id && users.rows[k].login != a.login ==> k in r.rows
    ensures UniqueLogins(users.rows) ==> UniqueLogins(r.rows)
  {
    var clash := Where(users.rows, (u: Account) => u.login == a.login) + {id};
    Put(Delete(users, clash), id, a)
  }

  /** Replacing the same row twice is replacing it once: an upsert converges. */
  lemma ReplaceAccountIdempotent(users: Table<Account>, id: int, a: Account)
    requires Valid(users)
    ensures ReplaceAccount(ReplaceAccount(users, id, a), id, a) == ReplaceAccount(users, id, a)
  {
    var once := ReplaceAccount(users, id, a);
    var twice := ReplaceAccount(once, id, a);
    assert twice.rows.Keys == once.rows.Keys;
  }

  /**
   * `INSERT OR REPLACE INTO masters (user_id, ...)` without an id: the row
   * with the same `master_login` is deleted and the new one takes a fresh id.
   */
  function ReplaceMaster(masters: Table<Master>, m: Master): (r: Table<Master>)
    requires Valid(masters)
    ensures Valid(r)
    ensures exists k :: k in r.rows && r.rows[k] == m && k !in masters.rows
    ensures forall k :: k in r.rows && r.rows[k].login == m.login ==> r.rows[k] == m && k !in masters.rows
    ensures forall k :: k in masters.rows && masters.rows[k].login != m.login ==> k in r.rows && r.rows[k] == masters.rows[k]
    ensures forall k :: k in r.rows && k in masters.rows ==> r.rows[k] == masters.rows[k]
    ensures UniqueMasterLogins(masters.rows) ==> UniqueMasterLogins(r.rows)
  {
    var kept := Delete(masters, Where(masters.rows, (x: Master) => x.login == m.login));
    var (t, k) := Append(kept, m);
    assert k in t.rows && t.rows[k] == m;
    t
  }

  /** `INSERT OR IGNORE INTO users (login, ...)`: nothing happens when the login is taken. */
  function InsertAccountOrIgnore(users: Table<Account>, a: Account): (r: Table<Account>)
    requires Valid(users)
    ensures Valid(r)
    ensures HasLogin(users.rows, a.login) ==> r == users
    ensures !HasLogin(users.rows, a.login) ==> exists k :: k !in users.rows && r.rows == users.rows[k := a]
    ensures HasLogin(r.rows, a.login)
    ensures forall k :: k in users.rows ==> k in r.rows && r.rows[k] == users.rows[k]
    ensures UniqueLogins(users.rows) ==> UniqueLogins(r.rows)
  {
    if HasLogin(users.rows, a.login) then users
    else
      var (t, k) := Append(users, a);
      assert k in t.rows && t.rows[k].login == a.login;
      t
  }

  /** `INSERT OR IGNORE INTO masters (...)`: nothing happens when the master login is taken. */
  function InsertMasterOrIgnore(masters: Table<Master>, m: Master): (r: Table<Master>)
    requires Valid(masters)
    ensures Valid(r)
    ensures HasMasterLogin(masters.rows, m.login) ==> r == masters
    ensures !HasMasterLogin(masters.rows, m.login) ==> exists k :: k !in masters.rows && r.rows == masters.rows[k := m]
    ensures HasMasterLogin(r.rows, m.login)
    ensures forall k :: k in masters.rows ==> k in r.rows && r.rows[k] == masters.rows[k]
    ensures UniqueMasterLogins(masters.rows) ==> UniqueMasterLogins(r.rows)
  {
    if HasMasterLogin(masters.rows, m.login) then masters
    else
      var (t, k) := Append(masters, m);
      assert k in t.rows && t.rows[k].login == m.login;
      t
  }

  // ---------------------------------------------------------------------------
  // create_default_users
  // ---------------------------------------------------------------------------

  datatype DefaultUser = DefaultUser(login: string, password: string, fio: string, phone: string, userType: string)

  const DefaultUsers: seq<DefaultUser> := [
    DefaultUser("admin", "admin123", "Администратор Системы", "88001234567", "admin"),
    DefaultUser("manager1", "manager123", "Менеджер 1", "89501112233", "admin"),
    DefaultUser("master1", "master123", "Мастер 1", "89502223344", "master"),
    DefaultUser("master2", "master123", "Мастер 2", "89503334455", "master"),
    DefaultUser("operator1", "operator123", "Оператор 1", "89504445566", "operator"),
    DefaultUser("client1", "client123", "Клиент 1", "89151234567", "client"),
    DefaultUser("client2", "client123", "Клиент 2", "89152345678", "client")
  ]

  /** The id of the user with this login, which the `users` insert just before guarantees. */
  function AccountIdOf(users: map<int, Account>, login: string): (r: int)
    requires HasLogin(users, login)
    ensures r in users && users[r].login == login
  {
    FirstWhere(users, (a: Account) => a.login == login).value
  }

  /** One default user: the account is inserted unless its login exists; a master also gets a masters row unless its login exists there. */
  function AddDefaultUser(db: Store, u: DefaultUser, hash: string -> string): (r: Store)
    requires ValidStore(db)
    ensures ValidStore(r)
    ensures r.requests == db.requests && r.comments == db.comments && r.history == db.history
    ensures HasLogin(r.users.rows, u.login)
    ensures u.userType == "master" ==> HasMasterLogin(r.masters.rows, u.login)
    ensures u.userType != "master" ==> r.masters == db.masters
    ensures HasLogin(db.users.rows, u.login) && (u.userType == "master" ==> HasMasterLogin(db.masters.rows, u.login)) ==> r == db
    ensures forall k :: k in db.users.rows ==> k in r.users.rows && r.users.rows[k] == db.users.rows[k]
    ensures forall k :: k in db.masters.rows ==> k in r.masters.rows && r.masters.rows[k] == db.masters.rows[k]
  {
    var users := InsertAccountOrIgnore(db.users, Account(u.login, hash(u.password), u.fio, u.phone, u.userType));
    var masters :=
      if u.userType == "master" then
        InsertMasterOrIgnore(db.masters, Master(AccountIdOf(users.rows, u.login), u.fio, u.phone, u.login, Specialist.Label()))
      else db.masters;
    db.(users := users, masters := masters)
  }

  /** The default users `us`, one after the other. */
  function AddDefaultUsers(db: Store, us: seq<DefaultUser>, hash: string -> string): (r: Store)
    requires ValidStore(db)
    ensures ValidStore(r)
    ensures r.requests == db.requests && r.comments == db.comments && r.history == db.history
    ensures forall u :: u in us ==> HasLogin(r.users.rows, u.login)
    ensures forall u :: u in us && u.userType == "master" ==> HasMasterLogin(r.masters.rows, u.login)
    ensures forall k :: k in db.users.rows ==> k in r.users.rows && r.users.rows[k] == db.users.rows[k]
    ensures forall k :: k in db.masters.rows ==> k in r.masters.rows && r.masters.rows[k] == db.masters.rows[k]
    decreases |us|
  {
    if us == [] then db
    else
      var next := AddDefaultUser(db, us[0], hash);
      var r := AddDefaultUsers(next, us[1..], hash);
      assert forall u :: u in us ==> u == us[0] || u in us[1..];
      assert HasLogin(next.users.rows, us[0].login);
      r
  }

  /** `create_default_users`: the seven built-in accounts, and masters rows for the two masters. */
  function CreateDefaultUsers(db: Store, hash: string -> string): (r: Store)
    requires ValidStore(db)
    ensures ValidStore(r)
    ensures forall u :: u in DefaultUsers ==> HasLogin(r.users.rows, u.login)
    ensures forall u :: u in DefaultUsers && u.userType == "master" ==> HasMasterLogin(r.masters.rows, u.login)
    ensures forall k :: k in db.users.rows ==> k in r.users.rows && r.users.rows[k] == db.users.rows[k]
    ensures r.requests == db.requests && r.comments == db.comments && r.history == db.history
  {
    AddDefaultUsers(db, DefaultUsers, hash)
  }

  /** Both built-in masters get a masters row. */
  lemma DefaultMastersCreated(db: Store, hash: string -> string)
    requires ValidStore(db)
    ensures HasMasterLogin(CreateDefaultUsers(db, hash).masters.rows, "master1")
    ensures HasMasterLogin(CreateDefaultUsers(db, hash).masters.rows, "master2")
  {
    var m1, m2 := DefaultUsers[2], DefaultUsers[3];
    assert m1 in DefaultUsers && m1.login == "master1" && m1.userType == "master";
    assert m2 in DefaultUsers && m2.login == "master2" && m2.userType == "master";
  }

  /** Once every login of `us` is present (and the masters' in `masters`), adding them changes nothing. */
  lemma {:induction false} AddDefaultUsersPresent(db: Store, us: seq<DefaultUser>, hash: string -> string)
    requires ValidStore(db)
    requires forall u :: u in us ==> HasLogin(db.users.rows, u.login)
    requires forall u :: u in us && u.userType == "master" ==> HasMasterLogin(db.masters.rows, u.login)
    ensures AddDefaultUsers(db, us, hash) == db
    decreases |us|
  {
    if us != [] {
      assert AddDefaultUser(db, us[0], hash) == db;
      assert forall u :: u in us[1..] ==> u in us;
      AddDefaultUsersPresent(db, us[1..], hash);
    }
  }

  /** Because every insert is `INSERT OR IGNORE`, running `create_default_users` again adds nothing. */
  lemma CreateDefaultUsersIdempotent(db: Store, hash: string -> string)
    requires ValidStore(db)
    ensures CreateDefaultUsers(CreateDefaultUsers(db, hash), hash) == CreateDefaultUsers(db, hash)
  {
    var once := CreateDefaultUsers(db, hash);
    var full := AddDefaultUsers(db, DefaultUsers, hash);
    assert once == full;
    AddDefaultUsersPresent(once, DefaultUsers, hash);
  }

  // ---------------------------------------------------------------------------
  // load_users_from_xlsx
  // ---------------------------------------------------------------------------

  /** `str(cell) if pd.notna(cell) else default`, and a cell written to a TEXT column. */
  function TextOr(c: Cell, default: string): (r: string)
    ensures c.Null? ==> r == default
    ensures !c.Null? ==> r == Str(c)
  {
    if NotNa(c) then Str(c) else default
  }

  /** `int(cell) if pd.notna(cell) else None`. */
  function OptionalInt(c: Cell): (r: Result<Option<int>, Fault>)
    ensures c.Null? ==> r == Ok(None)
    ensures !c.Null? ==> (r.Ok? <==> IntOf(c).Ok?)
    ensures !c.Null? && r.Ok? ==> r.value == Some(IntOf(c).value)
  {
    if NotNa(c) then
      var n :- IntOf(c);
      Ok(Some(n))
    else Ok(None)
  }

  /** What one users row becomes: its id and its account (the hash of its password). */
  datatype UserRow = UserRow(id: int, account: Account)

  /** The numbering the loader gives a row's defaults: its position plus one. */
  function Ordinal1(idx: nat): string {
    Decimal(idx + 1)
  }

  const UserColumns: seq<string> := ["userID", "type", "password", "login", "fio", "phone"]

  /** Reading one users row; a missing column or a `userID` that `int()` rejects raises. */
  function ReadUserRow(sheet: Sheet, row: Row, idx: nat, hash: string -> string): (r: Result<UserRow, Fault>)
    ensures r.Err? <==>
      || (exists c :: c in UserColumns && c !in sheet.columns)
      || (!CellAt(row, "userID").Null? && IntOf(CellAt(row, "userID")).Err?)
      || CellAt(row, "login").Stamp?
      || CellAt(row, "fio").Stamp?
    ensures r.Ok? ==>
      && r.value.id == (if CellAt(row, "userID").Null? then idx + 1 else IntOf(CellAt(row, "userID")).value)
      && r.value.account.userType == AppRoleOfCell(CellAt(row, "type"))
      && r.value.account.passwordHash == hash(TextOr(CellAt(row, "password"), "password123"))
      && r.value.account.login == TextOr(CellAt(row, "login"), "user" + Ordinal1(idx))
      && r.value.account.fio == TextOr(CellAt(row, "fio"), "Пользователь " + Ordinal1(idx))
      && r.value.account.phone == TextOr(CellAt(row, "phone"), "")
  {
    var idCell :- Field(sheet, row, "userID");
    var id :- if NotNa(idCell) then IntOf(idCell) else Ok(idx + 1);
    var typeCell :- Field(sheet, row, "type");
    var password :- Field(sheet, row, "password");
    var loginCell :- Field(sheet, row, "login");
    var fioCell :- Field(sheet, row, "fio");
    var phone :- Field(sheet, row, "phone");
    var login :- BoundText(loginCell, "user" + Ordinal1(idx));
    var fio :- BoundText(fioCell, "Пользователь " + Ordinal1(idx));
    Ok(UserRow(id, Account(
      login,
      hash(TextOr(password, "password123")),
      fio,
      TextOr(phone, ""),
      AppRoleOfCell(typeCell))))
  }

  /** The masters row the loader writes for a master's users row. */
  function MasterRowOf(u: UserRow): Master {
    Master(u.id, u.account.fio, u.account.phone, u.account.login, Specialist.Label())
  }

  /** The two statements for one read users row: the account, and for a master the masters row. */
  function ApplyUserRow(db: Store, u: UserRow): (r: Store)
    requires ValidStore(db)
    ensures ValidStore(r)
    ensures r.requests == db.requests && r.comments == db.comments && r.history == db.history
    ensures r.users == ReplaceAccount(db.users, u.id, u.account)
    ensures u.account.userType == "master" <==> r.masters != db.masters
    ensures UniqueMasterLogins(db.masters.rows) ==> UniqueMasterLogins(r.masters.rows)
    ensures u.account.userType == "master" ==>
              exists k :: k in r.masters.rows && k !in db.masters.rows && r.masters.rows[k] == MasterRowOf(u)
    ensures forall k :: k in db.masters.rows && db.masters.rows[k].login != u.account.login ==>
              k in r.masters.rows && r.masters.rows[k] == db.masters.rows[k]
  {
    var users := ReplaceAccount(db.users, u.id, u.account);
    if u.account.userType == "master" then
      var m := MasterRowOf(u);
      var masters := ReplaceMaster(db.masters, m);
      var k :| k in masters.rows && masters.rows[k] == m && k !in db.masters.rows;
      assert masters.rows != db.masters.rows;
      db.(users := users, masters := masters)
    else
      db.(users := users)
  }

  /** The users rows from position `idx` on; a row that raises is skipped. */
  function LoadUserRows(db: Store, sheet: Sheet, idx: nat, hash: string -> string): (r: Store)
    requires ValidStore(db) && idx <= |sheet.rows|
    ensures ValidStore(r)
    ensures r.requests == db.requests && r.comments == db.comments && r.history == db.history
    ensures UniqueLogins(db.users.rows) ==> UniqueLogins(r.users.rows)
    ensures UniqueMasterLogins(db.masters.rows) ==> UniqueMasterLogins(r.masters.rows)
    decreases |sheet.rows| - idx
  {
    if idx == |sheet.rows| then db
    else
      var next :=
        match ReadUserRow(sheet, sheet.rows[idx], idx, hash)
        case Err(_) => db
        case Ok(u) => ApplyUserRow(db, u);
      LoadUserRows(next, sheet, idx + 1, hash)
  }

  /** Row `j` of the users sheet reads, and no later row that reads shares its id or its login. */
  ghost predicate Survives(sheet: Sheet, j: nat, hash: string -> string)
    requires j < |sheet.rows|
  {
    var u := ReadUserRow(sheet, sheet.rows[j], j, hash);
    && u.Ok?
    && forall i :: j < i < |sheet.rows| && ReadUserRow(sheet, sheet.rows[i], i, hash).Ok? ==>
         && ReadUserRow(sheet, sheet.rows[i], i, hash).value.id != u.value.id
         && ReadUserRow(sheet, sheet.rows[i], i, hash).value.account.login != u.value.account.login
  }

  /** A stored account whose id and login no row from `idx` on shares stays as it is. */
  lemma {:induction false} LoadUserRowsKeeps(db: Store, sheet: Sheet, idx: nat, hash: string -> string, k: int)
    requires ValidStore(db) && idx <= |sheet.rows| && k in db.users.rows
    requires forall i :: idx <= i < |sheet.rows| && ReadUserRow(sheet, sheet.rows[i], i, hash).Ok? ==>
               && ReadUserRow(sheet, sheet.rows[i], i, hash).value.id != k
               && ReadUserRow(sheet, sheet.rows[i], i, hash).value.account.login != db.users.rows[k].login
    ensures var r := LoadUserRows(db, sheet, idx, hash); k in r.users.rows && r.users.rows[k] == db.users.rows[k]
    decreases |sheet.rows| - idx
  {
    if idx < |sheet.rows| {
      var read := ReadUserRow(sheet, sheet.rows[idx], idx, hash);
      var next := if read.Ok? then ApplyUserRow(db, read.value) else db;
      assert LoadUserRows(db, sheet, idx, hash) == LoadUserRows(next, sheet, idx + 1, hash);
      assert k in next.users.rows && next.users.rows[k] == db.users.rows[k];
      LoadUserRowsKeeps(next, sheet, idx + 1, hash, k);
    }
  }

  /** A masters row whose login no row from `idx` on shares stays as it is. */
  lemma {:induction false} LoadUserRowsKeepsMaster(db: Store, sheet: Sheet, idx: nat, hash: string -> string, k: int)
    requires ValidStore(db) && idx <= |sheet.rows| && k in db.masters.rows
    requires forall i :: idx <= i < |sheet.rows| && ReadUserRow(sheet, sheet.rows[i], i, hash).Ok? ==>
               ReadUserRow(sheet, sheet.rows[i], i, hash).value.account.login != db.masters.rows[k].login
    ensures var r := LoadUserRows(db, sheet, idx, hash); k in r.masters.rows && r.masters.rows[k] == db.masters.rows[k]
    decreases |sheet.rows| - idx
  {
    if idx < |sheet.rows| {
      var read := ReadUserRow(sheet, sheet.rows[idx], idx, hash);
      var next := if read.Ok? then ApplyUserRow(db, read.value) else db;
      assert LoadUserRows(db, sheet, idx, hash) == LoadUserRows(next, sheet, idx + 1, hash);
      assert k in next.masters.rows && next.masters.rows[k] == db.masters.rows[k];
      LoadUserRowsKeepsMaster(next, sheet, idx + 1, hash, k);
    }
  }

  /**
   * The users rows from position `idx` on: a row that reads, and that no
   * later row overrides by id or by login, is stored under its id, and a
   * master among them also has its masters row.
   */
  lemma {:induction false} LoadUserRowsSurvivors(db: Store, sheet: Sheet, idx: nat, hash: string -> string)
    requires ValidStore(db) && idx <= |sheet.rows|
    ensures var r := LoadUserRows(db, sheet, idx, hash);
      forall j :: idx <= j < |sheet.rows| && Survives(sheet, j, hash) ==>
        var u := ReadUserRow(sheet, sheet.rows[j], j, hash).value;
        && u.id in r.users.rows && r.users.rows[u.id] == u.account
        && (u.account.userType == "master" ==> exists k :: k in r.masters.rows && r.masters.rows[k] == MasterRowOf(u))
    decreases |sheet.rows| - idx
  {
    if idx < |sheet.rows| {
      var r := LoadUserRows(db, sheet, idx, hash);
      var read := ReadUserRow(sheet, sheet.rows[idx], idx, hash);
      var next := if read.Ok? then ApplyUserRow(db, read.value) else db;
      assert r == LoadUserRows(next, sheet, idx + 1, hash);
      LoadUserRowsSurvivors(next, sheet, idx + 1, hash);
      forall j | idx <= j < |sheet.rows| && Survives(sheet, j, hash)
        ensures var u := ReadUserRow(sheet, sheet.rows[j], j, hash).value;
          && u.id in r.users.rows && r.users.rows[u.id] == u.account
          && (u.account.userType == "master" ==> exists k :: k in r.masters.rows && r.masters.rows[k] == MasterRowOf(u))
      {
        if j == idx {
          var u := read.value;
          LoadUserRowsKeeps(next, sheet, idx + 1, hash, u.id);
          if u.account.userType == "master" {
            var k :| k in next.masters.rows && k !in db.masters.rows && next.masters.rows[k] == MasterRowOf(u);
            LoadUserRowsKeepsMaster(next, sheet, idx + 1, hash, k);
          }
        }
      }
    }
  }

  /** `load_users_from_xlsx`: without a users sheet the default users are created instead. */
  function LoadUsers(db: Store, source: Option<Sheet>, hash: string -> string): (r: Store)
    requires ValidStore(db)
    ensures ValidStore(r)
    ensures r.requests == db.requests && r.comments == db.comments && r.history == db.history
    ensures source.None? ==> r == CreateDefaultUsers(db, hash)
    ensures source.Some? && UniqueLogins(db.users.rows) ==> UniqueLogins(r.users.rows)
    ensures source.Some? && UniqueMasterLogins(db.masters.rows) ==> UniqueMasterLogins(r.masters.rows)
    ensures source.Some? ==> forall j :: 0 <= j < |source.value.rows| && Survives(source.value, j, hash) ==>
              var u := ReadUserRow(source.value, source.value.rows[j], j, hash).value;
              && u.id in r.users.rows && r.users.rows[u.id] == u.account
              && (u.account.userType == "master" ==> exists k :: k in r.masters.rows && r.masters.rows[k] == MasterRowOf(u))
  {
    match source
    case None => CreateDefaultUsers(db, hash)
    case Some(sheet) =>
      LoadUserRowsSurvivors(db, sheet, 0, hash);
      LoadUserRows(db, sheet, 0, hash)
  }

  // ---------------------------------------------------------------------------
  // load_requests_from_xlsx
  // ---------------------------------------------------------------------------

  /** `'Мастер' if master_id else ''`: an id of 0 counts as no master. */
  function MasterTypeFor(masterId: Option<int>): string {
    if masterId.Some? && masterId.value != 0 then Specialist.Label() else ""
  }

  const NewStatus := "Новая заявка"
  const UnknownClient := "Неизвестный клиент"

  /**
   * A cell bound to a statement as it is, or `default` when it is NaN; a
   * timestamp cannot be bound and raises.
   */
  function BoundText(c: Cell, default: string): (r: Result<string, Fault>)
    ensures r.Err? <==> c.Stamp?
    ensures r.Ok? ==> r.value == TextOr(c, default)
  {
    match OfCell(c)
    case Err(e) => Err(e)
    case Ok(_) => Ok(TextOr(c, default))
  }

  /** `row[c]` for each column in turn: a KeyError when the sheet lacks any of them. */
  function Fields(sheet: Sheet, row: Row, cols: seq<string>): (r: Result<seq<Cell>, Fault>)
    ensures r.Err? <==> exists c :: c in cols && c !in sheet.columns
    ensures r.Ok? ==> |r.value| == |cols| && forall i :: 0 <= i < |cols| ==> r.value[i] == CellAt(row, cols[i])
  {
    if |cols| == 0 then Ok([])
    else
      var first :- Field(sheet, row, cols[0]);
      var rest :- Fields(sheet, row, cols[1..]);
      Ok([first] + rest)
  }

  /** Cells bound as they are, each with its default for NaN: a timestamp in any of them raises. */
  function BoundTexts(row: Row, cols: seq<string>, defaults: seq<string>): (r: Result<seq<string>, Fault>)
    requires |defaults| == |cols|
    ensures r.Err? <==> exists c :: c in cols && CellAt(row, c).Stamp?
    ensures r.Ok? ==> |r.value| == |cols| && forall i :: 0 <= i < |cols| ==> r.value[i] == TextOr(CellAt(row, cols[i]), defaults[i])
  {
    if |cols| == 0 then Ok([])
    else
      var first :- BoundText(CellAt(row, cols[0]), defaults[0]);
      var rest :- BoundTexts(row, cols[1..], defaults[1..]);
      Ok([first] + rest)
  }

  const CombinedColumns: seq<string> := [
    "client_id", "master_id", "master_fio", "master_phone", "master_login", "request_id", "start_date",
    "tech_type", "tech_model", "problem_description", "request_status", "completion_date", "days_in_process",
    "repair_parts", "has_comment", "client_fio", "client_phone", "client_login", "client_type"]

  /** The combined export's columns that go through `int()`. */
  const CombinedIntColumns: seq<string> := ["client_id", "master_id", "request_id", "days_in_process"]

  /** The combined export's columns bound without conversion. */
  const CombinedRawColumns: seq<string> := [
    "master_fio", "master_login", "start_date", "tech_type", "tech_model", "problem_description",
    "request_status", "completion_date", "repair_parts", "client_fio", "client_login", "client_type"]

  /** The combined export's `int()` conversions: the client and master ids, the request id and the days in process. */
  function CombinedInts(row: Row, idx: nat): (r: Result<(Option<int>, Option<int>, int, int), Fault>)
    ensures r.Err? <==> exists c :: c in CombinedIntColumns && !CellAt(row, c).Null? && IntOf(CellAt(row, c)).Err?
    ensures r.Ok? ==> var (clientId, masterId, id, days) := r.value;
      && OptionalInt(CellAt(row, "client_id")) == Ok(clientId)
      && OptionalInt(CellAt(row, "master_id")) == Ok(masterId)
      && (if CellAt(row, "request_id").Null? then id == idx + 1 else IntOf(CellAt(row, "request_id")) == Ok(id))
      && (if CellAt(row, "days_in_process").Null? then days == 0 else IntOf(CellAt(row, "days_in_process")) == Ok(days))
  {
    var clientId :- OptionalInt(CellAt(row, "client_id"));
    var masterId :- OptionalInt(CellAt(row, "master_id"));
    var idCell := CellAt(row, "request_id");
    var id :- if NotNa(idCell) then IntOf(idCell) else Ok(idx + 1);
    var daysCell := CellAt(row, "days_in_process");
    var days :- if NotNa(daysCell) then IntOf(daysCell) else Ok(0);
    Ok((clientId, masterId, id, days))
  }

  /** The combined defaults for NaN, in the order of `CombinedRawColumns`. */
  function CombinedDefaults(now: string): seq<string> {
    ["", "", now, "", "", "", NewStatus, "", "", UnknownClient, "", "client"]
  }

  /** The request a combined row describes, once its integers and raw texts are bound. */
  function CombinedRequest(row: Row, now: string, clientId: Option<int>, masterId: Option<int>, days: int, texts: seq<string>): (r: ServiceRequest)
    requires |texts| == |CombinedRawColumns|
    requires forall i :: 0 <= i < |texts| ==> texts[i] == TextOr(CellAt(row, CombinedRawColumns[i]), CombinedDefaults(now)[i])
    ensures && r.start == TextOr(CellAt(row, "start_date"), now)
      && r.techType == TextOr(CellAt(row, "tech_type"), "")
      && r.techModel == TextOr(CellAt(row, "tech_model"), "")
      && r.problem == TextOr(CellAt(row, "problem_description"), "")
      && r.status == TextOr(CellAt(row, "request_status"), NewStatus)
      && r.completion == (if CellAt(row, "completion_date").Null? then None else Some(Str(CellAt(row, "completion_date"))))
      && r.daysInProcess == Some(days)
      && r.repairParts == Some(TextOr(CellAt(row, "repair_parts"), ""))
      && r.hasComment == (!CellAt(row, "has_comment").Null? && Truthy(CellAt(row, "has_comment")))
      && r.masterId == masterId
      && r.masterFio == Some(TextOr(CellAt(row, "master_fio"), ""))
      && r.masterPhone == Some(TextOr(CellAt(row, "master_phone"), ""))
      && r.masterLogin == Some(TextOr(CellAt(row, "master_login"), ""))
      && r.masterType == Some(MasterTypeFor(r.masterId))
      && r.clientId == clientId
      && r.clientFio == TextOr(CellAt(row, "client_fio"), UnknownClient)
      && r.clientPhone == TextOr(CellAt(row, "client_phone"), "")
      && r.clientLogin == Some(TextOr(CellAt(row, "client_login"), ""))
      && r.clientType == Some(TextOr(CellAt(row, "client_type"), "client"))
  {
    var flag := CellAt(row, "has_comment");
    assert CombinedDefaults(now) == ["", "", now, "", "", "", NewStatus, "", "", UnknownClient, "", "client"];
    assert CombinedRawColumns[..6] == ["master_fio", "master_login", "start_date", "tech_type", "tech_model", "problem_description"];
    assert CombinedRawColumns[6..] == ["request_status", "completion_date", "repair_parts", "client_fio", "client_login", "client_type"];
    assert texts[7] == TextOr(CellAt(row, "completion_date"), "");
    ServiceRequest(
      texts[2], texts[3], texts[4], texts[5], texts[6],
      if NotNa(CellAt(row, "completion_date")) then Some(texts[7]) else None,
      Some(days),
      Some(texts[8]),
      NotNa(flag) && Truthy(flag),
      masterId, Some(texts[0]), Some(TextOr(CellAt(row, "master_phone"), "")), Some(texts[1]), Some(MasterTypeFor(masterId)),
      clientId, texts[9], TextOr(CellAt(row, "client_phone"), ""), Some(texts[10]), Some(texts[11]))
  }

  /**
   * A row of the combined export, whose columns already carry the request's
   * own names: it raises on a missing column, on an integer column `int()`
   * rejects, and on a timestamp in a column bound as it is. Which of these
   * is raised first is not modelled; the loader skips the row either way.
   */
  function ReadCombinedRow(sheet: Sheet, row: Row, idx: nat, now: string): (r: Result<(int, ServiceRequest), Fault>)
    ensures r.Err? <==>
      || (exists c :: c in CombinedColumns && c !in sheet.columns)
      || (exists c :: c in CombinedIntColumns && !CellAt(row, c).Null? && IntOf(CellAt(row, c)).Err?)
      || (exists c :: c in CombinedRawColumns && CellAt(row, c).Stamp?)
    ensures r.Ok? ==> var (id, q) := r.value;
      && (if CellAt(row, "request_id").Null? then id == idx + 1 else IntOf(CellAt(row, "request_id")) == Ok(id))
      && q.start == TextOr(CellAt(row, "start_date"), now)
      && q.techType == TextOr(CellAt(row, "tech_type"), "")
      && q.techModel == TextOr(CellAt(row, "tech_model"), "")
      && q.problem == TextOr(CellAt(row, "problem_description"), "")
      && q.status == TextOr(CellAt(row, "request_status"), NewStatus)
      && q.completion == (if CellAt(row, "completion_date").Null? then None else Some(Str(CellAt(row, "completion_date"))))
      && q.daysInProcess.Some?
      && (if CellAt(row, "days_in_process").Null? then q.daysInProcess.value == 0
          else IntOf(CellAt(row, "days_in_process")) == Ok(q.daysInProcess.value))
      && q.repairParts == Some(TextOr(CellAt(row, "repair_parts"), ""))
      && q.hasComment == (!CellAt(row, "has_comment").Null? && Truthy(CellAt(row, "has_comment")))
      && OptionalInt(CellAt(row, "master_id")) == Ok(q.masterId)
      && q.masterFio == Some(TextOr(CellAt(row, "master_fio"), ""))
      && q.masterPhone == Some(TextOr(CellAt(row, "master_phone"), ""))
      && q.masterLogin == Some(TextOr(CellAt(row, "master_login"), ""))
      && q.masterType == Some(MasterTypeFor(q.masterId))
      && OptionalInt(CellAt(row, "client_id")) == Ok(q.clientId)
      && q.clientFio == TextOr(CellAt(row, "client_fio"), UnknownClient)
      && q.clientPhone == TextOr(CellAt(row, "client_phone"), "")
      && q.clientLogin == Some(TextOr(CellAt(row, "client_login"), ""))
      && q.clientType == Some(TextOr(CellAt(row, "client_type"), "client"))
  {
    var cells :- Fields(sheet, row, CombinedColumns);
    var ints :- CombinedInts(row, idx);
    var (clientId, masterId, id, days) := ints;
    var texts :- BoundTexts(row, CombinedRawColumns, CombinedDefaults(now));
    Ok((id, CombinedRequest(row, now, clientId, masterId, days, texts)))
  }


  /** `SELECT ... FROM users WHERE id = ?`: NULL matches no row. */
  function ClientOf(users: map<int, Account>, clientId: Option<int>): Option<Account> {
    if clientId.Some? && clientId.value in users then Some(users[clientId.value]) else None
  }

  /** The master row is looked up only for a truthy master id. */
  function MasterOf(masters: map<int, Master>, masterId: Option<int>): Option<Master> {
    if masterId.Some? && masterId.value != 0 && masterId.value in masters then Some(masters[masterId.value]) else None
  }

  /** `start_date` as the loader normalises it: the cell's text, or the current time for an empty cell. */
  function StartText(c: Cell, now: string): string {
    TextOr(c, now)
  }

  /** The original requests sheet's columns bound without conversion. */
  const InputRawColumns: seq<string> := ["homeTechType", "homeTechModel", "problemDescryption", "requestStatus", "repairParts"]

  /** Every column the loader reads from a row of the original requests sheet. */
  const InputColumns: seq<string> := ["clientID", "masterID", "startDate", "completionDate", "requestID"] + InputRawColumns

  /**
   * A row of the original requests sheet, with client and master details
   * taken from the store; the dates are rendered as text first, the other
   * text cells are bound as they are.
   */
  function ReadInputRow(users: map<int, Account>, masters: map<int, Master>, sheet: Sheet, row: Row, now: string): (r: Result<(int, ServiceRequest), Fault>)
    ensures r.Ok? ==> var (id, q) := r.value;
      && IntOf(CellAt(row, "requestID")) == Ok(id)
      && q.start == StartText(CellAt(row, "startDate"), now)
      && q.completion == (if CellAt(row, "completionDate").Null? then None else Some(Str(CellAt(row, "completionDate"))))
      && q.daysInProcess == DaysInProcess(q.start, q.completion)
      && q.techType == TextOr(CellAt(row, "homeTechType"), "")
      && q.techModel == TextOr(CellAt(row, "homeTechModel"), "")
      && q.problem == TextOr(CellAt(row, "problemDescryption"), "")
      && q.status == TextOr(CellAt(row, "requestStatus"), NewStatus)
      && q.repairParts == Some(TextOr(CellAt(row, "repairParts"), ""))
      && !q.hasComment
      && OptionalInt(CellAt(row, "clientID")) == Ok(q.clientId)
      && OptionalInt(CellAt(row, "masterID")) == Ok(q.masterId)
      && (var client := ClientOf(users, q.clientId);
          && (client.Some? ==> q.clientFio == client.value.fio && q.clientPhone == client.value.phone
                               && q.clientLogin == Some(client.value.login) && q.clientType == Some(client.value.userType))
          && (client.None? ==> q.clientFio == UnknownClient && q.clientPhone == ""
                               && q.clientLogin == Some("") && q.clientType == Some("client")))
      && (var master := MasterOf(masters, q.masterId);
          && (master.Some? ==> q.masterFio == Some(master.value.fio) && q.masterPhone == Some(master.value.phone)
                               && q.masterLogin == Some(master.value.login) && q.masterType == Some(Specialist.Label()))
          && (master.None? ==> q.masterFio == Some("") && q.masterPhone == Some("")
                               && q.masterLogin == Some("") && q.masterType == Some("")))
    ensures r.Err? <==>
      || (exists c :: c in InputColumns && c !in sheet.columns)
      || OptionalInt(CellAt(row, "clientID")).Err?
      || OptionalInt(CellAt(row, "masterID")).Err?
      || IntOf(CellAt(row, "requestID")).Err?
      || (exists c :: c in InputRawColumns && CellAt(row, c).Stamp?)
    ensures CellAt(row, "requestID").Null? ==> r.Err?
  {
    var clientCell :- Field(sheet, row, "clientID");
    var clientId :- OptionalInt(clientCell);
    var masterCell :- Field(sheet, row, "masterID");
    var masterId :- OptionalInt(masterCell);
    var client := ClientOf(users, clientId);
    var master := MasterOf(masters, masterId);
    var startCell :- Field(sheet, row, "startDate");
    var start := StartText(startCell, now);
    var completionCell :- Field(sheet, row, "completionDate");
    var completion := if NotNa(completionCell) then Some(Str(completionCell)) else None;
    var days := DaysInProcess(start, completion);
    var idCell :- Field(sheet, row, "requestID");
    var id :- IntOf(idCell);
    var cells :- Fields(sheet, row, InputRawColumns);
    // binding the parameters: the cells passed as they are must be bindable
    var texts :- BoundTexts(row, InputRawColumns, ["", "", "", NewStatus, ""]);
    Ok((id, ServiceRequest(
      start, texts[0], texts[1], texts[2], texts[3],
      completion, days, Some(texts[4]),
      false,
      masterId,
      Some(if master.Some? then master.value.fio else ""),
      Some(if master.Some? then master.value.phone else ""),
      Some(if master.Some? then master.value.login else ""),
      Some(if master.Some? then Specialist.Label() else ""),
      clientId,
      if client.Some? then client.value.fio else UnknownClient,
      if client.Some? then client.value.phone else "",
      Some(if client.Some? then client.value.login else ""),
      Some(if client.Some? then client.value.userType else "client"))))
  }

  /** `INSERT OR REPLACE INTO service_requests`: the row with the same `request_id` is replaced whole. */
  function ReadRequestRow(users: map<int, Account>, masters: map<int, Master>, sheet: Sheet, idx: nat, now: string): Result<(int, ServiceRequest), Fault>
    requires idx < |sheet.rows|
  {
    if "client_id" in sheet.columns then ReadCombinedRow(sheet, sheet.rows[idx], idx, now)
    else ReadInputRow(users, masters, sheet, sheet.rows[idx], now)
  }

  /**
   * The request that the last row from position `idx` on that reads as
   * request `k` describes; `None` when no such row reads successfully.
   */
  function LastRead(users: map<int, Account>, masters: map<int, Master>, sheet: Sheet, idx: nat, now: string, k: int): Option<ServiceRequest>
    requires idx <= |sheet.rows|
    decreases |sheet.rows| - idx
  {
    if idx == |sheet.rows| then None
    else
      var later := LastRead(users, masters, sheet, idx + 1, now, k);
      var here := ReadRequestRow(users, masters, sheet, idx, now);
      if later.Some? then later
      else if here.Ok? && here.value.0 == k then Some(here.value.1)
      else None
  }

  /**
   * The requests rows from position `idx` on; a row that raises is skipped.
   * Each request id ends up with the last row that reads as it, and the
   * requests no row names keep their value.
   */
  function LoadRequestRows(db: Store, sheet: Sheet, idx: nat, now: string): (r: Store)
    requires idx <= |sheet.rows|
    ensures r.users == db.users && r.masters == db.masters && r.comments == db.comments && r.history == db.history
    ensures db.requests.Keys <= r.requests.Keys
    ensures forall k :: k in r.requests && k !in db.requests ==>
              exists j :: idx <= j < |sheet.rows| && ReadRequestRow(db.users.rows, db.masters.rows, sheet, j, now).Ok?
                                  && ReadRequestRow(db.users.rows, db.masters.rows, sheet, j, now).value.0 == k
    ensures forall k :: k in r.requests <==> k in db.requests || LastRead(db.users.rows, db.masters.rows, sheet, idx, now, k).Some?
    ensures forall k :: k in r.requests ==>
              r.requests[k] == match LastRead(db.users.rows, db.masters.rows, sheet, idx, now, k)
                               case Some(q) => q
                               case None => db.requests[k]
    decreases |sheet.rows| - idx
  {
    if idx == |sheet.rows| then db
    else
      match ReadRequestRow(db.users.rows, db.masters.rows, sheet, idx, now)
      case Err(_) => LoadRequestRows(db, sheet, idx + 1, now)
      case Ok((id, req)) =>
        var next := db.(requests := db.requests[id := req]);
        LoadRequestRows(next, sheet, idx + 1, now)
  }

  /** `load_requests_from_xlsx`: nothing happens without a requests sheet. */
  function LoadRequests(db: Store, source: Option<Sheet>, now: string): (r: Store)
    ensures r.users == db.users && r.masters == db.masters && r.comments == db.comments && r.history == db.history
    ensures db.requests.Keys <= r.requests.Keys
    ensures source.None? ==> r == db
    ensures source.Some? ==> forall k :: k in r.requests <==>
              k in db.requests || LastRead(db.users.rows, db.masters.rows, source.value, 0, now, k).Some?
    ensures source.Some? ==> forall k :: k in r.requests ==>
              r.requests[k] == match LastRead(db.users.rows, db.masters.rows, source.value, 0, now, k)
                               case Some(q) => q
                               case None => db.requests[k]
  {
    match source
    case None => db
    case Some(sheet) => LoadRequestRows(db, sheet, 0, now)
  }

  /** One request id after loading a sheet twice: the second load writes what the first one did. */
  lemma LoadRequestsTwiceAt(db: Store, sheet: Sheet, now: string, k: int)
    ensures var once := LoadRequests(db, Some(sheet), now);
            var twice := LoadRequests(once, Some(sheet), now);
            && (k in twice.requests <==> k in once.requests)
            && (k in once.requests ==> twice.requests[k] == once.requests[k])
  {
    var once := LoadRequests(db, Some(sheet), now);
    var last := LastRead(db.users.rows, db.masters.rows, sheet, 0, now, k);
    assert LastRead(once.users.rows, once.masters.rows, sheet, 0, now, k) == last;
  }

  /** Loading the same requests sheet again changes nothing: every row is an upsert by request id. */
  lemma LoadRequestsIdempotent(db: Store, source: Option<Sheet>, now: string)
    ensures LoadRequests(LoadRequests(db, source, now), source, now) == LoadRequests(db, source, now)
  {
    if source.Some? {
      LoadRequestsTwiceRows(db, source.value, now);
    }
  }

  /** The requests table after loading a sheet twice is the one after loading it once. */
  lemma LoadRequestsTwiceRows(db: Store, sheet: Sheet, now: string)
    ensures LoadRequests(LoadRequests(db, Some(sheet), now), Some(sheet), now).requests == LoadRequests(db, Some(sheet), now).requests
  {
    var once := LoadRequests(db, Some(sheet), now);
    var twice := LoadRequests(once, Some(sheet), now);
    forall k
      ensures (k in twice.requests <==> k in once.requests) && (k in once.requests ==> twice.requests[k] == once.requests[k])
    {
      LoadRequestsTwiceAt(db, sheet, now, k);
    }
  }

  // ---------------------------------------------------------------------------
  // load_comments_from_xlsx
  // ---------------------------------------------------------------------------

  /**
   * A comment row's author, from the masters and users read before the
   * loop: the master's user, name and that user's type (`'master'` when the
   * user is unknown); an unknown or missing master leaves all three NULL.
   */
  function AuthorOf(users: map<int, Account>, masters: map<int, Master>, masterId: Option<int>): (r: (Option<int>, Option<string>, Option<string>))
    ensures masterId.None? || masterId.value !in masters ==> r == (None, None, None)
    ensures masterId.Some? && masterId.value in masters ==>
      var m := masters[masterId.value];
      && r.0 == Some(m.userId) && r.1 == Some(m.fio)
      && (m.userId in users ==> r.2 == Some(users[m.userId].userType))
      && (m.userId !in users ==> r.2 == Some("master"))
  {
    if masterId.Some? && masterId.value in masters then
      var m := masters[masterId.value];
      (Some(m.userId), Some(m.fio), Some(if m.userId in users then users[m.userId].userType else "master"))
    else (None, None, None)
  }

  /** Sets `has_comment` on the request with this id, if there is one. */
  function MarkCommented(requests: map<int, ServiceRequest>, id: int): (r: map<int, ServiceRequest>)
    ensures r.Keys == requests.Keys
    ensures id in r ==> r[id].hasComment
    ensures forall k :: k in r ==> r[k] == (if k == id then requests[k].(hasComment := true) else requests[k])
  {
    if id in requests then requests[id := requests[id].(hasComment := true)] else requests
  }

  const CommentColumns: seq<string> := ["commentID", "requestID", "masterID", "message"]

  /** The comments sheet's columns that go through `int()`. */
  const CommentIntColumns: seq<string> := ["commentID", "requestID", "masterID"]

  /**
   * The comment one row inserts: it raises on a missing column, on an id
   * `int()` rejects, on a timestamp message, and on a NaN request id, which
   * `request_id NOT NULL` refuses.
   */
  function ReadCommentRow(users: map<int, Account>, masters: map<int, Master>, sheet: Sheet, row: Row): (r: Result<Note, Fault>)
    ensures r.Err? <==>
      || (exists c :: c in CommentColumns && c !in sheet.columns)
      || (exists c :: c in CommentIntColumns && !CellAt(row, c).Null? && IntOf(CellAt(row, c)).Err?)
      || CellAt(row, "requestID").Null?
      || CellAt(row, "message").Stamp?
    ensures r.Ok? ==>
      && OptionalInt(CellAt(row, "commentID")) == Ok(r.value.commentId)
      && r.value.requestId.SqlInt? && IntOf(CellAt(row, "requestID")) == Ok(r.value.requestId.i)
      && OptionalInt(CellAt(row, "masterID")) == Ok(r.value.masterId)
      && (r.value.userId, r.value.userFio, r.value.userType) == AuthorOf(users, masters, r.value.masterId)
      && r.value.message == TextOr(CellAt(row, "message"), "")
  {
    var commentCell :- Field(sheet, row, "commentID");
    var commentId :- OptionalInt(commentCell);
    var requestCell :- Field(sheet, row, "requestID");
    var requestId :- OptionalInt(requestCell);
    var masterCell :- Field(sheet, row, "masterID");
    var masterId :- OptionalInt(masterCell);
    var author := AuthorOf(users, masters, masterId);
    var messageCell :- Field(sheet, row, "message");
    // binding the parameters, then the NOT NULL constraint
    var message :- BoundText(messageCell, "");
    if requestId.None? then Err(NotNullViolated("request_id"))
    else Ok(Note(commentId, SqlInt(requestId.value), masterId, author.0, author.1, author.2, message))
  }

  /** One comments row: the comment is appended, then its request is flagged when its id is truthy. */
  function ApplyCommentRow(db: Store, sheet: Sheet, row: Row): (r: Result<Store, Fault>)
    ensures r.Ok? <==> ReadCommentRow(db.users.rows, db.masters.rows, sheet, row).Ok?
    ensures r.Ok? ==>
      && r.value.users == db.users && r.value.masters == db.masters && r.value.history == db.history
      && r.value.comments == db.comments + [ReadCommentRow(db.users.rows, db.masters.rows, sheet, row).value]
      && r.value.requests.Keys == db.requests.Keys
      && (var k := r.value.comments[|db.comments|].requestId.i;
          forall j :: j in db.requests ==>
            r.value.requests[j] == (if j == k && k != 0 then db.requests[j].(hasComment := true) else db.requests[j]))
    ensures CellAt(row, "requestID").Null? ==> r.Err?
  {
    var note :- ReadCommentRow(db.users.rows, db.masters.rows, sheet, row);
    var id := note.requestId.i;
    Ok(db.(comments := db.comments + [note], requests := if id != 0 then MarkCommented(db.requests, id) else db.requests))
  }

  /** The comments the rows from position `idx` on insert, in sheet order: one for each row that does not raise. */
  function SheetNotes(users: map<int, Account>, masters: map<int, Master>, sheet: Sheet, idx: nat): seq<Note>
    requires idx <= |sheet.rows|
    decreases |sheet.rows| - idx
  {
    if idx == |sheet.rows| then []
    else
      (match ReadCommentRow(users, masters, sheet, sheet.rows[idx])
       case Ok(note) => [note]
       case Err(_) => [])
      + SheetNotes(users, masters, sheet, idx + 1)
  }

  /** Some comment among `notes` names request `k`, and `k` is truthy. */
  predicate NotedIn(notes: seq<Note>, k: int) {
    k != 0 && exists i :: 0 <= i < |notes| && notes[i].requestId == SqlInt(k)
  }

  lemma NotedInCons(note: Note, notes: seq<Note>, k: int)
    ensures NotedIn([note] + notes, k) <==> (k != 0 && note.requestId == SqlInt(k)) || NotedIn(notes, k)
  {
    var all := [note] + notes;
    if k != 0 && note.requestId == SqlInt(k) {
      assert all[0] == note;
    }
    if NotedIn(all, k) {
      var i :| 0 <= i < |all| && all[i].requestId == SqlInt(k);
      if i > 0 {
        assert notes[i - 1] == all[i];
      }
    }
    if NotedIn(notes, k) {
      var i :| 0 <= i < |notes| && notes[i].requestId == SqlInt(k);
      assert all[i + 1] == notes[i];
    }
  }

  /** The comments rows from position `idx` on; a row that raises is skipped. */
  function LoadCommentRows(db: Store, sheet: Sheet, idx: nat): (r: Store)
    requires idx <= |sheet.rows|
    ensures r.users == db.users && r.masters == db.masters && r.history == db.history
    ensures r.requests.Keys == db.requests.Keys
    ensures |r.comments| >= |db.comments| && r.comments[..|db.comments|] == db.comments
    ensures forall k :: k in db.requests && db.requests[k].hasComment ==> r.requests[k].hasComment
    decreases |sheet.rows| - idx
  {
    if idx == |sheet.rows| then db
    else
      match ApplyCommentRow(db, sheet, sheet.rows[idx])
      case Err(_) => LoadCommentRows(db, sheet, idx + 1)
      case Ok(next) =>
        var r := LoadCommentRows(next, sheet, idx + 1);
        assert r.comments[..|db.comments|] == next.comments[..|next.comments|][..|db.comments|];
        r
  }

  /** `request.hasComment` as the comments `notes` leave it: set when one of them names request `k`. */
  function FlaggedBy(request: ServiceRequest, notes: seq<Note>, k: int): ServiceRequest {
    request.(hasComment := request.hasComment || NotedIn(notes, k))
  }

  /** Flagging by one comment and then by the rest is flagging by all of them. */
  lemma FlaggedStep(before: map<int, ServiceRequest>, after: map<int, ServiceRequest>, note: Note, rest: seq<Note>, k: int)
    requires note.requestId.SqlInt? && after.Keys == before.Keys && k in before
    requires forall j :: j in before ==>
               after[j] == (if j == note.requestId.i && note.requestId.i != 0 then before[j].(hasComment := true) else before[j])
    ensures FlaggedBy(after[k], rest, k) == FlaggedBy(before[k], [note] + rest, k)
  {
    NotedInCons(note, rest, k);
  }

  /** The comments rows from position `idx` on append the comments of the rows that do not raise, in sheet order. */
  lemma {:induction false} LoadCommentRowsNotes(db: Store, sheet: Sheet, idx: nat)
    requires idx <= |sheet.rows|
    ensures LoadCommentRows(db, sheet, idx).comments == db.comments + SheetNotes(db.users.rows, db.masters.rows, sheet, idx)
    decreases |sheet.rows| - idx
  {
    if idx < |sheet.rows| {
      var r := LoadCommentRows(db, sheet, idx);
      var rest := SheetNotes(db.users.rows, db.masters.rows, sheet, idx + 1);
      var read := ReadCommentRow(db.users.rows, db.masters.rows, sheet, sheet.rows[idx]);
      var applied := ApplyCommentRow(db, sheet, sheet.rows[idx]);
      if read.Err? {
        assert applied.Err? && r == LoadCommentRows(db, sheet, idx + 1);
        LoadCommentRowsNotes(db, sheet, idx + 1);
      } else {
        var next := applied.value;
        assert r == LoadCommentRows(next, sheet, idx + 1);
        assert SheetNotes(db.users.rows, db.masters.rows, sheet, idx) == [read.value] + rest;
        assert next.users == db.users && next.masters == db.masters && next.comments == db.comments + [read.value];
        LoadCommentRowsNotes(next, sheet, idx + 1);
      }
    }
  }

  /** The comments rows from position `idx` on flag exactly the requests the comments they append name. */
  lemma {:induction false} LoadCommentRowsFlags(db: Store, sheet: Sheet, idx: nat)
    requires idx <= |sheet.rows|
    ensures var r := LoadCommentRows(db, sheet, idx);
            var notes := SheetNotes(db.users.rows, db.masters.rows, sheet, idx);
            forall k :: k in db.requests ==> r.requests[k] == FlaggedBy(db.requests[k], notes, k)
    decreases |sheet.rows| - idx
  {
    if idx < |sheet.rows| {
      var r := LoadCommentRows(db, sheet, idx);
      var notes := SheetNotes(db.users.rows, db.masters.rows, sheet, idx);
      var rest := SheetNotes(db.users.rows, db.masters.rows, sheet, idx + 1);
      var read := ReadCommentRow(db.users.rows, db.masters.rows, sheet, sheet.rows[idx]);
      var applied := ApplyCommentRow(db, sheet, sheet.rows[idx]);
      if read.Err? {
        assert applied.Err? && r == LoadCommentRows(db, sheet, idx + 1) && notes == rest;
        LoadCommentRowsFlags(db, sheet, idx + 1);
      } else {
        var next := applied.value;
        var note := read.value;
        assert r == LoadCommentRows(next, sheet, idx + 1);
        assert notes == [note] + rest;
        assert next.users == db.users && next.masters == db.masters;
        LoadCommentRowsFlags(next, sheet, idx + 1);
        forall k | k in db.requests
          ensures r.requests[k] == FlaggedBy(db.requests[k], notes, k)
        {
          FlaggedStep(db.requests, next.requests, note, rest, k);
        }
      }
    }
  }

  /**
   * The comments rows from position `idx` on append the comments of the rows
   * that do not raise, in sheet order, and flag exactly the requests those
   * comments name.
   */
  lemma LoadCommentRowsAppends(db: Store, sheet: Sheet, idx: nat)
    requires idx <= |sheet.rows|
    ensures var r := LoadCommentRows(db, sheet, idx);
            var notes := SheetNotes(db.users.rows, db.masters.rows, sheet, idx);
            && r.comments == db.comments + notes
            && forall k :: k in db.requests ==> r.requests[k] == FlaggedBy(db.requests[k], notes, k)
  {
    LoadCommentRowsNotes(db, sheet, idx);
    LoadCommentRowsFlags(db, sheet, idx);
  }

  /** `load_comments_from_xlsx`: nothing happens without a comments sheet. */
  function LoadComments(db: Store, source: Option<Sheet>): (r: Store)
    ensures r.users == db.users && r.masters == db.masters && r.history == db.history
    ensures r.requests.Keys == db.requests.Keys
    ensures |r.comments| >= |db.comments| && r.comments[..|db.comments|] == db.comments
    ensures forall k :: k in db.requests && db.requests[k].hasComment ==> r.requests[k].hasComment
    ensures source.None? ==> r == db
    ensures source.Some? ==> r.comments == db.comments + SheetNotes(db.users.rows, db.masters.rows, source.value, 0)
    ensures source.Some? ==> forall k :: k in db.requests ==>
              r.requests[k] == FlaggedBy(db.requests[k], SheetNotes(db.users.rows, db.masters.rows, source.value, 0), k)
  {
    match source
    case None => db
    case Some(sheet) =>
      LoadCommentRowsAppends(db, sheet, 0);
      LoadCommentRows(db, sheet, 0)
  }

  /** The request a comment names, when it is truthy and stored, is flagged. */
  predicate FlagsRequest(requests: map<int, ServiceRequest>, note: Note) {
    note.requestId.SqlInt? && note.requestId.i != 0 && note.requestId.i in requests ==> requests[note.requestId.i].hasComment
  }

  /** Every stored comment has flagged the request it names. */
  ghost predicate CommentsFlagged(db: Store) {
    forall i :: 0 <= i < |db.comments| ==> FlagsRequest(db.requests, db.comments[i])
  }

  /** Loading comments keeps every commented request flagged, old comments and new. */
  lemma LoadCommentsKeepsFlags(db: Store, source: Option<Sheet>)
    requires CommentsFlagged(db)
    ensures CommentsFlagged(LoadComments(db, source))
  {
    var r := LoadComments(db, source);
    if source.Some? {
      var notes := SheetNotes(db.users.rows, db.masters.rows, source.value, 0);
      forall i | 0 <= i < |r.comments|
        ensures FlagsRequest(r.requests, r.comments[i])
      {
        if i >= |db.comments| {
          assert notes[i - |db.comments|] == r.comments[i];
        } else {
          assert r.comments[i] == db.comments[i];
          assert FlagsRequest(db.requests, db.comments[i]);
        }
      }
    }
  }

  /**
   * Loading the same comments sheet twice inserts its comments twice (the
   * comments have no key to replace on), and flags nothing more.
   */
  lemma LoadCommentsTwice(db: Store, sheet: Sheet)
    ensures var once := LoadComments(db, Some(sheet));
            var notes := SheetNotes(db.users.rows, db.masters.rows, sheet, 0);
            && LoadComments(once, Some(sheet)).comments == db.comments + notes + notes
            && LoadComments(once, Some(sheet)).requests == once.requests
  {
    var once := LoadComments(db, Some(sheet));
    var twice := LoadComments(once, Some(sheet));
    var notes := SheetNotes(db.users.rows, db.masters.rows, sheet, 0);
    assert SheetNotes(once.users.rows, once.masters.rows, sheet, 0) == notes;
    forall k | k in once.requests
      ensures twice.requests[k] == once.requests[k]
    {
      assert once.requests[k] == FlaggedBy(db.requests[k], notes, k);
    }
    assert twice.requests == once.requests;
  }

  /** `load_all_data`: users, then requests, then comments. */
  function LoadAllData(db: Store, users: Option<Sheet>, requests: Option<Sheet>, comments: Option<Sheet>,
                       hash: string -> string, now: string): (r: Store)
    requires ValidStore(db)
    ensures ValidStore(r)
    ensures r.history == db.history
    ensures |r.comments| >= |db.comments| && r.comments[..|db.comments|] == db.comments
  {
    var afterUsers := LoadUsers(db, users, hash);
    var afterRequests := LoadRequests(afterUsers, requests, now);
    LoadComments(afterRequests, comments)
  }
}

=== FILE: sql.dfy ===
/**
 * SQLite values as the statements of both stores see them: NULL, an
 * integer or text. Covers how Python values are bound, the integer
 * affinity of an `INTEGER` column, SQLite's cross-type ordering used by
 * `>=` and `<=` (NULL makes a comparison unknown), `||` and `COALESCE`.
 */
module SqlValues {
  import opened Wrappers
  import opened Strings
  import opened Cells

  datatype SqlValue = SqlNull | SqlInt(i: int) | SqlText(s: string)

  /** A Python `None` or a string, as bound to a statement parameter. */
  function OfOption(v: Option<string>): (r: SqlValue)
    ensures r.SqlNull? <==> v.None?
  {
    match v
    case None => SqlNull
    case Some(s) => SqlText(s)
  }

  /**
   * A pandas cell passed to sqlite3 as a parameter: NaN becomes NULL, an
   * integer and text bind as themselves, and a timestamp raises, because
   * sqlite3 looks adapters up by the exact type and has none for
   * `pd.Timestamp`.
   */
  function OfCell(c: Cell): (r: Result<SqlValue, Fault>)
    ensures r.Err? <==> c.Stamp?
    ensures r.Ok? ==> (r.value.SqlNull? <==> c.Null?)
    ensures r.Ok? && r.value.SqlText? ==> r.value.s == Str(c)
    ensures r.Ok? && r.value.SqlInt? ==> c == Int(r.value.i)
  {
    match c
    case Null => Ok(SqlNull)
    case Int(i) => Ok(SqlInt(i))
    case Text(s) => Ok(SqlText(s))
    case Stamp(_) => Err(UnsupportedType)
  }

  /** The affinity of an `INTEGER` column: text that spells an integer is stored as that integer. */
  function IntegerAffinity(v: SqlValue): (r: SqlValue)
    ensures r.SqlNull? <==> v.SqlNull?
    ensures v.SqlInt? ==> r == v
    ensures r.SqlText? ==> r == v && ParseInt(v.s).None?
  {
    match v
    case SqlText(s) =>
      (match ParseInt(s)
       case Some(n) => SqlInt(n)
       case None => v)
    case _ => v
  }

  /** The affinity of a `TEXT` column: an integer is stored as its decimal text. */
  function TextAffinity(v: SqlValue): (r: SqlValue)
    ensures r.SqlNull? <==> v.SqlNull?
    ensures v.SqlText? ==> r == v
    ensures v.SqlInt? ==> r.SqlText? && ParseInt(r.s) == Some(v.i)
  {
    match v
    case SqlInt(i) =>
      DecimalRoundTrip(i);
      SqlText(Decimal(i))
    case _ => v
  }

  /** SQLite's ordering of two non-NULL values: every integer sorts before every text. */
  predicate Below(a: SqlValue, b: SqlValue)
    requires !a.SqlNull? && !b.SqlNull?
  {
    match (a, b)
    case (SqlInt(x), SqlInt(y)) => x < y
    case (SqlInt(_), SqlText(_)) => true
    case (SqlText(_), SqlInt(_)) => false
    case (SqlText(x), SqlText(y)) => LexLess(x, y)
  }

  /** `a >= b`: unknown (None) when either side is NULL. */
  function AtLeast(a: SqlValue, b: SqlValue): Option<bool> {
    if a.SqlNull? || b.SqlNull? then None else Some(!Below(a, b))
  }

  /** `a <= b`: unknown (None) when either side is NULL. */
  function AtMost(a: SqlValue, b: SqlValue): Option<bool> {
    if a.SqlNull? || b.SqlNull? then None else Some(!Below(b, a))
  }

  /** A WHERE clause keeps a row only when its condition is true, not unknown. */
  predicate Holds(c: Option<bool>) {
    c == Some(true)
  }

  /** `a = b` in a WHERE clause: NULL equals nothing. */
  predicate SqlEq(a: SqlValue, b: SqlValue) {
    !a.SqlNull? && a == b
  }

  /** `>=` and `<=` are mirror images, and exactly one of `<` and `>=` holds of two non-NULL values. */
  lemma AtLeastMirrorsAtMost(a: SqlValue, b: SqlValue)
    ensures AtLeast(a, b) == AtMost(b, a)
    ensures !a.SqlNull? && !b.SqlNull? ==> (Holds(AtLeast(a, b)) <==> !Below(a, b))
    ensures Holds(AtLeast(a, b)) && Holds(AtMost(a, b)) ==> a == b
  {
    if !a.SqlNull? && !b.SqlNull? && Holds(AtLeast(a, b)) && Holds(AtMost(a, b)) {
      if a.SqlText? && b.SqlText? {
        LexTrichotomy(a.s, b.s);
      }
    }
  }

  /** SQLite's order on non-NULL values is transitive, so range filters compose. */
  lemma BelowTransitive(a: SqlValue, b: SqlValue, c: SqlValue)
    requires !a.SqlNull? && !b.SqlNull? && !c.SqlNull?
    requires Below(a, b) && Below(b, c)
    ensures Below(a, c)
  {
    if a.SqlText? && b.SqlText? && c.SqlText? {
      LexTransitive(a.s, b.s, c.s);
    }
  }

  /** The text of a value in `||`: integers print in decimal. */
  function TextOf(v: SqlValue): string
    requires !v.SqlNull?
  {
    match v
    case SqlInt(i) => Decimal(i)
    case SqlText(s) => s
  }

  /** `a || b`: NULL when either side is NULL. */
  function Concat(a: SqlValue, b: SqlValue): (r: SqlValue)
    ensures r.SqlNull? <==> a.SqlNull? || b.SqlNull?
    ensures !r.SqlNull? ==> r.SqlText? && r.s == TextOf(a) + TextOf(b)
  {
    if a.SqlNull? || b.SqlNull? then SqlNull else SqlText(TextOf(a) + TextOf(b))
  }

  /** `COALESCE(a, b)`. */
  function Coalesce(a: SqlValue, b: SqlValue): (r: SqlValue)
    ensures a.SqlNull? ==> r == b
    ensures !a.SqlNull? ==> r == a
  {
    if a.SqlNull? then b else a
  }
}

=== FILE: strings.dfy ===
/**
 * Text operations the source relies on implicitly: Python's ordering of
 * `str` (and SQLite's BINARY collation, which agrees with it on UTF-8 text),
 * `sorted(set(...))`, substring tests (`LIKE '%q%'`), ASCII case folding
 * (`str.lower()` on ASCII names, SQLite's LIKE), decimal rendering of
 * integers (`str(n)`, `printf('%06d', n)`) and `int(text)`.
 */
module Strings {
  import opened Wrappers

  // ---------------------------------------------------------------------------
  // Lexicographic order
  // ---------------------------------------------------------------------------

  /** Code-point lexicographic order; a proper prefix sorts first. */
  predicate LexLess(a: string, b: string)
    decreases |a|
  {
    if |a| == 0 then |b| > 0
    else if |b| == 0 then false
    else if a[0] != b[0] then a[0] < b[0]
    else LexLess(a[1..], b[1..])
  }

  /** `a <= b` on Python strings; `b >= a` in an SQLite TEXT comparison. */
  predicate LexLe(a: string, b: string) {
    a == b || LexLess(a, b)
  }

  lemma LexIrreflexive(a: string)
    ensures !LexLess(a, a)
  {
  }

  lemma LexTrichotomy(a: string, b: string)
    ensures a == b || LexLess(a, b) || LexLess(b, a)
    decreases |a|
  {
    if |a| > 0 && |b| > 0 && a[0] == b[0] {
      LexTrichotomy(a[1..], b[1..]);
      if a[1..] == b[1..] {
        assert a == [a[0]] + a[1..] && b == [b[0]] + b[1..];
      }
    }
  }

  lemma LexAsymmetric(a: string, b: string)
    requires LexLess(a, b)
    ensures !LexLess(b, a)
    decreases |a|
  {
    if |a| > 0 && |b| > 0 && a[0] == b[0] {
      LexAsymmetric(a[1..], b[1..]);
    }
  }

  lemma LexTransitive(a: string, b: string, c: string)
    requires LexLess(a, b) && LexLess(b, c)
    ensures LexLess(a, c)
    decreases |a|
  {
    if |a| > 0 && |b| > 0 && |c| > 0 && a[0] == b[0] && b[0] == c[0] {
      LexTransitive(a[1..], b[1..], c[1..]);
    }
  }

  // ---------------------------------------------------------------------------
  // Sorted, duplicate-free sequences: `sorted(set(xs))`
  // ---------------------------------------------------------------------------

  predicate StrictlySorted(s: seq<string>) {
    forall i, j :: 0 <= i < j < |s| ==> LexLess(s[i], s[j])
  }

  /** Adds `x` to a strictly sorted sequence, keeping it strictly sorted. */
  function InsertSorted(x: string, s: seq<string>): (r: seq<string>)
    requires StrictlySorted(s)
    ensures StrictlySorted(r)
    ensures forall y :: y in r <==> y in s || y == x
    ensures |r| <= |s| + 1
  {
    if |s| == 0 then [x]
    else if x == s[0] then s
    else if LexLess(x, s[0]) then
      assert forall j :: 0 < j < |s| ==> LexLess(s[0], s[j]);
      LexLessAllAfter(x, s);
      [x] + s
    else
      LexTrichotomy(x, s[0]);
      var rest := InsertSorted(x, s[1..]);
      assert forall y :: y in rest ==> LexLess(s[0], y) by {
        forall y | y in rest
          ensures LexLess(s[0], y)
        {
          if y != x {
            var j :| 0 <= j < |s[1..]| && s[1..][j] == y;
            assert s[j + 1] == y;
          }
        }
      }
      [s[0]] + rest
  }

  /** A value below the head of a strictly sorted sequence is below all of it. */
  lemma LexLessAllAfter(x: string, s: seq<string>)
    requires StrictlySorted(s) && |s| > 0 && LexLess(x, s[0])
    ensures StrictlySorted([x] + s)
  {
    forall j | 0 < j < |s|
      ensures LexLess(x, s[j])
    {
      LexTransitive(x, s[0], s[j]);
    }
  }

  /** The distinct elements of `xs` in ascending order: Python's `sorted(set(xs))`. */
  function SortUnique(xs: seq<string>): (r: seq<string>)
    ensures StrictlySorted(r)
    ensures forall y :: y in r <==> y in xs
    ensures |r| <= |xs|
  {
    if |xs| == 0 then []
    else
      var r := InsertSorted(xs[|xs| - 1], SortUnique(xs[..|xs| - 1]));
      assert forall y :: y in xs <==> y in xs[..|xs| - 1] || y == xs[|xs| - 1] by {
        assert xs == xs[..|xs| - 1] + [xs[|xs| - 1]];
      }
      r
  }

  /** A strictly sorted sequence has no repeated element. */
  lemma StrictlySortedDistinct(s: seq<string>, i: int, j: int)
    requires StrictlySorted(s) && 0 <= i < |s| && 0 <= j < |s| && i != j
    ensures s[i] != s[j]
  {
    if i < j {
      if s[i] == s[j] {
        LexIrreflexive(s[i]);
      }
    } else {
      if s[i] == s[j] {
        LexIrreflexive(s[j]);
      }
    }
  }

  lemma HeadIsMember(b: seq<string>)
    ensures |b| > 0 ==> b[0] in b
  {
  }

  /** Two strictly sorted sequences with the same elements are equal. */
  lemma {:induction false} SortedUnique(a: seq<string>, b: seq<string>)
    requires StrictlySorted(a) && StrictlySorted(b)
    requires forall y :: y in a <==> y in b
    ensures a == b
    decreases |a|
  {
    if |a| == 0 {
      HeadIsMember(b);
    } else {
      assert |b| > 0 by {
        assert a[0] in a;
      }
      // Both heads are the least element of the common set.
      assert a[0] == b[0] by {
        assert a[0] in b && b[0] in a;
        var i :| 0 <= i < |b| && b[i] == a[0];
        var j :| 0 <= j < |a| && a[j] == b[0];
        if a[0] != b[0] {
          assert i != 0 && j != 0;
          assert LexLess(b[0], a[0]);
          assert LexLess(a[0], b[0]);
          LexAsymmetric(a[0], b[0]);
        }
      }
      forall y
        ensures y in a[1..] <==> y in b[1..]
      {
        if y in a[1..] {
          var k :| 0 <= k < |a[1..]| && a[1..][k] == y;
          StrictlySortedDistinct(a, 0, k + 1);
          assert y in b;
          var m :| 0 <= m < |b| && b[m] == y;
          assert m != 0;
          assert b[1..][m - 1] == y;
        }
        if y in b[1..] {
          var k :| 0 <= k < |b[1..]| && b[1..][k] == y;
          StrictlySortedDistinct(b, 0, k + 1);
          assert y in a;
          var m :| 0 <= m < |a| && a[m] == y;
          assert m != 0;
          assert a[1..][m - 1] == y;
        }
      }
      SortedUnique(a[1..], b[1..]);
      assert a == [a[0]] + a[1..] && b == [b[0]] + b[1..];
    }
  }

  // ---------------------------------------------------------------------------
  // Substrings and case folding
  // ---------------------------------------------------------------------------

  predicate StartsWith(s: string, prefix: string) {
    |prefix| <= |s| && s[..|prefix|] == prefix
  }

  /** `needle` occurs somewhere in `hay`: SQL `hay LIKE '%needle%'` without wildcards. */
  predicate Contains(hay: string, needle: string)
    decreases |hay|
  {
    StartsWith(hay, needle) || (|hay| > 0 && Contains(hay[1..], needle))
  }

  function AsciiLowerChar(c: char): char {
    if 'A' <= c <= 'Z' then (c as int + 32) as char else c
  }

  /** Folds ASCII capitals only, as SQLite's LIKE and LOWER do. */
  function AsciiLower(s: string): string {
    seq(|s|, i requires 0 <= i < |s| => AsciiLowerChar(s[i]))
  }

  // ---------------------------------------------------------------------------
  // Decimal integers
  // ---------------------------------------------------------------------------

  predicate IsDigit(c: char) {
    '0' <= c <= '9'
  }

  predicate AllDigits(s: string) {
    forall i :: 0 <= i < |s| ==> IsDigit(s[i])
  }

  function DigitChar(d: int): char
    requires 0 <= d < 10
  {
    ('0' as int + d) as char
  }

  /** The decimal digits of `n`, without leading zeros. */
  function Digits(n: nat): string
  {
    if n < 10 then [DigitChar(n)] else Digits(n / 10) + [DigitChar(n % 10)]
  }

  /** The value of a string of decimal digits (leading zeros allowed). */
  function DigitsValue(s: string): nat
    requires AllDigits(s)
  {
    if |s| == 0 then 0
    else DigitsValue(s[..|s| - 1]) * 10 + (s[|s| - 1] as int - '0' as int)
  }

  /** Python's `str(n)` for an integer. */
  function Decimal(n: int): string {
    if n < 0 then "-" + Digits(-n) else Digits(n)
  }

  /**
   * An optional sign followed by decimal digits and nothing else: the
   * integer text SQLite's INTEGER affinity converts, and the core of what
   * Python's `int()` accepts.
   */
  function ParseInt(s: string): Option<int> {
    if |s| > 1 && (s[0] == '-' || s[0] == '+') && AllDigits(s[1..]) then
      var magnitude: int := DigitsValue(s[1..]);
      Some(if s[0] == '-' then -magnitude else magnitude)
    else if |s| > 0 && AllDigits(s) then Some(DigitsValue(s))
    else None
  }

  /** Python's `str.isspace()`: the characters `int()` ignores at either end of its argument. */
  predicate IsSpace(c: char) {
    || c == ' ' || '\t' <= c <= '\r' || '\U{1C}' <= c <= '\U{1F}' || c == '\U{85}' || c == '\U{A0}'
    || c == '\U{1680}' || '\U{2000}' <= c <= '\U{200A}' || c == '\U{2028}' || c == '\U{2029}'
    || c == '\U{202F}' || c == '\U{205F}' || c == '\U{3000}'
  }

  /** `s.strip()`: `s` without the whitespace at either end. */
  function Strip(s: string): (r: string)
    ensures |r| <= |s|
    ensures |r| > 0 ==> !IsSpace(r[0]) && !IsSpace(r[|r| - 1])
    decreases |s|
  {
    if |s| > 0 && IsSpace(s[0]) then Strip(s[1..])
    else if |s| > 0 && IsSpace(s[|s| - 1]) then Strip(s[..|s| - 1])
    else s
  }

  /** Decimal digits in groups joined by single underscores, as Python's integer literals write them. */
  predicate Grouped(s: string) {
    && |s| > 0 && IsDigit(s[0]) && IsDigit(s[|s| - 1])
    && (forall i :: 0 <= i < |s| ==> IsDigit(s[i]) || s[i] == '_')
    && (forall i :: 0 <= i < |s| - 1 ==> IsDigit(s[i]) || IsDigit(s[i + 1]))
  }

  /** The digits of a grouped number with its underscores dropped. */
  function Ungroup(s: string): (r: string)
    ensures (forall i :: 0 <= i < |s| ==> IsDigit(s[i]) || s[i] == '_') ==> AllDigits(r)
    ensures |r| <= |s|
  {
    if |s| == 0 then [] else (if s[0] == '_' then [] else [s[0]]) + Ungroup(s[1..])
  }

  /**
   * Python's `int()` on text: whitespace at either end is ignored, then an
   * optional sign and digit groups joined by single underscores.
   */
  function PyInt(s: string): Option<int> {
    var t := Strip(s);
    var signed := |t| > 0 && (t[0] == '-' || t[0] == '+');
    var body := if signed then t[1..] else t;
    if Grouped(body) then
      var magnitude: int := DigitsValue(Ungroup(body));
      Some(if signed && t[0] == '-' then -magnitude else magnitude)
    else None
  }

  /** A number written without underscores ungroups to itself. */
  lemma {:induction false} UngroupPlain(s: string)
    requires AllDigits(s)
    ensures Ungroup(s) == s
  {
    if |s| > 0 {
      UngroupPlain(s[1..]);
    }
  }

  /** Without whitespace or underscores, Python's `int()` and SQLite's integer text agree. */
  lemma PyIntPlain(s: string)
    requires forall i :: 0 <= i < |s| ==> !IsSpace(s[i]) && s[i] != '_'
    ensures PyInt(s) == ParseInt(s)
  {
    assert Strip(s) == s;
    var signed := |s| > 0 && (s[0] == '-' || s[0] == '+');
    var body := if signed then s[1..] else s;
    if Grouped(body) {
      assert AllDigits(body);
      UngroupPlain(body);
    } else if signed && |s| > 1 && AllDigits(s[1..]) {
      assert Grouped(body);
    } else if !signed && |s| > 0 && AllDigits(s) {
      assert Grouped(body);
    }
  }

  /** Whitespace around a number is ignored: `int(" 7 ") == int("7")`. */
  lemma {:induction false} StripPadded(pre: string, s: string, post: string)
    requires forall i :: 0 <= i < |pre| ==> IsSpace(pre[i])
    requires forall i :: 0 <= i < |post| ==> IsSpace(post[i])
    ensures Strip(pre + s + post) == Strip(s)
    decreases |pre| + |s| + |post|
  {
    var x := pre + s + post;
    if |pre| > 0 {
      assert x[0] == pre[0] && x[1..] == pre[1..] + s + post;
      StripPadded(pre[1..], s, post);
    } else if |post| == 0 {
      assert x == s;
    } else if |s| == 0 {
      assert x == post && x[1..] == [] + [] + post[1..];
      StripPadded([], [], post[1..]);
    } else if IsSpace(s[0]) {
      assert x[0] == s[0] && x[1..] == [] + s[1..] + post;
      StripPadded([], s[1..], post);
    } else {
      assert x[0] == s[0] && x[..|x| - 1] == [] + s + post[..|post| - 1];
      StripPadded([], s, post[..|post| - 1]);
    }
  }

  /** Python's `int()` ignores whitespace at either end of the text. */
  lemma PyIntPadded(pre: string, s: string, post: string)
    requires forall i :: 0 <= i < |pre| ==> IsSpace(pre[i])
    requires forall i :: 0 <= i < |post| ==> IsSpace(post[i])
    ensures PyInt(pre + s + post) == PyInt(s)
  {
    StripPadded(pre, s, post);
  }

  /** `int(str(n)) == n` in Python as well. */
  lemma PyIntDecimal(n: int)
    ensures PyInt(Decimal(n)) == Some(n)
  {
    var m := if n < 0 then -n else n;
    DigitsAreDigits(m);
    var d := Decimal(n);
    assert forall i :: 0 <= i < |d| ==> IsDigit(d[i]) || d[i] == '-';
    PyIntPlain(d);
    DecimalRoundTrip(n);
  }

  function Zeros(k: nat): string {
    seq(k, _ => '0')
  }

  /** printf's `%0<width>d`: the sign, then zeros up to `width` characters, then the digits. */
  function ZeroPadded(n: int, width: nat): string {
    var sign := if n < 0 then "-" else "";
    var digits := Digits(if n < 0 then -n else n);
    var pad := width - |sign| - |digits|;
    sign + Zeros(if pad > 0 then pad else 0) + digits
  }

  lemma {:induction false} DigitsAreDigits(n: nat)
    ensures AllDigits(Digits(n)) && |Digits(n)| >= 1
    decreases n
  {
    if n >= 10 {
      DigitsAreDigits(n / 10);
    }
  }

  /** `Digits` and `DigitsValue` are inverse: rendering then reading gives `n` back. */
  lemma {:induction false} DigitsRoundTrip(n: nat)
    ensures AllDigits(Digits(n)) && DigitsValue(Digits(n)) == n
    decreases n
  {
    DigitsAreDigits(n);
    if n >= 10 {
      DigitsRoundTrip(n / 10);
      var s := Digits(n);
      assert s[..|s| - 1] == Digits(n / 10);
    }
  }

  /** Leading zeros do not change the value of a digit string. */
  lemma {:induction false} LeadingZerosValue(k: nat, d: string)
    requires AllDigits(d)
    ensures AllDigits(Zeros(k) + d) && DigitsValue(Zeros(k) + d) == DigitsValue(d)
    decreases |d|, k
  {
    var s := Zeros(k) + d;
    if |d| == 0 {
      assert s == Zeros(k);
      if k > 0 {
        assert s[..|s| - 1] == Zeros(k - 1) + d;
        LeadingZerosValue(k - 1, d);
      }
    } else {
      assert s[..|s| - 1] == Zeros(k) + d[..|d| - 1];
      LeadingZerosValue(k, d[..|d| - 1]);
    }
  }

  /** `int(str(n)) == n` for every integer. */
  lemma DecimalRoundTrip(n: int)
    ensures ParseInt(Decimal(n)) == Some(n)
  {
    var m := if n < 0 then -n else n;
    DigitsRoundTrip(m);
    DigitsAreDigits(m);
    ParseDigits(Digits(m));
  }

  /** A digit string reads as its value, and with a leading minus as its negation. */
  lemma ParseDigits(d: string)
    requires AllDigits(d) && |d| >= 1
    ensures ParseInt(d) == Some(DigitsValue(d))
    ensures ParseInt("-" + d) == Some(-(DigitsValue(d) as int))
  {
    assert IsDigit(d[0]);
    var s := "-" + d;
    assert s[0] == '-' && s[1..] == d;
  }

  /** Reading a zero-padded non-negative number gives the number back. */
  lemma ZeroPaddedRoundTrip(n: nat, width: nat)
    ensures AllDigits(ZeroPadded(n, width))
    ensures ParseInt(ZeroPadded(n, width)) == Some(n)
  {
    var pad := width - |Digits(n)|;
    var k: nat := if pad > 0 then pad else 0;
    DigitsRoundTrip(n);
    LeadingZerosValue(k, Digits(n));
    DigitsAreDigits(n);
    assert ZeroPadded(n, width) == Zeros(k) + Digits(n);
    ParseDigits(Zeros(k) + Digits(n));
  }

  /** Padding reaches the requested width once the digits fit in it. */
  lemma ZeroPaddedWidth(n: nat, width: nat)
    requires |Digits(n)| <= width
    ensures |ZeroPadded(n, width)| == width
  {
  }

  /** Numbers below 10^6 have at most six digits. */
  lemma {:induction false} DigitsBelowMillion(n: nat)
    requires n < 1000000
    ensures |Digits(n)| <= 6
  {
    assert Pow10(6) == 1000000;
    DigitsBelow(n, 6);
  }

  function Pow10(k: nat): nat {
    if k == 0 then 1 else 10 * Pow10(k - 1)
  }

  lemma {:induction false} DigitsBelow(n: nat, k: nat)
    requires n < Pow10(k) && k >= 1
    ensures |Digits(n)| <= k
    decreases k
  {
    if n >= 10 {
      assert k >= 2;
      assert n / 10 < Pow10(k - 1);
      DigitsBelow(n / 10, k - 1);
    }
  }
}

=== FILE: tables.dfy ===
/**
 * SQLite tables with an `INTEGER PRIMARY KEY AUTOINCREMENT` column, as
 * values: the rows keyed by rowid, and `last`, the largest rowid the table
 * has ever handed out (SQLite's `sqlite_sequence` entry). Also the "first
 * matching row" of a `fetchone()` without a unique key, which is the row
 * with the least rowid.
 */
module Tables {
  import opened Wrappers

  datatype Table<T> = Table(rows: map<int, T>, last: int)

  /** Every rowid is at most `last`, and `last` never goes below zero. */
  ghost predicate Valid<T>(t: Table<T>) {
    t.last >= 0 && forall k :: k in t.rows ==> k <= t.last
  }

  function Empty<T>(): (t: Table<T>)
    ensures Valid(t) && t.rows == map[]
  {
    Table(map[], 0)
  }

  /** `INSERT` without an id: the new row gets a rowid never used before. */
  function Append<T>(t: Table<T>, v: T): (r: (Table<T>, int))
    requires Valid(t)
    ensures Valid(r.0)
    ensures r.1 > 0 && r.1 !in t.rows && r.1 > t.last
    ensures r.0.rows == t.rows[r.1 := v]
    ensures r.1 == t.last + 1 && r.0.last == r.1
  {
    (Table(t.rows[t.last + 1 := v], t.last + 1), t.last + 1)
  }

  /**
   * `rows` after the values are inserted one by one without ids, starting
   * from sequence value `last`: the i-th value gets rowid `last + 1 + i`,
   * and the rows at or below `last` are kept.
   */
  function Appended<T>(rows: map<int, T>, last: int, values: seq<T>): map<int, T> {
    if values == [] then rows
    else Appended(rows, last, values[..|values| - 1])[last + |values| := values[|values| - 1]]
  }

  /** The rows of `Appended`: the kept ones, and the i-th value at rowid `last + 1 + i`. */
  lemma {:induction false} AppendedRows<T>(rows: map<int, T>, last: int, values: seq<T>)
    ensures forall k :: k in Appended(rows, last, values) <==> k in rows || last < k <= last + |values|
    ensures forall k :: k in rows && k <= last ==> Appended(rows, last, values)[k] == rows[k]
    ensures forall i :: 0 <= i < |values| ==> Appended(rows, last, values)[last + 1 + i] == values[i]
  {
    if values != [] {
      AppendedRows(rows, last, values[..|values| - 1]);
    }
  }

  /** Inserting one more value extends the result by the next rowid. */
  lemma AppendedSnoc<T>(rows: map<int, T>, last: int, values: seq<T>, v: T)
    ensures Appended(rows, last, values + [v]) == Appended(rows, last, values)[last + |values| + 1 := v]
  {
    assert (values + [v])[..|values|] == values;
  }

  /** `INSERT` with an explicit rowid (the caller has removed any clash). */
  function Put<T>(t: Table<T>, id: int, v: T): (r: Table<T>)
    requires Valid(t)
    ensures Valid(r)
    ensures r.rows == t.rows[id := v]
    ensures r.last >= t.last
  {
    Table(t.rows[id := v], if id > t.last then id else t.last)
  }

  /** `DELETE` of the given rowids; `sqlite_sequence` is left as it is. */
  function Delete<T>(t: Table<T>, ids: set<int>): (r: Table<T>)
    requires Valid(t)
    ensures Valid(r)
    ensures r.rows.Keys == t.rows.Keys - ids
    ensures forall k :: k in r.rows ==> r.rows[k] == t.rows[k]
  {
    Table(map k | k in t.rows && k !in ids :: t.rows[k], t.last)
  }

  /** Rowids whose row satisfies `p`. */
  function Where<T>(rows: map<int, T>, p: T -> bool): (ids: set<int>)
    ensures forall k :: k in ids <==> k in rows && p(rows[k])
  {
    set k | k in rows && p(rows[k])
  }

  /** A set other than the empty one has a member. */
  lemma MemberOf(s: set<int>) returns (x: int)
    requires s != {}
    ensures x in s
  {
    assert (forall y :: y !in s) ==> s == {};
    x :| x in s;
  }

  lemma {:induction false} LeastExists(s: set<int>)
    requires s != {}
    ensures exists m :: m in s && forall y :: y in s ==> m <= y
    decreases |s|
  {
    var x := MemberOf(s);
    if s != {x} {
      var rest := s - {x};
      LeastExists(rest);
      var m :| m in rest && forall y :: y in rest ==> m <= y;
      var least := if x < m then x else m;
      forall y | y in s
        ensures least <= y
      {
        if y != x {
          assert y in rest;
        }
      }
      assert least in s;
    } else {
      assert forall y :: y in s ==> x <= y;
    }
  }

  lemma {:induction false} GreatestExists(s: set<int>)
    requires s != {}
    ensures exists m :: m in s && forall y :: y in s ==> y <= m
    decreases |s|
  {
    var x := MemberOf(s);
    if s != {x} {
      var rest := s - {x};
      GreatestExists(rest);
      var m :| m in rest && forall y :: y in rest ==> y <= m;
      var greatest := if m < x then x else m;
      forall y | y in s
        ensures y <= greatest
      {
        if y != x {
          assert y in rest;
        }
      }
      assert greatest in s;
    } else {
      assert forall y :: y in s ==> y <= x;
    }
  }

  function Least(s: set<int>): (m: int)
    requires s != {}
    ensures m in s && forall y :: y in s ==> m <= y
  {
    LeastExists(s);
    var m :| m in s && forall y :: y in s ==> m <= y;
    m
  }

  /** SQL `MAX(...)` over a non-empty set of integers. */
  function Greatest(s: set<int>): (m: int)
    requires s != {}
    ensures m in s && forall y :: y in s ==> y <= m
  {
    GreatestExists(s);
    var m :| m in s && forall y :: y in s ==> y <= m;
    m
  }

  /** `SELECT id ... WHERE p LIMIT 1` in rowid order: the least matching rowid. */
  function FirstWhere<T>(rows: map<int, T>, p: T -> bool): (r: Option<int>)
    ensures r.Some? ==> r.value in rows && p(rows[r.value])
    ensures r.Some? ==> forall k :: k in rows && p(rows[k]) ==> r.value <= k
    ensures r.None? <==> forall k :: k in rows ==> !p(rows[k])
  {
    var ids := Where(rows, p);
    if ids == {} then None else Some(Least(ids))
  }
}

=== FILE: wrappers.dfy ===
/** Failure-compatible wrappers shared by every module of the model. */
module Wrappers {

  /** A value that may be absent: SQL NULL, Python None, a missing map entry. */
  datatype Option<+T> = None | Some(value: T) {

    /** The wrapped value, or `default` when there is none. */
    function GetOr(default: T): T {
      match this
      case Some(v) => v
      case None => default
    }
  }

  /** The outcome of a statement that either yields a value or raises. */
  datatype Result<+T, +E> = Ok(value: T) | Err(error: E) {

    predicate IsFailure() {
      Err?
    }

    function PropagateFailure<U>(): Result<U, E>
      requires Err?
    {
      Err(error)
    }

    function Extract(): T
      requires Ok?
    {
      value
    }
  }

  /** Why a Python statement or an SQL statement of the source raised. */
  datatype Fault =
    | KeyMissing(column: string)    // `row[col]` on a sheet without that column
    | NotAnInteger                  // `int(x)` on NaN or on text that is not a number
    | NotNullViolated(column: string)
    | CheckViolated(constraint: string)
    | ForeignKeyViolated(column: string)
    | NoSuchRow(table: string)      // `fetchone()[...]` on an empty result
    | GeneratedColumnWrite(column: string)
    | UniqueViolated(column: string)
    | DatatypeMismatch              // a non-integer written to an INTEGER PRIMARY KEY
    | NoSuchTable(table: string)
    | UnsupportedType               // a parameter sqlite3 has no adapter for: a pd.Timestamp
}
